=== FILE: README.md ===
# Sparkify data-lake ETL, modelled in Dafny

This project models the row-level logic of `etl.py`. That script is a PySpark job that turns two JSON datasets into five analytics tables:

- the song catalogue (one record per song, with its artist);
- the player's event log (one record per user action).

The job has two parts:

- `process_song_data` projects the catalogue into `songs` and `artists`.
- `process_log_data` keeps the `NextSong` events and projects them into `users`. It then derives two text columns from `ts`, builds the `time` table from them, and joins the events with the catalogue to build `songplays`.

Tables are modelled as positional data frames. A frame is a list of column names plus a list of rows, and a row is a list of values. Each DataFrame operation the job uses is a pure function that can fail:

- `select` fails with a missing or ambiguous column.
- `filter` compares with SQL equality, under which a null matches nothing.
- `withColumn` with a Python function fails when the function raises.
- `withColumn` with a built-in column function returns null on an unparsable input.
- The inner join keeps every matching pair of rows, as often as the pair occurs.
- `dropDuplicates`, `withColumnRenamed` and row numbering are modelled too.

Tables are compared by membership (after `dropDuplicates`) or by multiplicity (before it). Order is claimed only for the `songplays` rows, and only relative to the join: the select, the renaming and the numbering keep the order of the joined rows. The order in which Spark itself produces rows is not claimed.

The calendar is the proleptic Gregorian calendar on day numbers from 1970-01-01. It is read in UTC. The years are limited to 1..9999, the range of Python's `datetime`. On top of it the model defines:

- ISO 8601 week numbers;
- Spark's `dayofweek`, where 1 is Sunday;
- the `YYYY-MM-DD HH:MM:SS` text that `str(datetime)` writes, with its read-back.

The modules, in dependency order:

| module | file | contents |
|---|---|---|
| `Wrappers` | wrappers.dfy | `Option` and `Result` |
| `Values` | values.dfy | JSON cell values and SQL equality |
| `Collections` | collections.dfy | `NoDuplicates`, filtering with multiplicities, duplicate removal |
| `Decimal` | decimal.dfy | decimal text of integers, with parsing and zero padding |
| `Calendar` | calendar.dfy | civil dates from day numbers and back, ISO weeks, weekdays, epoch seconds |
| `DateTimeText` | datetime_text.dfy | the `str(datetime)` text and its parser |
| `Frames` | frames.dfy | frames, column resolution, `select`, `filter`, `withColumn`, `withColumnRenamed`, `dropDuplicates`, row numbers |
| `Joins` | joins.dfy | the inner join on pairs of column names |
| `Timestamps` | timestamps.dfy | the two Python functions `get_timestamp` and `get_datetime`, and Spark's `hour`, `dayofmonth`, `weekofyear`, `month`, `year`, `dayofweek` |
| `SongData` | song_data.dfy | song records, the `songs` and `artists` tables |
| `LogData` | log_data.dfy | log records, the `NextSong` filter, the `users` table |
| `TimeData` | time_data.dfy | the `timestamp` and `datetime` columns on the plays |
| `TimeTable` | time_table.dfy | the `time` table, as written and corrected |
| `Songplays` | songplays.dfy | the join and the `songplays` statements, as written and corrected |
| `Jobs` | jobs.dfy | the two jobs as sequences of written tables |

## Model

| member | source | states |
|---|---|---|
| `SongData.SongsTable` | etl.py:48-54 | `songs` has the five columns `song_id, title, artist_id, year, duration`, no two equal rows, and holds exactly the five-column projections of the input records |
| `SongData.SongsTableIdempotent` | etl.py:54 | removing duplicates from `songs` again changes nothing |
| `SongData.SelectSongs` | etl.py:48-54 | selecting the five song columns from the catalogue frame succeeds and picks each row's values by position |
| `SongData.ArtistsTable` | etl.py:63-68 | `artists` keeps the raw names `artist_id, artist_name, artist_location, artist_latitude, artist_longitude`, has no two equal rows, and holds exactly the artist projections of the input records |
| `SongData.SelectArtists` | etl.py:63-68 | selecting the five artist columns succeeds and picks each row's values by position |
| `SongData.ArtistRowIn` | etl.py:63-68 | every input record's artist projection is a row of `artists` |
| `SongData.ArtistsKeepEveryLocation` | etl.py:63-68 | two records of one `artist_id` with different locations both stay in `artists`, as two rows with the same key |
| `SongData.SongRowInjective` | etl.py:45 | different song records give different catalogue rows |
| `SongData.SongFrameCount` | etl.py:45 | each song record occurs in the catalogue frame as often as in the input |
| `LogData.LogRowInjective` | etl.py:80 | different log records give different log rows |
| `LogData.LogFrameCount` | etl.py:80 | each log record occurs in the log frame as often as in the input |
| `LogData.PlaysFilter` | etl.py:82 | the filter on `page` resolves, keeps the columns, and keeps a row as often as it occurs exactly when its `page` equals `NextSong` under SQL equality |
| `LogData.Plays` | etl.py:82 | every kept row is the row of a `NextSong` record of the input, and each record occurs among the kept rows as often as in the input if it is a play and never otherwise |
| `LogData.PlayRow` | etl.py:82 | a record's row is kept if and only if the record is in the input and is a play |
| `LogData.SelectUsers` | etl.py:84-89 | selecting the five user columns succeeds and picks each row's values by position |
| `LogData.UsersTable` | etl.py:84-89 | `users` keeps the raw names `userId, firstName, lastName, gender, level`, has no two equal rows, and holds exactly the user projections of the plays |
| `LogData.UserRowIn` | etl.py:84-89 | every play's user projection is a row of `users` |
| `LogData.UserOnBothLevels` | etl.py:84-89 | a user who plays once on `free` and once on `paid` gets two rows of `users` that differ only in `level` |
| `Timestamps.TruncDiv` | etl.py:94 | the quotient is rounded toward zero, for negative dividends too |
| `Timestamps.Seconds` | etl.py:94 | the seconds exist exactly when `int(ts)` does, and they are that number divided by 1000, rounded toward zero |
| `Timestamps.TimestampUdf` | etl.py:94 | `get_timestamp` succeeds exactly when `int(ts)` does, gives a text value, and fails with the `timestamp` column's error otherwise |
| `Timestamps.TimestampReadsBack` | etl.py:94 | reading the `timestamp` text as an integer gives back the seconds |
| `Timestamps.TimestampExample` | etl.py:94 | `ts = 1542837407796` gives the text `1542837407` |
| `Timestamps.DatetimeUdf` | etl.py:97 | `get_datetime` succeeds exactly when `int` of its input exists and lies within the years 1..9999, and fails with the `datetime` column's error otherwise |
| `Timestamps.DatetimeReadsBack` | etl.py:97 | the `datetime` text parses back to a date and time whose epoch seconds are the input |
| `Timestamps.DateTimeOfFormatted` | etl.py:97-101 | the text `str(datetime)` writes is read back as that date and time |
| `Timestamps.HourOf` | etl.py:101 | `hour` is null exactly when the text is not of the form `YYYY-MM-DD HH:MM:SS`, and otherwise lies in 0..23 |
| `Timestamps.DayOf` | etl.py:102 | `dayofmonth` is null exactly when the text is not of the form `YYYY-MM-DD HH:MM:SS`, and otherwise lies in 1..31 |
| `Timestamps.WeekOf` | etl.py:103 | `weekofyear` is null exactly when the text is not of the form `YYYY-MM-DD HH:MM:SS`, and otherwise lies in 1..53 |
| `Timestamps.MonthOf` | etl.py:104 | `month` is null exactly when the text is not of the form `YYYY-MM-DD HH:MM:SS`, and otherwise lies in 1..12 |
| `Timestamps.YearOf` | etl.py:105 | `year` is null exactly when the text is not of the form `YYYY-MM-DD HH:MM:SS`, and otherwise lies in 1..9999 |
| `Timestamps.WeekdayOf` | etl.py:106 | `dayofweek` is null exactly when the text is not of the form `YYYY-MM-DD HH:MM:SS`, and otherwise lies in 1..7 |
| `Calendar.DaysFromCivil` | etl.py:97 | the day number of a valid date lies in the year's span of day numbers |
| `Calendar.CivilFromDays` | etl.py:97 | every day number in range is the day number of a valid date |
| `Calendar.CivilFromDaysOfDate` | etl.py:97 | the date of a date's day number is that date |
| `Calendar.DaysFromCivilInjective` | etl.py:97 | two valid dates with the same day number are equal |
| `Calendar.YearStartMonotone` | etl.py:97 | a later year starts at least 365 days per year later |
| `Calendar.YearOfDayUnique` | etl.py:97 | a day number lies in the span of exactly one year |
| `Calendar.MonthOfDayUnique` | etl.py:97 | a day of the year lies in exactly one month |
| `Calendar.UtcDateTime` | etl.py:97 | the UTC date and time of an epoch second is valid and has that epoch second |
| `Calendar.UtcDateTimeOfEpochSeconds` | etl.py:97 | the UTC date and time of a date and time's epoch second is that date and time |
| `Calendar.WeekdayFacts` | etl.py:106 | 1970-01-01 is a Thursday, Spark weekday 5, and both weekday counts advance by one each day, wrapping after 7 |
| `Calendar.WeekThursday` | etl.py:103 | the Thursday of a day's ISO week lies within three days of it |
| `Calendar.IsoWeek` | etl.py:103 | the ISO week number lies in 1..53 |
| `Calendar.JanuaryFourthInWeekOne` | etl.py:103 | January 4 is always in ISO week 1 |
| `Calendar.DecemberTwentyEighthInLastWeek` | etl.py:103 | December 28 is always in week 52 or 53 |
| `Calendar.NextWeek` | etl.py:103 | the Monday after a Sunday starts the next week or week 1 |
| `DateTimeText.FormatLayout` | etl.py:97 | the text has its separators at positions 4, 7, 10, 13, 16, with the zero-padded fields between them |
| `DateTimeText.ParseFormatDateTime` | etl.py:97-101 | parsing the written text gives back the date and time |
| `DateTimeText.FormatDateTimeInjective` | etl.py:97 | different dates and times give different texts |
| `Decimal.ParseShowInt` | etl.py:94-97 | parsing the decimal text of an integer gives the integer back |
| `Decimal.ShowIntInjective` | etl.py:94 | different integers have different decimal texts |
| `Decimal.DigitsValueOfPadDigits` | etl.py:97 | a zero-padded field reads back as its number when the number fits |
| `Frames.Resolve` | etl.py:54 | a name resolves exactly when one column has it, and otherwise fails with the ambiguous or the missing column |
| `Frames.Select` | etl.py:54 | `select` succeeds exactly when every name resolves, fails with the first unresolved name's error, and projects every row by name |
| `Frames.SelectMissing` | etl.py:137 | a select whose first unresolved name is absent fails with that missing column |
| `Frames.SelectAt` | etl.py:54 | on distinct columns, a select by names found at given positions succeeds and picks those positions |
| `Frames.FilterEquals` | etl.py:82 | the filter keeps the columns and keeps each row as often as it occurs exactly when its value equals the given one |
| `Frames.WithDerived` | etl.py:95-98 | a column computed by a Python function succeeds exactly when the input resolves and the function accepts every row, and sets the new column of each row |
| `Frames.WithDerivedAppends` | etl.py:95-98 | with a fresh name, the computed column is appended, and a failure is the error of some row |
| `Frames.WithComputed` | etl.py:101-106 | a column computed by a built-in function succeeds exactly when the input resolves |
| `Frames.WithComputedAllAppends` | etl.py:101-106 | a chain of built-in columns with fresh distinct names appends each row's values in order |
| `Frames.WithRowNumber` | etl.py:142 | the numbered frame keeps every row as its prefix and appends strictly increasing positive integers, so no two rows are equal |
| `Frames.WithColumnRenamed` | etl.py:140-141 | renaming keeps the rows, turns every column called `existing` into `renamed` in place, keeps the other names, and changes nothing when no column is called `existing` |
| `Frames.RenamePairs` | etl.py:138-141 | the rename loop keeps the rows and the number of columns |
| `Frames.RenamePairsColumns` | etl.py:138-141 | when no new name captures a later old name, the loop turns the old names into the new ones in place |
| `Frames.DropDuplicates` | etl.py:54 | `dropDuplicates` keeps the columns, leaves no two equal rows, and keeps exactly the rows of the input |
| `Frames.DropDuplicatesIdempotent` | etl.py:54 | removing duplicates twice is removing them once |
| `Collections.Where` | etl.py:82 | filtering keeps the multiplicity of each element that passes and drops the others |
| `Collections.Distinct` | etl.py:54 | duplicate removal leaves no repeats and the same elements, and never lengthens the list |
| `Collections.DistinctOfNoDuplicates` | etl.py:54 | a list without repeats is its own duplicate removal |
| `Collections.NoDuplicatesCounts` | etl.py:54 | in a list without repeats every element occurs once |
| `Collections.CountImage` | etl.py:119-142 | a list that holds `y` wherever another as long holds `x` holds `y` at least as often |
| `Joins.PrefixedCount` | etl.py:116-118 | prefixing a left row to the right rows keeps the right rows' counts |
| `Joins.JoinRowsCount` | etl.py:116-118 | a joined row occurs as often as its left part times its right part when they match, and never otherwise |
| `Joins.JoinRowsSound` | etl.py:116-118 | every joined row is a left row followed by a matching right row |
| `Joins.MatchAtAgrees` | etl.py:117-118 | the condition on resolved positions is the condition on column names |
| `Joins.ResolvableNames` | etl.py:116-118 | the condition resolves exactly when both lists of its column names resolve |
| `Joins.JoinResolved` | etl.py:116-118 | with the condition's columns resolved, the join has the left columns then the right ones and is sound and complete with multiplicities |
| `Joins.InnerJoin` | etl.py:116-118 | the join succeeds exactly when the key names resolve, has the left columns then the right ones, and is sound and complete with multiplicities |
| `TimeData.StampsAll` | etl.py:94-95 | `get_timestamp` accepts every play's row exactly when `int` accepts every play's `ts` |
| `TimeData.DatesAll` | etl.py:97-98 | `get_datetime` accepts every stamped row exactly when every play's seconds lie in range |
| `TimeData.DatetimeOfStamp` | etl.py:94-97 | `get_datetime` on a `timestamp` text succeeds exactly in range and gives that second's text |
| `TimeData.Stamped` | etl.py:94-95 | the `timestamp` column succeeds exactly when every play has seconds, and then appends each play's seconds text |
| `TimeData.Timed` | etl.py:94-98 | the two text columns succeed exactly when every play's `ts` is usable; a failure is the first function's when some play has no seconds; each play's row with its two texts occurs as often as the play |
| `TimeData.TimedContents` | etl.py:94-98 | the extended rows are exactly the plays' rows with their texts, with the plays' multiplicities |
| `TimeTable.StartedAsWrittenFails` | etl.py:100 | line 100 as written fails on every frame of the timed columns with the missing `timestamp`, because the select has dropped it |
| `TimeTable.TableAsWritten` | etl.py:100-107 | the `time` table as written always fails with the missing `timestamp`, whatever values the log's records hold |
| `TimeTable.Started` | etl.py:100 | line 100 corrected: each row's `datetime` beside that row's `timestamp`, renamed `start_time` |
| `TimeTable.Parted` | etl.py:100-106 | the chain of six built-in columns gives each row the time row of its `datetime` and `timestamp` texts |
| `TimeTable.TimeOfTexts` | etl.py:100-106 | the time row built from a second's two texts is that second's time row |
| `TimeTable.TimeRowsOfPlays` | etl.py:100-106 | the rows before `dropDuplicates` are exactly the time rows of the usable plays |
| `TimeTable.Table` | etl.py:100-107 | with line 100 corrected, `time` succeeds exactly when every play's `ts` is usable, fails with the text columns' error otherwise, has no two equal rows, and holds exactly the plays' time rows |
| `TimeTable.TimeRowBounds` | etl.py:100-107 | hour, day, week, month, year and weekday lie in their ranges; the day fits its month; the weekday is that of the date, 1 being Sunday |
| `TimeTable.TimeRowReadsBack` | etl.py:100-107 | the `datetime` of a time row reads back as that second, and `start_time` reads back as the second |
| `TimeTable.TimeRowKeyed` | etl.py:100-107 | two time rows with the same `start_time` are the same row of the same second |
| `TimeTable.KeyedRows` | etl.py:107 | in the deduplicated table `start_time` is a key |
| `TimeTable.TableKeyed` | etl.py:100-107 | no two rows of `time` share a `start_time` |
| `TimeTable.TimeRowExample` | etl.py:94-107 | `ts = 1542837407796` gives second 1542837407, whose time row is the time row of 2018-11-21 21:56:47 UTC, week 47, weekday 4 |
| `Songplays.JoinOnKeys` | etl.py:116-118 | the join condition holds exactly when `artist` equals `artist_name` and `song` equals `title` under SQL equality |
| `Songplays.MatchesAt` | etl.py:116-118 | a play's row and a song's row satisfy the join condition exactly when the play matches the song |
| `Songplays.AsWrittenJoin` | etl.py:116-118 | the join as written succeeds and has the timed columns then the catalogue's |
| `Songplays.SelectWithoutMonth` | etl.py:119-137 | when the other eight names resolve and no column is called `month`, the select fails with the missing `month` |
| `Songplays.AsWrittenSelect` | etl.py:119-137 | on the joined columns as written, the select fails with the missing `month` |
| `Songplays.AsWrittenFails` | etl.py:114-142 | on every frame of the timed columns, with rows or without, the `songplays` statements as written stop at the select with the missing `month` |
| `Songplays.SongplaysAsWritten` | etl.py:114-142 | as written the `songplays` statements never produce a table: Spark resolves the select from the columns before any row is computed, so it fails with the missing `month` whatever values the records hold |
| `Songplays.IdAsWrittenDropped` | etl.py:142 | the numbering statement as written leaves no `songplay` column, though the frame it computes has one |
| `Songplays.Monthed` | etl.py:104 | the plays with a `month` column derived from their `datetime` succeed exactly when the time columns do, and hold each usable play's row as often as the play occurs |
| `Songplays.RenameStep` | etl.py:128-141 | the rename loop turns the nine selected names into the nine table names and keeps the rows |
| `Songplays.SelectPicks` | etl.py:119-137 | with the names found at their join positions, the select succeeds and picks those positions |
| `Songplays.PickSongplay` | etl.py:119-137 | the selected values of a joined pair are the play's start time, user, level, session, location and agent, the song's id and year, and the play's month |
| `Songplays.Joined` | etl.py:116-118 | the join succeeds exactly when the time columns do; every joined row is a matching play and song; each matching pair occurs as often as the play times the song |
| `Songplays.JoinMonthed` | etl.py:116-118 | the join of the monthed plays with the catalogue is sound, and counts each pair as the product of its multiplicities |
| `Songplays.PickedRows` | etl.py:119-137 | the selected rows are exactly the songplay rows of the matching pairs |
| `Songplays.NumberedIds` | etl.py:142 | strictly increasing row numbers give every row a different id |
| `Songplays.SongplaysOf` | etl.py:119-142 | from a sound and complete join, the table has the renamed columns plus `songplay`, a row for every matching pair, only such rows, and distinct ids |
| `Songplays.SongplaysOfRows` | etl.py:119-142 | the table selected, renamed and numbered from a join has one row for each joined row, in order, starting with that row's nine selected values |
| `Songplays.Songplays` | etl.py:94-142 | the corrected `songplays` succeeds exactly when every play's `ts` is usable, fails with the text columns' error otherwise, and is the table of matching pairs with distinct ids |
| `Songplays.UnmatchedNoRow` | etl.py:116-118 | a play and a song that do not match give no joined row |
| `Songplays.NonPlayNoRow` | etl.py:82-118 | a record that is not a `NextSong` event gives no joined row |
| `Songplays.MatchedRows` | etl.py:116-118 | a play matching a song gives as many joined rows as the play occurs times the song occurs |
| `Songplays.SongplaysRows` | etl.py:116-142 | the corrected `songplays` table has one row for each joined row, in order, starting with that row's nine selected values |
| `Songplays.SongplaysPerPair` | etl.py:116-142 | for a play and a song it matches, at least as many rows of `songplays` start with their songplay row as the play occurs times the song occurs (more when other pairs share that row) |
| `Songplays.NoMatchNoRows` | etl.py:116-142 | when no play matches any song, `songplays` is empty |
| `Jobs.ProcessSongData` | etl.py:30-73 | the song job completes and writes `songs`, then `artists`, each exactly the distinct projections of the catalogue |
| `Jobs.LogRun` | etl.py:89-147 | the log job writes `users`, then `time`, then `songplays`, and stops at the first step that fails, keeping what it wrote |
| `Jobs.ProcessLogData` | etl.py:76-147 | as written, the log job writes `users` and stops at line 100 with the missing `timestamp`, whatever values the log's records hold |
| `Jobs.ProcessLogDataStartFixed` | etl.py:76-147 | with line 100 corrected but the `songplays` statements as written, the log job never completes and writes one or two tables |
| `Jobs.StartFixedRun` | etl.py:76-147 | with line 100 corrected but the `songplays` statements as written, the log job writes `time` exactly when every play's `ts` is usable and then stops on `month`; otherwise it stops with the text columns' error after `users` |
| `Jobs.ProcessLogDataCorrected` | etl.py:76-147 | the corrected log job completes exactly when every play's `ts` is usable, writing three tables, and otherwise writes only `users` |
| `Jobs.UsersWrittenFirst` | etl.py:84-92 | every version of the log job writes `users` first, holding exactly the distinct user projections of the plays |
| `Jobs.CorrectedRun` | etl.py:100-147 | a completed corrected run wrote the `time` table of the plays and the `songplays` table of the matching pairs, one row per joined row |
| `Jobs.CorrectedAborts` | etl.py:94-98 | a corrected run that stops does so with the text columns' error |
| `Jobs.LogRunPrefix` | etl.py:89-147 | replacing a failing last step by one that succeeds keeps the tables written before it |
| `Jobs.CorrectionKeepsPrefix` | etl.py:76-147 | correcting the `songplays` statements keeps what the job with line 100 corrected writes, and may add more; the corrected job stops exactly when that job stops before the `month` select |

## Left out

- Reading the JSON inputs and writing parquet (etl.py:41-45, 57-60, 71-73, 78-80, 91-92, 109, 111-113, 144-147) are I/O. The inputs are given as lists of records. A job is modelled by the tables it hands to the writer, in order; partitioning and overwrite modes are not modelled.
- The AWS configuration, the Spark session and `main` (etl.py:10-27, 150-159) are process set-up and are not modelled.
- Timestamps.Seconds: `int(int(ts)/1000)` divides in floating point, and the model divides integers rounding toward zero. The two agree while `ts` is below 2^53 in magnitude; beyond that the float quotient can round differently, and that is not modelled.
- Timestamps.DatetimeUdf: `datetime.fromtimestamp` uses the host's time zone; the model reads every second in UTC. Dates before year 1 or after 9999 raise, as in Python; platform limits narrower than that are not modelled.
- Timestamps.IntOf: Python's `int()` on text also accepts surrounding blanks, a `+` sign and digit underscores. The model reads only an optional `-` followed by digits. A float is truncated toward zero; a float too large for an integer, or not a number, is not modelled.
- TimeTable.TableAsWritten: Spark resolves column references when a statement is built, so line 100 fails before any row is computed. The model resolves it on a frame with the timed columns and no rows. The error is modelled as the missing `timestamp` column; Spark words it as a resolved attribute missing from the select.
- Songplays.SongplaysAsWritten: the model resolves the join and the select on a frame with the timed columns and no rows, as Spark resolves them from the columns. A log without records has no columns in Spark and fails earlier, at etl.py:82.
- Frames.Resolve: names are compared exactly, where Spark by default compares them ignoring case. No two column names of these datasets and tables differ only in case, so no result here changes.
- Timestamps.DateTimeOf: Spark's cast of text to a timestamp also reads dates without a time, a `T` separator, fractions of a second, one-digit fields and zones. The model reads only `YYYY-MM-DD HH:MM:SS`. The job passes only texts that `str(datetime)` writes, which have that form, and `Timestamps.DateTimeOfFormatted` shows they are read as the date and time written. The same holds for `HourOf`, `DayOf`, `WeekOf`, `MonthOf`, `YearOf` and `WeekdayOf`, which read through it.
- Jobs.LogRun: the time table is written at etl.py:109, before the `songplays` statements are built, so a failing time step stops the job first, as modelled. Which of the two Python functions' errors that step reports is discussed under `TimeData.Timed`.
- Songplays.SongplaysOf: the ids are row numbers 1, 2, … in row order, where `monotonically_increasing_id() + 1` gives increasing ids that depend on partitioning. The properties stated are those both share: positive, strictly increasing, distinct.
- The columns of the two input frames are fixed: the fields the job reads, in the order the JSON reader gives them. Spark infers the columns from the records. When an input has no records, or some field appears in no record, that column is missing, and the job fails at its first reference to it (etl.py:54, 82, 95, 117). A record list here stands for records that all carry the fields read, so an empty list stands for a log with no `NextSong` event or a catalogue with no songs, not for an empty file.
- Jobs.ProcessSongData: a catalogue without records, or with a field no record carries, fails at the select of etl.py:54 in Spark; the model's columns are fixed, so it completes.
- Jobs.ProcessLogData: a log without records, or with a field no record carries, fails earlier in Spark (at etl.py:82, or at etl.py:95 when no record has `ts`) and then writes nothing; the model's columns are fixed.
- Jobs.ProcessLogDataStartFixed: as for `Jobs.ProcessLogData`, a log without records or missing a field everywhere fails in Spark before `users` is written.
- Jobs.StartFixedRun: as for `Jobs.ProcessLogData`, the stated outcomes assume every field read is present in the log's records.
- Jobs.ProcessLogDataCorrected: as for `Jobs.ProcessLogData`, the stated outcomes assume every field read is present in the log's records.
- Jobs.UsersWrittenFirst: `users` is written only when the log's records carry the fields read; otherwise Spark stops at etl.py:82 or 89 first.
- TimeData.Timed: when some play's `ts` gives no seconds and another play's seconds fall outside the years 1..9999, both Python functions fail. Spark runs them lazily, row by row and partition by partition, when a table is written, so either error can come first. The model reports `get_timestamp`'s error in that case, following the statement order. It reports `get_datetime`'s error exactly when every play has seconds, as Spark does.
- TimeTable.Table: its error is `TimeData.Timed`'s, with the same choice between the two functions' errors.
- Songplays.Monthed: its error is `TimeData.Timed`'s, with the same choice between the two functions' errors.
- Songplays.Joined: its error is `TimeData.Timed`'s, with the same choice between the two functions' errors.
- Songplays.Songplays: its error is `TimeData.Timed`'s, with the same choice between the two functions' errors.
- Jobs.StartFixedRun: the error it equates with `TimeData.Timed`'s has the same choice between the two functions' errors.
- Jobs.CorrectedAborts: the error it equates with `TimeData.Timed`'s has the same choice between the two functions' errors.
- The order in which Spark produces rows is not claimed. Before `dropDuplicates` tables are compared by multiplicity, and after it by membership. The only order stated is that of the `songplays` rows relative to the joined rows they come from.
- In `songplays` the `year` column is the song's release year from the catalogue, as the select resolves it. The play's year is not used.
- Python floats such as `duration` and the coordinates are opaque values. The model only compares them for equality.

## Findings

| source | as written | input that shows it | evidently intended | confidence | as-written member | corrected member |
|---|---|---|---|---|---|---|
| etl.py:119-137 | the `songplays` select names `month`, but neither join input has a `month` column: the month is derived only on the `time` table | any log and catalogue whose records carry the fields read, whatever values those records hold | a `month` column of each play, derived from its `datetime` before the join, as the `[year, month]` partitioning expects | not executed | `Songplays.AsWrittenFails` | `Songplays.Songplays` |
| etl.py:100 | `df.select('datetime').withColumn('start_time', df.timestamp)` refers to `timestamp` after the select has dropped it, so the statement does not resolve | any log whose records carry the fields read, including one with no `NextSong` event | select `datetime` and `timestamp` together and rename `timestamp` to `start_time` | not executed | `TimeTable.StartedAsWrittenFails` | `TimeTable.Started` |
| etl.py:142 | `songplays_table.withColumn('songplay', …)` is not assigned, so the id column is dropped | any `songplays` frame | assign the numbered frame back, so each written row carries a distinct id | not executed | `Songplays.IdAsWrittenDropped` | `Songplays.SongplaysOf` |

`int(int(ts)/1000)` rounds toward zero, so for a negative `ts` the seconds are not the floor of `ts/1000` (`Timestamps.TruncDiv`). The id column the script appends is called `songplay`, and the model keeps that name.

=== FILE: calendar.dfy ===
/** Proleptic Gregorian calendar arithmetic in UTC.

    Days are numbered from 1970-01-01 (day 0) and seconds from 1970-01-01
    00:00:00 (second 0). Only the years 1..9999 are covered: those are the
    years Python's `datetime` can represent, and a conversion outside them
    raises. */
module Calendar {

  const FirstYear := 1
  const LastYear := 9999

  /** Days from 0001-01-01 to 1970-01-01. */
  const EpochOffset := 719162

  /** Day number of 0001-01-01, the first day `datetime` can represent. */
  const MinDay := -719162
  /** Day number of 9999-12-31, the last day `datetime` can represent. */
  const MaxDay := 2932896

  const SecondsPerDay := 86400
  const MinSecond := MinDay * SecondsPerDay
  const MaxSecond := MaxDay * SecondsPerDay + (SecondsPerDay - 1)

  predicate IsLeapYear(y: int) {
    y % 4 == 0 && (y % 100 != 0 || y % 400 == 0)
  }

  function DaysInYear(y: int): int {
    if IsLeapYear(y) then 366 else 365
  }

  function DaysInMonth(y: int, m: int): int
    requires 1 <= m <= 12
  {
    if m == 2 then (if IsLeapYear(y) then 29 else 28)
    else if m == 4 || m == 6 || m == 9 || m == 11 then 30
    else 31
  }

  /** Days of year `y` that lie in the months before month `m`;
      month 13 stands for the end of the year. */
  function DaysBeforeMonth(y: int, m: int): int
    requires 1 <= m <= 13
  {
    var common :=
      if m == 1 then 0 else if m == 2 then 31 else if m == 3 then 59
      else if m == 4 then 90 else if m == 5 then 120 else if m == 6 then 151
      else if m == 7 then 181 else if m == 8 then 212 else if m == 9 then 243
      else if m == 10 then 273 else if m == 11 then 304 else if m == 12 then 334
      else 365;
    if m > 2 && IsLeapYear(y) then common + 1 else common
  }

  /** The month table agrees with the month lengths and sums to the year length. */
  lemma DaysBeforeMonthStep(y: int, m: int)
    requires 1 <= m <= 12
    ensures DaysBeforeMonth(y, m + 1) == DaysBeforeMonth(y, m) + DaysInMonth(y, m)
    ensures DaysBeforeMonth(y, 13) == DaysInYear(y)
  {
  }

  /** Months start strictly later in the year as the month number grows. */
  lemma DaysBeforeMonthMonotone(y: int, m1: int, m2: int)
    requires 1 <= m1 < m2 <= 13
    ensures DaysBeforeMonth(y, m1 + 1) <= DaysBeforeMonth(y, m2)
  {
  }

  /** Number of leap years among the years 1 .. y-1. */
  function LeapYearsBefore(y: int): int {
    (y - 1) / 4 - (y - 1) / 100 + (y - 1) / 400
  }

  /** Day number of January 1 of year `y`. */
  function YearStart(y: int): int
    requires y >= 1
  {
    365 * (y - 1) + LeapYearsBefore(y) - EpochOffset
  }

  /** Consecutive years are one year length apart, and the epoch year
      starts on day 0: together these pin `YearStart` down completely. */
  lemma YearStartStep(y: int)
    requires y >= 1
    ensures YearStart(y + 1) == YearStart(y) + DaysInYear(y)
    ensures YearStart(1970) == 0 && YearStart(FirstYear) == MinDay
    ensures YearStart(LastYear + 1) == MaxDay + 1
  {
    LeapYearsStep(y);
    YearStartConstants();
  }

  lemma YearStartConstants()
    ensures YearStart(1970) == 0 && YearStart(FirstYear) == MinDay
    ensures YearStart(LastYear + 1) == MaxDay + 1
  {
  }

  /** Year `y` adds one to the leap years before it exactly when it is a leap year. */
  lemma LeapYearsStep(y: int)
    ensures LeapYearsBefore(y + 1) == LeapYearsBefore(y) + (if IsLeapYear(y) then 1 else 0)
  {
    var a4 := y / 4 - (y - 1) / 4;
    var a100 := y / 100 - (y - 1) / 100;
    var a400 := y / 400 - (y - 1) / 400;
    assert a4 == (if y % 4 == 0 then 1 else 0);
    assert a100 == (if y % 100 == 0 then 1 else 0);
    assert a400 == (if y % 400 == 0 then 1 else 0);
    DivisorsNest(y);
  }

  /** A multiple of 400 is a multiple of 100, and a multiple of 100 one of 4. */
  lemma DivisorsNest(y: int)
    ensures y % 400 == 0 ==> y % 100 == 0
    ensures y % 100 == 0 ==> y % 4 == 0
  {
    if y % 400 == 0 {
      ModHundred(4 * (y / 400), 0);
    }
    if y % 100 == 0 {
      ModFour(25 * (y / 100), 0);
    }
  }

  lemma ModHundred(m: int, r: int)
    requires 0 <= r < 100
    ensures (100 * m + r) % 100 == r
  {
  }

  lemma ModFour400(m: int)
    ensures (400 * m) % 400 == 0
  {
  }

  lemma ModFour(m: int, r: int)
    requires 0 <= r < 4
    ensures (4 * m + r) % 4 == r
  {
  }

  lemma {:induction false} YearStartMonotone(a: int, b: int)
    requires 1 <= a <= b
    ensures YearStart(a) + 365 * (b - a) <= YearStart(b)
    decreases b - a
  {
    if a < b {
      YearStartMonotone(a, b - 1);
      YearStartStep(b - 1);
    }
  }

  /** A day lies in exactly one year. */
  lemma YearOfDayUnique(z: int, a: int, b: int)
    requires a >= 1 && b >= 1
    requires YearStart(a) <= z < YearStart(a + 1)
    requires YearStart(b) <= z < YearStart(b + 1)
    ensures a == b
  {
    if a < b {
      YearStartMonotone(a + 1, b);
    } else if b < a {
      YearStartMonotone(b + 1, a);
    }
  }

  datatype Date = Date(year: int, month: int, day: int)

  predicate ValidDate(d: Date) {
    && FirstYear <= d.year <= LastYear
    && 1 <= d.month <= 12
    && 1 <= d.day <= DaysInMonth(d.year, d.month)
  }

  /** Day number of a calendar date. */
  function DaysFromCivil(d: Date): (z: int)
    requires ValidDate(d)
    ensures MinDay <= z <= MaxDay
    ensures YearStart(d.year) <= z < YearStart(d.year + 1)
  {
    DaysBeforeMonthStep(d.year, d.month);
    DaysBeforeMonthMonotone(d.year, d.month, 13);
    YearStartStep(d.year);
    YearStartMonotone(FirstYear, d.year);
    YearStartMonotone(d.year + 1, LastYear + 1);
    YearStart(d.year) + DaysBeforeMonth(d.year, d.month) + d.day - 1
  }

  /** The year that begins `365*q1 + 1461*q4 + 36524*q100 + 146097*q400`
      days after 0001-01-01: 1, 4, 100 and 400 year cycles. */
  lemma CycleYearStart(q400: int, q100: int, q4: int, q1: int)
    requires q400 >= 0 && 0 <= q100 <= 3 && 0 <= q4 <= 24 && 0 <= q1 <= 3
    ensures YearStart(1 + 400 * q400 + 100 * q100 + 4 * q4 + q1)
         == 146097 * q400 + 36524 * q100 + 1461 * q4 + 365 * q1 - EpochOffset
  {
    var k := 400 * q400 + 100 * q100 + 4 * q4 + q1;
    assert k / 4 == 100 * q400 + 25 * q100 + q4;
    assert k / 100 == 4 * q400 + q100;
    assert k / 400 == q400;
  }

  /** The last year of a 4 year cycle is a leap year, except for the last
      cycle of a century that does not end a 400 year cycle. */
  lemma CycleLeapYear(q400: int, q100: int, q4: int)
    requires q400 >= 0 && 0 <= q100 <= 3 && 0 <= q4 <= 24
    requires q4 == 24 ==> q100 == 3
    ensures IsLeapYear(4 + 400 * q400 + 100 * q100 + 4 * q4)
  {
    var y := 4 + 400 * q400 + 100 * q100 + 4 * q4;
    ModFour(1 + 100 * q400 + 25 * q100 + q4, 0);
    if q4 == 24 {
      ModFour400(q400 + 1);
    } else {
      ModHundred(4 * q400 + q100, 4 * (q4 + 1));
    }
  }

  /** Splits a count of days since 0001-01-01 into a year and the 0-based
      day within that year, by 400, 100, 4 and 1 year cycles. */
  function CycleSplit(n: nat): (yd: (int, int))
    ensures yd.0 >= FirstYear
    ensures 0 <= yd.1 < DaysInYear(yd.0)
    ensures YearStart(yd.0) + yd.1 == n - EpochOffset
  {
    var q400 := n / 146097;
    var r400 := n % 146097;
    var q100 := if r400 / 36524 == 4 then 3 else r400 / 36524;
    var r100 := r400 - 36524 * q100;
    assert 0 <= q100 <= 3 && 0 <= r100 <= 36524 && (r100 == 36524 ==> q100 == 3);
    var q4 := r100 / 1461;
    var r4 := r100 % 1461;
    assert 0 <= q4 <= 24 && r100 == 1461 * q4 + r4;
    var q1 := if r4 / 365 == 4 then 3 else r4 / 365;
    var doy := r4 - 365 * q1;
    assert 0 <= q1 <= 3 && 0 <= doy <= 365 && (doy == 365 ==> r4 == 1460 && q1 == 3);
    var y := 1 + 400 * q400 + 100 * q100 + 4 * q4 + q1;
    CycleYearStart(q400, q100, q4, q1);
    if doy == 365 then
      CycleLeapYear(q400, q100, q4);
      (y, doy)
    else
      (y, doy)
  }

  /** A year that starts on or before the last supported day is a supported year. */
  lemma YearNotPastLast(y: int, z: int)
    requires y >= FirstYear && YearStart(y) <= z <= MaxDay
    ensures y <= LastYear
  {
    YearStartStep(LastYear);
    if y > LastYear {
      YearStartMonotone(LastYear + 1, y);
    }
  }

  /** Splits a day number into its year and the 0-based day within that year. */
  function YearAndDay(z: int): (yd: (int, int))
    requires MinDay <= z <= MaxDay
    ensures FirstYear <= yd.0 <= LastYear
    ensures 0 <= yd.1 < DaysInYear(yd.0)
    ensures YearStart(yd.0) + yd.1 == z
  {
    YearStartStep(FirstYear);
    var yd := CycleSplit(z + EpochOffset);
    YearNotPastLast(yd.0, z);
    yd
  }

  /** The month, searched from month `m` on, that holds day `doy` (0-based) of year `y`. */
  function MonthOf(y: int, doy: int, m: int): (r: int)
    requires 1 <= m <= 12
    requires DaysBeforeMonth(y, m) <= doy < DaysInYear(y)
    ensures m <= r <= 12
    ensures DaysBeforeMonth(y, r) <= doy < DaysBeforeMonth(y, r + 1)
    decreases 12 - m
  {
    DaysBeforeMonthStep(y, m);
    if m == 12 || doy < DaysBeforeMonth(y, m + 1) then m
    else MonthOf(y, doy, m + 1)
  }

  /** Calendar date of a day number: the inverse of `DaysFromCivil`. */
  function CivilFromDays(z: int): (d: Date)
    requires MinDay <= z <= MaxDay
    ensures ValidDate(d)
    ensures DaysFromCivil(d) == z
  {
    var (y, doy) := YearAndDay(z);
    DaysBeforeMonthStep(y, 12);
    var m := MonthOf(y, doy, 1);
    DaysBeforeMonthStep(y, m);
    Date(y, m, doy - DaysBeforeMonth(y, m) + 1)
  }

  /** A day of the year lies in one month only. */
  lemma MonthOfDayUnique(y: int, doy: int, a: int, b: int)
    requires 1 <= a <= 12 && 1 <= b <= 12
    requires DaysBeforeMonth(y, a) <= doy < DaysBeforeMonth(y, a + 1)
    requires DaysBeforeMonth(y, b) <= doy < DaysBeforeMonth(y, b + 1)
    ensures a == b
  {
    if a < b {
      DaysBeforeMonthMonotone(y, a, b);
    } else if b < a {
      DaysBeforeMonthMonotone(y, b, a);
    }
  }

  /** The other half of the round trip: every valid date is recovered from its day number. */
  lemma CivilFromDaysOfDate(d: Date)
    requires ValidDate(d)
    ensures CivilFromDays(DaysFromCivil(d)) == d
  {
    var z := DaysFromCivil(d);
    var e := CivilFromDays(z);
    YearOfDayUnique(z, d.year, e.year);
    var y := d.year;
    var doy := z - YearStart(y);
    assert doy == DaysBeforeMonth(y, d.month) + d.day - 1;
    assert doy == DaysBeforeMonth(y, e.month) + e.day - 1;
    DaysBeforeMonthStep(y, d.month);
    DaysBeforeMonthStep(y, e.month);
    MonthOfDayUnique(y, doy, d.month, e.month);
  }

  /** Distinct valid dates have distinct day numbers. */
  lemma DaysFromCivilInjective(a: Date, b: Date)
    requires ValidDate(a) && ValidDate(b)
    requires DaysFromCivil(a) == DaysFromCivil(b)
    ensures a == b
  {
    CivilFromDaysOfDate(a);
    CivilFromDaysOfDate(b);
  }

  /** Spark's `dayofweek` numbering: 1 = Sunday, ..., 7 = Saturday. */
  function DayOfWeek(z: int): (w: int)
    ensures 1 <= w <= 7
  {
    (z + 4) % 7 + 1
  }

  /** ISO 8601 weekday numbering: 1 = Monday, ..., 7 = Sunday. */
  function IsoWeekday(z: int): (w: int)
    ensures 1 <= w <= 7
  {
    (z + 3) % 7 + 1
  }

  /** 1970-01-01 was a Thursday, each day advances the weekday by one with
      Saturday followed by Sunday, and both numberings name the same day. */
  lemma WeekdayFacts(z: int)
    ensures DayOfWeek(0) == 5 && IsoWeekday(0) == 4
    ensures DayOfWeek(z + 1) == DayOfWeek(z) % 7 + 1
    ensures IsoWeekday(z + 1) == IsoWeekday(z) % 7 + 1
    ensures DayOfWeek(z) == IsoWeekday(z) % 7 + 1
  {
  }

  /** The Thursday of the Monday-to-Sunday week that holds day `z`. */
  function WeekThursday(z: int): (t: int)
    requires MinDay <= z <= MaxDay
    ensures MinDay <= t <= MaxDay
    ensures z - 3 <= t <= z + 3
    ensures IsoWeekday(t) == 4
  {
    z - IsoWeekday(z) + 4
  }

  /** ISO 8601 week number (section 2.2.10 of ISO 8601:2004): week 1 of a
      year is the week that holds its first Thursday, so a day belongs to
      the week-numbering year of its week's Thursday, and the week number
      counts the whole weeks before that Thursday in that year, plus one. */
  function IsoWeek(z: int): (w: int)
    requires MinDay <= z <= MaxDay
    ensures 1 <= w <= 53
  {
    var t := WeekThursday(z);
    var (y, doy) := YearAndDay(t);
    doy / 7 + 1
  }

  /** January 4 always lies in week 1. */
  lemma JanuaryFourthInWeekOne(y: int)
    requires FirstYear <= y <= LastYear
    ensures IsoWeek(DaysFromCivil(Date(y, 1, 4))) == 1
  {
    var z := DaysFromCivil(Date(y, 1, 4));
    var t := WeekThursday(z);
    var (ty, doy) := YearAndDay(t);
    YearStartStep(y);
    YearStartStep(ty);
    YearOfDayUnique(t, y, ty);
  }

  /** December 28 always lies in the last week of its year, week 52 or 53. */
  lemma DecemberTwentyEighthInLastWeek(y: int)
    requires FirstYear <= y <= LastYear
    ensures IsoWeek(DaysFromCivil(Date(y, 12, 28))) >= 52
  {
    var z := DaysFromCivil(Date(y, 12, 28));
    var t := WeekThursday(z);
    var (ty, doy) := YearAndDay(t);
    YearStartStep(y);
    YearStartStep(ty);
    YearOfDayUnique(t, y, ty);
  }

  /** The day after a Sunday is a Monday. */
  lemma MondayAfterSunday(z: int)
    requires IsoWeekday(z) == 7
    ensures IsoWeekday(z + 1) == 1
  {
    ModSeven((z + 3) / 7 + 1, 0);
  }

  lemma ModSeven(m: int, r: int)
    requires 0 <= r < 7
    ensures (7 * m + r) % 7 == r
  {
  }

  /** From a Sunday to the following Monday the week number goes up by one,
      or starts again at 1 when a new week-numbering year begins. */
  lemma NextWeek(z: int)
    requires MinDay <= z < MaxDay
    requires IsoWeekday(z) == 7
    ensures IsoWeek(z + 1) == IsoWeek(z) + 1 || IsoWeek(z + 1) == 1
  {
    var t := WeekThursday(z);
    var t' := WeekThursday(z + 1);
    MondayAfterSunday(z);
    var (y, doy) := YearAndDay(t);
    var (y', doy') := YearAndDay(t');
    WeekLater(t, y, doy, y', doy');
  }

  /** A week after day `doy` of year `y` is either 7 days further into the
      same year or in the first 7 days of a later one. */
  lemma WeekLater(t: int, y: int, doy: int, y': int, doy': int)
    requires FirstYear <= y <= LastYear && FirstYear <= y' <= LastYear
    requires 0 <= doy < DaysInYear(y) && YearStart(y) + doy == t
    requires 0 <= doy' < DaysInYear(y') && YearStart(y') + doy' == t + 7
    ensures doy' == doy + 7 || doy' < 7
  {
    YearStartStep(y);
    YearStartStep(y');
    if t + 7 < YearStart(y + 1) {
      YearOfDayUnique(t + 7, y, y');
    } else if y + 1 <= LastYear {
      YearStartStep(y + 1);
      YearOfDayUnique(t + 7, y + 1, y');
    } else {
      YearStartMonotone(LastYear + 1, y');
    }
  }

  datatype DateTime = DateTime(date: Date, hour: int, minute: int, second: int)

  predicate ValidDateTime(dt: DateTime) {
    && ValidDate(dt.date)
    && 0 <= dt.hour < 24
    && 0 <= dt.minute < 60
    && 0 <= dt.second < 60
  }

  /** Seconds since 1970-01-01 00:00:00 UTC of a date and time of day. */
  function EpochSeconds(dt: DateTime): (s: int)
    requires ValidDateTime(dt)
    ensures MinSecond <= s <= MaxSecond
  {
    DaysFromCivil(dt.date) * SecondsPerDay + dt.hour * 3600 + dt.minute * 60 + dt.second
  }

  /** The UTC date and time of day of an epoch second; the inverse of `EpochSeconds`. */
  function UtcDateTime(s: int): (dt: DateTime)
    requires MinSecond <= s <= MaxSecond
    ensures ValidDateTime(dt)
    ensures EpochSeconds(dt) == s
  {
    var z := s / SecondsPerDay;
    var sod := s % SecondsPerDay;
    assert s == z * SecondsPerDay + sod;
    assert sod == (sod / 3600) * 3600 + (sod % 3600 / 60) * 60 + sod % 60;
    DateTime(CivilFromDays(z), sod / 3600, sod % 3600 / 60, sod % 60)
  }

  /** Every valid date and time is recovered from its epoch second. */
  lemma UtcDateTimeOfEpochSeconds(dt: DateTime)
    requires ValidDateTime(dt)
    ensures UtcDateTime(EpochSeconds(dt)) == dt
  {
    var s := EpochSeconds(dt);
    var z := DaysFromCivil(dt.date);
    var sod := dt.hour * 3600 + dt.minute * 60 + dt.second;
    assert s / SecondsPerDay == z && s % SecondsPerDay == sod;
    CivilFromDaysOfDate(dt.date);
  }
}

=== FILE: collections.dfy ===
/** Row filtering and exact-duplicate removal on sequences whose order does
    not matter, specified through element counts. */
module Collections {

  /** No element occurs twice. */
  predicate NoDuplicates<T(==,!new)>(s: seq<T>) {
    forall i, j :: 0 <= i < j < |s| ==> s[i] != s[j]
  }

  /** The elements of `s` that satisfy `p`, in their original order: each
      such element keeps its number of occurrences, every other one is gone. */
  function Where<T(==,!new)>(s: seq<T>, p: T -> bool): (r: seq<T>)
    ensures |r| <= |s|
    ensures forall x :: multiset(r)[x] == if p(x) then multiset(s)[x] else 0
  {
    if |s| == 0 then []
    else
      var last := s[|s| - 1];
      var rest := Where(s[..|s| - 1], p);
      assert s == s[..|s| - 1] + [last];
      if p(last) then rest + [last] else rest
  }

  /** A sequence is its prefix followed by the rest. */
  lemma SplitAt<T>(s: seq<T>, k: nat)
    requires k <= |s|
    ensures s[..k] + s[k..] == s
  {
  }

  /** A product of two positive counts is positive. */
  lemma ProductPositive(a: int, b: int)
    requires a > 0 && b > 0
    ensures a * b > 0
  {
  }

  /** Appending an element adds one to its count and to no other. */
  lemma CountAppend<T>(s: seq<T>, x: T, y: T)
    ensures multiset(s + [x])[y] == multiset(s)[y] + (if x == y then 1 else 0)
  {
    assert multiset(s + [x]) == multiset(s) + multiset{x};
  }

  /** The count in a concatenation is the sum of the counts. */
  lemma CountConcat<T>(s: seq<T>, t: seq<T>, y: T)
    ensures multiset(s + t)[y] == multiset(s)[y] + multiset(t)[y]
  {
  }

  /** Exact-duplicate removal: one copy of every element of `s`, first
      occurrences kept in their original order. */
  function Distinct<T(==,!new)>(s: seq<T>): (r: seq<T>)
    ensures NoDuplicates(r)
    ensures forall x :: x in r <==> x in s
    ensures |r| <= |s|
  {
    if |s| == 0 then []
    else
      var last := s[|s| - 1];
      var rest := Distinct(s[..|s| - 1]);
      assert forall x :: x in s <==> x in s[..|s| - 1] || x == last;
      if last in rest then rest else rest + [last]
  }

  /** A sequence without duplicates is left as it is. */
  lemma {:induction false} DistinctOfNoDuplicates<T(!new)>(s: seq<T>)
    requires NoDuplicates(s)
    ensures Distinct(s) == s
  {
    if |s| > 0 {
      var init := s[..|s| - 1];
      assert NoDuplicates(init);
      DistinctOfNoDuplicates(init);
      assert s[|s| - 1] !in init;
      assert s == init + [s[|s| - 1]];
    }
  }

  /** Removing duplicates twice removes nothing more. */
  lemma DistinctIdempotent<T(!new)>(s: seq<T>)
    ensures Distinct(Distinct(s)) == Distinct(s)
  {
    DistinctOfNoDuplicates(Distinct(s));
  }

  /** Without duplicates, every element present occurs exactly once. */
  lemma {:induction false} NoDuplicatesCounts<T(!new)>(s: seq<T>)
    requires NoDuplicates(s)
    ensures forall x :: multiset(s)[x] == if x in s then 1 else 0
  {
    if |s| > 0 {
      var init := s[..|s| - 1];
      assert NoDuplicates(init);
      NoDuplicatesCounts(init);
      assert s == init + [s[|s| - 1]];
    }
  }

  /** Two duplicate-free sequences with no element in common concatenate
      to a duplicate-free sequence. */
  lemma NoDuplicatesConcat<T(!new)>(a: seq<T>, b: seq<T>)
    requires NoDuplicates(a) && NoDuplicates(b)
    requires forall x :: x in a ==> x !in b
    ensures NoDuplicates(a + b)
  {
    var s := a + b;
    forall i, j | 0 <= i < j < |s|
      ensures s[i] != s[j]
    {
      if i < |a| && |a| <= j {
        assert s[i] in a && s[j] == b[j - |a|];
      }
    }
  }

  /** Of two equally long sequences, `t` holds `y` wherever `s` holds `x`,
      so `t` holds `y` at least as often as `s` holds `x`. */
  lemma {:induction false} CountImage<A, B>(s: seq<A>, t: seq<B>, x: A, y: B)
    requires |s| == |t|
    requires forall i :: 0 <= i < |s| && s[i] == x ==> t[i] == y
    ensures multiset(t)[y] >= multiset(s)[x]
  {
    if |s| > 0 {
      var n := |s| - 1;
      CountImage(s[..n], t[..n], x, y);
      assert s == s[..n] + [s[n]];
      assert t == t[..n] + [t[n]];
    }
  }

  /** Two equally long sequences in which `y` stands exactly where `x` stands
      hold them equally often. */
  lemma {:induction false} CountCorrespondence<A, B>(s: seq<A>, t: seq<B>, x: A, y: B)
    requires |s| == |t|
    requires forall i :: 0 <= i < |s| ==> (t[i] == y <==> s[i] == x)
    ensures multiset(t)[y] == multiset(s)[x]
  {
    if |s| > 0 {
      var n := |s| - 1;
      CountCorrespondence(s[..n], t[..n], x, y);
      assert s == s[..n] + [s[n]];
      assert t == t[..n] + [t[n]];
    }
  }
}

=== FILE: datetime_text.dfy ===
/** The text `YYYY-MM-DD HH:MM:SS` that Python's `str(datetime)` writes for a
    whole-second value, and the reading of that text when a string column is
    used as a timestamp. */
module DateTimeText {

  import opened Wrappers
  import opened Decimal
  import opened Calendar

  function FormatDateTime(dt: DateTime): (s: string)
    requires ValidDateTime(dt)
    ensures |s| == 19
  {
    PadDigits(dt.date.year, 4) + "-" + PadDigits(dt.date.month, 2) + "-" + PadDigits(dt.date.day, 2)
    + " " + PadDigits(dt.hour, 2) + ":" + PadDigits(dt.minute, 2) + ":" + PadDigits(dt.second, 2)
  }

  /** The number a field of digits denotes, or `None` if one is not a digit. */
  function Field(t: string): (r: Option<nat>)
    ensures r.Some? <==> AllDigits(t)
  {
    if AllDigits(t) then Some(DigitsValue(t)) else None
  }

  /** Reads `YYYY-MM-DD HH:MM:SS`. Text of any other shape, or fields that do
      not name a real date and time of day, give `None`: a null timestamp. */
  function ParseDateTime(s: string): (r: Option<DateTime>)
    ensures r.Some? ==> ValidDateTime(r.value)
    ensures r.Some? ==> |s| == 19
  {
    if |s| != 19 || s[4] != '-' || s[7] != '-' || s[10] != ' ' || s[13] != ':' || s[16] != ':' then None
    else
      match (Field(s[0..4]), Field(s[5..7]), Field(s[8..10]), Field(s[11..13]), Field(s[14..16]), Field(s[17..19]))
      case (Some(y), Some(mo), Some(d), Some(h), Some(mi), Some(sec)) =>
        var dt := DateTime(Date(y, mo, d), h, mi, sec);
        if ValidDateTime(dt) then Some(dt) else None
      case _ => None
  }

  /** Where the fields and separators sit in the text. */
  lemma FormatLayout(dt: DateTime)
    requires ValidDateTime(dt)
    ensures var s := FormatDateTime(dt);
      && s[4] == '-' && s[7] == '-' && s[10] == ' ' && s[13] == ':' && s[16] == ':'
      && s[0..4] == PadDigits(dt.date.year, 4) && s[5..7] == PadDigits(dt.date.month, 2)
      && s[8..10] == PadDigits(dt.date.day, 2) && s[11..13] == PadDigits(dt.hour, 2)
      && s[14..16] == PadDigits(dt.minute, 2) && s[17..19] == PadDigits(dt.second, 2)
  {
    var s := FormatDateTime(dt);
    assert s[0..4] == PadDigits(dt.date.year, 4);
    assert s[5..7] == PadDigits(dt.date.month, 2);
    assert s[8..10] == PadDigits(dt.date.day, 2);
    assert s[11..13] == PadDigits(dt.hour, 2);
    assert s[14..16] == PadDigits(dt.minute, 2);
    assert s[17..19] == PadDigits(dt.second, 2);
  }

  /** A zero-padded field reads back as its number. */
  lemma FieldOfPadDigits(n: nat, width: nat)
    requires n < Pow10(width)
    ensures Field(PadDigits(n, width)) == Some(n)
  {
    DigitsValueOfPadDigits(n, width);
  }

  /** Reading back the text of a date and time gives it again. */
  lemma ParseFormatDateTime(dt: DateTime)
    requires ValidDateTime(dt)
    ensures ParseDateTime(FormatDateTime(dt)) == Some(dt)
  {
    FormatLayout(dt);
    assert Pow10(2) == 100;
    assert Pow10(4) == 10000;
    FieldOfPadDigits(dt.date.year, 4);
    FieldOfPadDigits(dt.date.month, 2);
    FieldOfPadDigits(dt.date.day, 2);
    FieldOfPadDigits(dt.hour, 2);
    FieldOfPadDigits(dt.minute, 2);
    FieldOfPadDigits(dt.second, 2);
  }

  /** Distinct dates and times have distinct text. */
  lemma FormatDateTimeInjective(a: DateTime, b: DateTime)
    requires ValidDateTime(a) && ValidDateTime(b)
    requires FormatDateTime(a) == FormatDateTime(b)
    ensures a == b
  {
    ParseFormatDateTime(a);
    ParseFormatDateTime(b);
  }
}

=== FILE: decimal.dfy ===
/** Decimal text of integers, as Python's `str(int)` writes it and `int(str)`
    reads it back. */
module Decimal {

  import opened Wrappers

  predicate IsDigit(c: char) {
    '0' <= c <= '9'
  }

  predicate AllDigits(s: string) {
    forall i :: 0 <= i < |s| ==> IsDigit(s[i])
  }

  function DigitChar(d: int): (c: char)
    requires 0 <= d < 10
    ensures IsDigit(c)
  {
    (48 + d) as char
  }

  function DigitValue(c: char): (d: int)
    requires IsDigit(c)
    ensures 0 <= d < 10
  {
    c as int - 48
  }

  /** Digits of `n` without leading zeros. */
  function ShowNat(n: nat): (s: string)
    ensures 1 <= |s| && AllDigits(s)
    ensures n >= 10 ==> s[0] != '0'
  {
    if n < 10 then [DigitChar(n)]
    else ShowNat(n / 10) + [DigitChar(n % 10)]
  }

  /** `str(n)`: a minus sign for negative numbers, then the digits of |n|. */
  function ShowInt(n: int): string {
    if n < 0 then "-" + ShowNat(-n) else ShowNat(n)
  }

  /** The number a string of digits denotes (most significant digit first). */
  function DigitsValue(s: string): (n: nat)
    requires AllDigits(s)
  {
    if |s| == 0 then 0
    else DigitsValue(s[..|s| - 1]) * 10 + DigitValue(s[|s| - 1])
  }

  /** `int(s)` for the strings this system produces: an optional minus sign
      and at least one digit. Anything else is a `ValueError`, here `None`. */
  function ParseInt(s: string): (r: Option<int>)
    ensures r.Some? ==> 1 <= |s|
  {
    if 1 <= |s| && AllDigits(s) then Some(DigitsValue(s))
    else if 2 <= |s| && s[0] == '-' && AllDigits(s[1..]) then Some(0 - DigitsValue(s[1..]) as int)
    else None
  }

  lemma {:induction false} DigitsValueOfShowNat(n: nat)
    ensures DigitsValue(ShowNat(n)) == n
  {
    var s := ShowNat(n);
    if n >= 10 {
      DigitsValueOfShowNat(n / 10);
      assert s[..|s| - 1] == ShowNat(n / 10);
    }
  }

  /** Reading back what `str` wrote gives the number again. */
  lemma ParseShowInt(n: int)
    ensures ParseInt(ShowInt(n)) == Some(n)
  {
    if n < 0 {
      DigitsValueOfShowNat(-n);
      assert ShowInt(n)[1..] == ShowNat(-n);
    } else {
      DigitsValueOfShowNat(n);
    }
  }

  /** Distinct numbers are written differently. */
  lemma ShowIntInjective(a: int, b: int)
    requires ShowInt(a) == ShowInt(b)
    ensures a == b
  {
    ParseShowInt(a);
    ParseShowInt(b);
  }

  /** `n` written with exactly `width` digits, padded with leading zeros
      (`%0<width>d` for a number that fits). */
  function PadDigits(n: nat, width: nat): (s: string)
    ensures |s| == width && AllDigits(s)
  {
    if width == 0 then ""
    else PadDigits(n / 10, width - 1) + [DigitChar(n % 10)]
  }

  function Pow10(k: nat): (p: nat)
    ensures p >= 1
  {
    if k == 0 then 1 else 10 * Pow10(k - 1)
  }

  /** Zero padding keeps the value of a number that fits in the width. */
  lemma {:induction false} DigitsValueOfPadDigits(n: nat, width: nat)
    requires n < Pow10(width)
    ensures DigitsValue(PadDigits(n, width)) == n
  {
    if width > 0 {
      DigitsValueOfPadDigits(n / 10, width - 1);
      var s := PadDigits(n, width);
      assert s[..|s| - 1] == PadDigits(n / 10, width - 1);
    }
  }
}

=== FILE: frames.dfy ===
/** Data frames and the DataFrame operations the transforms use: resolving
    a column by name, `select`, `filter` on an equality, `withColumn`,
    `withColumnRenamed` and `dropDuplicates`. Each operation works on the
    whole frame at once; row order carries no meaning. */
module Frames {

  import opened Wrappers
  import opened Values
  import opened Collections

  /** The values of one row, position by position with the frame's columns. */
  type Row = seq<Value>

  /** A data frame: its column names, in order, and its rows. */
  datatype Frame = Frame(columns: seq<string>, rows: seq<Row>)

  /** Every row has one value per column. */
  predicate WellFormed(f: Frame) {
    forall i :: 0 <= i < |f.rows| ==> |f.rows[i]| == |f.columns|
  }

  /** Errors of DataFrame operations. */
  datatype Error =
    | MissingColumn(name: string)      // no column has that name
    | AmbiguousColumn(name: string)    // several columns have that name
    | UdfFailed(column: string)        // a Python function raised while computing the column

  type Outcome<T> = Result<T, Error>

  /** `name` refers to exactly one column of `cols`. */
  predicate Unique(cols: seq<string>, name: string) {
    multiset(cols)[name] == 1
  }

  /** Position of the first column called `name`. */
  function IndexOf(cols: seq<string>, name: string): (i: nat)
    requires name in cols
    ensures i < |cols| && cols[i] == name
    ensures name !in cols[..i]
  {
    if cols[0] == name then 0
    else
      var i := 1 + IndexOf(cols[1..], name);
      assert cols[..i] == [cols[0]] + cols[1..][..i - 1];
      i
  }

  /** A name found at two positions occurs at least twice. */
  lemma TwoPositions(cols: seq<string>, name: string, i: int, a: int)
    requires 0 <= i < a < |cols| && cols[i] == name && cols[a] == name
    ensures multiset(cols)[name] >= 2
  {
    assert cols == cols[..a] + cols[a..];
    assert cols[i] in cols[..a];
    assert cols[a] in cols[a..];
  }

  /** A column name that occurs once has exactly one position. */
  lemma UniqueIndex(cols: seq<string>, name: string, a: int)
    requires Unique(cols, name)
    requires 0 <= a < |cols| && cols[a] == name
    ensures a == IndexOf(cols, name)
  {
    var i := IndexOf(cols, name);
    if i < a {
      TwoPositions(cols, name, i, a);
    }
  }

  /** In a list of distinct names, every name resolves to its own position. */
  lemma DistinctColumns(cols: seq<string>)
    requires NoDuplicates(cols)
    ensures forall k :: 0 <= k < |cols| ==> Unique(cols, cols[k]) && IndexOf(cols, cols[k]) == k
  {
    NoDuplicatesCounts(cols);
    forall k | 0 <= k < |cols|
      ensures IndexOf(cols, cols[k]) == k
    {
      UniqueIndex(cols, cols[k], k);
    }
  }

  /** A name found at `k` and nowhere before or after it resolves to `k`. */
  lemma UniqueSplit(cols: seq<string>, name: string, k: nat)
    requires k < |cols| && cols[k] == name
    requires name !in cols[..k] && name !in cols[k + 1..]
    ensures Unique(cols, name) && IndexOf(cols, name) == k
  {
    assert cols == cols[..k] + [name] + cols[k + 1..];
    assert multiset(cols) == multiset(cols[..k]) + multiset([name]) + multiset(cols[k + 1..]);
    UniqueIndex(cols, name, k);
  }

  /** A name that resolves in `a` and is absent from `b` resolves to the
      same position in `a + b`. */
  lemma UniqueLeft(a: seq<string>, b: seq<string>, name: string)
    requires Unique(a, name) && name !in b
    ensures Unique(a + b, name) && IndexOf(a + b, name) == IndexOf(a, name)
  {
    assert multiset(a + b) == multiset(a) + multiset(b);
    var i := IndexOf(a, name);
    assert (a + b)[i] == name;
    UniqueIndex(a + b, name, i);
  }

  /** A name absent from `a` that resolves in `b` resolves in `a + b`,
      shifted past `a`. */
  lemma UniqueRight(a: seq<string>, b: seq<string>, name: string)
    requires name !in a && Unique(b, name)
    ensures Unique(a + b, name) && IndexOf(a + b, name) == |a| + IndexOf(b, name)
  {
    assert multiset(a + b) == multiset(a) + multiset(b);
    var i := |a| + IndexOf(b, name);
    assert (a + b)[i] == name;
    UniqueIndex(a + b, name, i);
  }

  /** In a list of distinct names, the name at position `k` resolves to `k`. */
  lemma ColumnAt(cols: seq<string>, name: string, k: nat)
    requires NoDuplicates(cols) && k < |cols| && cols[k] == name
    ensures Unique(cols, name) && IndexOf(cols, name) == k
    ensures forall row: Row | |row| == |cols| :: ValueOf(cols, row, name) == row[k]
  {
    DistinctColumns(cols);
  }

  /** Names found at known positions of a list of distinct names resolve to
      those positions. */
  lemma ColumnsAt(cols: seq<string>, names: seq<string>, pos: seq<nat>)
    requires NoDuplicates(cols)
    requires |pos| == |names|
    requires forall j :: 0 <= j < |names| ==> pos[j] < |cols| && cols[pos[j]] == names[j]
    ensures forall j :: 0 <= j < |names| ==> Unique(cols, names[j]) && IndexOf(cols, names[j]) == pos[j]
  {
    DistinctColumns(cols);
    forall j | 0 <= j < |names|
      ensures Unique(cols, names[j]) && IndexOf(cols, names[j]) == pos[j]
    {
      assert names[j] == cols[pos[j]];
    }
  }

  /** Resolves a column reference: it must name exactly one column. */
  function Resolve(cols: seq<string>, name: string): (r: Outcome<nat>)
    ensures r.Success? <==> Unique(cols, name)
    ensures r.Success? ==> r.value < |cols| && cols[r.value] == name
    ensures r.Failure? ==> r.error == if name in cols then AmbiguousColumn(name) else MissingColumn(name)
  {
    if name !in cols then Failure(MissingColumn(name))
    else if multiset(cols)[name] != 1 then Failure(AmbiguousColumn(name))
    else Success(IndexOf(cols, name))
  }

  /** A name found only at `k` of `a`, and not in `b`, resolves to `k` in `a + b`. */
  lemma ResolvesLeft(a: seq<string>, b: seq<string>, name: string, k: nat)
    requires k < |a| && a[k] == name
    requires name !in a[..k] && name !in a[k + 1..] && name !in b
    ensures Unique(a + b, name) && IndexOf(a + b, name) == k
  {
    UniqueSplit(a, name, k);
    UniqueLeft(a, b, name);
  }

  /** A name not in `a`, and found only at `k` of `b`, resolves to `|a| + k`
      in `a + b`. */
  lemma ResolvesRight(a: seq<string>, b: seq<string>, name: string, k: nat)
    requires k < |b| && b[k] == name
    requires name !in a && name !in b[..k] && name !in b[k + 1..]
    ensures Unique(a + b, name) && IndexOf(a + b, name) == |a| + k
  {
    UniqueSplit(b, name, k);
    UniqueRight(a, b, name);
  }

  /** The value of column `name` in a row of a frame with columns `cols`. */
  function ValueOf(cols: seq<string>, row: Row, name: string): Value
    requires Unique(cols, name) && |row| == |cols|
  {
    row[IndexOf(cols, name)]
  }

  /** Among `names`, the one at position `k` is the first that does not resolve. */
  predicate FirstUnresolved(cols: seq<string>, names: seq<string>, k: int)
    requires 0 <= k < |names|
  {
    && !Unique(cols, names[k])
    && forall j :: 0 <= j < k ==> Unique(cols, names[j])
  }

  /** Resolves a list of column references, failing on the first that does not resolve. */
  function ResolveAll(cols: seq<string>, names: seq<string>): (r: Outcome<seq<nat>>)
    ensures r.Success? <==> forall k :: 0 <= k < |names| ==> Unique(cols, names[k])
    ensures r.Success? ==> |r.value| == |names|
    ensures r.Success? ==> forall k :: 0 <= k < |names| ==> r.value[k] < |cols| && cols[r.value[k]] == names[k]
    ensures r.Failure? ==>
      exists k :: 0 <= k < |names| && FirstUnresolved(cols, names, k) && r.error == Resolve(cols, names[k]).error
  {
    if |names| == 0 then Success([])
    else
      var i :- Resolve(cols, names[0]);
      var rest := ResolveAll(cols, names[1..]);
      if rest.Failure? then
        ghost var k' :| 0 <= k' < |names| - 1 && FirstUnresolved(cols, names[1..], k')
                          && rest.error == Resolve(cols, names[1..][k']).error;
        assert FirstUnresolved(cols, names, k' + 1);
        Failure(rest.error)
      else
        Success([i] + rest.value)
  }

  /** The row restricted to the columns `names`, looked up by name. */
  function ProjectRow(cols: seq<string>, row: Row, names: seq<string>): Row
    requires |row| == |cols|
    requires forall k :: 0 <= k < |names| ==> Unique(cols, names[k])
  {
    seq(|names|, k requires 0 <= k < |names| => ValueOf(cols, row, names[k]))
  }

  /** The values of `row` at the positions `pos`, in that order (a position
      past the end reads as null). */
  function Pick(row: Row, pos: seq<nat>): (r: Row)
    ensures |r| == |pos|
    ensures forall j :: 0 <= j < |pos| && pos[j] < |row| ==> r[j] == row[pos[j]]
  {
    seq(|pos|, j requires 0 <= j < |pos| => if pos[j] < |row| then row[pos[j]] else Null)
  }

  /** Projecting onto names at known positions of a list of distinct names
      picks the values at those positions. */
  lemma ProjectAt(cols: seq<string>, row: Row, names: seq<string>, pos: seq<nat>)
    requires NoDuplicates(cols) && |row| == |cols|
    requires |pos| == |names|
    requires forall j :: 0 <= j < |names| ==> pos[j] < |cols| && cols[pos[j]] == names[j]
    ensures forall j :: 0 <= j < |names| ==> Unique(cols, names[j])
    ensures ProjectRow(cols, row, names) == Pick(row, pos)
  {
    ColumnsAt(cols, names, pos);
  }

  /** `select(*names)`. Every name must denote exactly one column; the
      result has the columns `names` in that order and one row per row. */
  function Select(f: Frame, names: seq<string>): (r: Outcome<Frame>)
    requires WellFormed(f)
    ensures r.Success? <==> forall k :: 0 <= k < |names| ==> Unique(f.columns, names[k])
    ensures r.Failure? ==>
      exists k :: 0 <= k < |names| && FirstUnresolved(f.columns, names, k) && r.error == Resolve(f.columns, names[k]).error
    ensures r.Success? ==> r.value.columns == names && WellFormed(r.value) && |r.value.rows| == |f.rows|
    ensures r.Success? ==>
      forall i :: 0 <= i < |f.rows| ==> r.value.rows[i] == ProjectRow(f.columns, f.rows[i], names)
  {
    var idx :- ResolveAll(f.columns, names);
    var rows := seq(|f.rows|, i requires 0 <= i < |f.rows| =>
      seq(|idx|, k requires 0 <= k < |idx| => f.rows[i][idx[k]]));
    assert forall k :: 0 <= k < |idx| ==> idx[k] == IndexOf(f.columns, names[k]) by {
      forall k | 0 <= k < |idx| {
        UniqueIndex(f.columns, names[k], idx[k]);
      }
    }
    Success(Frame(names, rows))
  }

  /** `select` fails on the first name that does not resolve; when that
      name is absent, the error is `MissingColumn`. */
  lemma SelectMissing(f: Frame, names: seq<string>, k: nat)
    requires WellFormed(f) && k < |names|
    requires names[k] !in f.columns
    requires forall j :: 0 <= j < k ==> Unique(f.columns, names[j])
    ensures Select(f, names) == Failure(MissingColumn(names[k]))
  {
    assert !Unique(f.columns, names[k]);
    var k' :| 0 <= k' < |names| && FirstUnresolved(f.columns, names, k')
              && Select(f, names).error == Resolve(f.columns, names[k']).error;
    assert FirstUnresolved(f.columns, names, k');
    assert !(k' < k);
    assert !(k < k');
  }

  /** Selecting names found at known positions of a list of distinct names
      picks, row by row, the values at those positions. */
  lemma SelectAt(f: Frame, names: seq<string>, pos: seq<nat>)
    requires WellFormed(f) && NoDuplicates(f.columns)
    requires |pos| == |names|
    requires forall j :: 0 <= j < |names| ==> pos[j] < |f.columns| && f.columns[pos[j]] == names[j]
    ensures Select(f, names).Success?
    ensures Select(f, names).value.columns == names && |Select(f, names).value.rows| == |f.rows|
    ensures forall i :: 0 <= i < |f.rows| ==> Select(f, names).value.rows[i] == Pick(f.rows[i], pos)
  {
    ColumnsAt(f.columns, names, pos);
    forall i | 0 <= i < |f.rows|
      ensures Select(f, names).value.rows[i] == Pick(f.rows[i], pos)
    {
      ProjectAt(f.columns, f.rows[i], names, pos);
    }
  }

  /** Selecting names that resolve to known positions picks the values at
      those positions. */
  lemma SelectResolved(f: Frame, names: seq<string>, pos: seq<nat>)
    requires WellFormed(f) && |pos| == |names|
    requires forall j :: 0 <= j < |names| ==> Unique(f.columns, names[j]) && IndexOf(f.columns, names[j]) == pos[j]
    ensures Select(f, names).Success?
    ensures Select(f, names).value.columns == names && |Select(f, names).value.rows| == |f.rows|
    ensures forall i :: 0 <= i < |f.rows| ==> Select(f, names).value.rows[i] == Pick(f.rows[i], pos)
  {
    forall i | 0 <= i < |f.rows|
      ensures Select(f, names).value.rows[i] == Pick(f.rows[i], pos)
    {
      assert ProjectRow(f.columns, f.rows[i], names) == Pick(f.rows[i], pos);
    }
  }

  /** The row's value in column `name` equals `v` in the SQL sense. */
  predicate HasValue(cols: seq<string>, row: Row, name: string, v: Value)
    requires Unique(cols, name)
  {
    |row| == |cols| && SqlEquals(ValueOf(cols, row, name), v)
  }

  /** `filter(col(name) == v)`: keeps exactly the rows whose `name` value
      equals `v`, each as often as it occurred; a null never equals. */
  function FilterEquals(f: Frame, name: string, v: Value): (r: Outcome<Frame>)
    requires WellFormed(f)
    ensures r.Success? <==> Unique(f.columns, name)
    ensures r.Failure? ==> r.error == Resolve(f.columns, name).error
    ensures r.Success? ==> r.value.columns == f.columns && WellFormed(r.value)
    ensures r.Success? ==> forall row :: multiset(r.value.rows)[row] ==
                                       (if HasValue(f.columns, row, name, v) then multiset(f.rows)[row] else 0)
  {
    var i :- Resolve(f.columns, name);
    UniqueIndex(f.columns, name, i);
    var kept := Where(f.rows, (row: Row) => |row| == |f.columns| && SqlEquals(row[i], v));
    forall k | 0 <= k < |kept|
      ensures |kept[k]| == |f.columns|
    {
      assert multiset(kept)[kept[k]] > 0;
    }
    Success(Frame(f.columns, kept))
  }

  /** The filter on a column that resolves to the position `k`. */
  lemma FilterAt(f: Frame, name: string, v: Value, k: nat)
    requires WellFormed(f) && Unique(f.columns, name) && k < |f.columns| && f.columns[k] == name
    ensures FilterEquals(f, name, v).Success?
    ensures FilterEquals(f, name, v).value.columns == f.columns
    ensures forall row :: multiset(FilterEquals(f, name, v).value.rows)[row] ==
              if |row| == |f.columns| && SqlEquals(row[k], v) then multiset(f.rows)[row] else 0
  {
    UniqueIndex(f.columns, name, k);
  }

  /** The columns after setting column `name`: unchanged when it exists,
      otherwise `name` is added at the end. */
  function PutColumn(cols: seq<string>, name: string): seq<string> {
    if name in cols then cols else cols + [name]
  }

  /** Row `row` with column `name` set to `v`: every column of that name
      takes the value, or the value is added at the end when there is none. */
  function Put(cols: seq<string>, row: Row, name: string, v: Value): (r: Row)
    requires |row| == |cols|
    ensures |r| == |PutColumn(cols, name)|
  {
    if name in cols then seq(|row|, j requires 0 <= j < |row| => if cols[j] == name then v else row[j])
    else row + [v]
  }

  /** Setting a column that occurred at most once: the column now holds the
      value, and every other uniquely named column keeps its value. */
  lemma PutValue(cols: seq<string>, row: Row, name: string, v: Value, other: string)
    requires |row| == |cols|
    requires name !in cols || Unique(cols, name)
    requires Unique(cols, other) && other != name
    ensures Unique(PutColumn(cols, name), name)
    ensures ValueOf(PutColumn(cols, name), Put(cols, row, name, v), name) == v
    ensures Unique(PutColumn(cols, name), other)
    ensures ValueOf(PutColumn(cols, name), Put(cols, row, name, v), other) == ValueOf(cols, row, other)
  {
    var cols' := PutColumn(cols, name);
    if name !in cols {
      assert multiset(cols')[name] == multiset(cols)[name] + 1;
      UniqueIndex(cols', name, |cols|);
      UniqueIndex(cols', other, IndexOf(cols, other));
    } else {
      UniqueIndex(cols, name, IndexOf(cols', name));
    }
  }

  /** The new column's values, one per row, or the first failure. */
  function DerivedValues(rows: seq<Row>, i: nat, fn: Value -> Outcome<Value>): (r: Outcome<seq<Value>>)
    requires forall k :: 0 <= k < |rows| ==> i < |rows[k]|
    ensures r.Success? <==> forall k :: 0 <= k < |rows| ==> fn(rows[k][i]).Success?
    ensures r.Success? ==> |r.value| == |rows| && forall k :: 0 <= k < |rows| ==> r.value[k] == fn(rows[k][i]).value
    ensures r.Failure? ==> exists k :: 0 <= k < |rows| && fn(rows[k][i]).Failure? && r.error == fn(rows[k][i]).error
  {
    if |rows| == 0 then Success([])
    else
      var init :- DerivedValues(rows[..|rows| - 1], i, fn);
      var last :- fn(rows[|rows| - 1][i]);
      Success(init + [last])
  }

  /** `withColumn(name, fn(col(input)))`: sets column `name` from the value of
      column `input` in the same row. When `fn` fails on some row (a Python
      function that raises) the whole frame fails. */
  function WithDerived(f: Frame, name: string, input: string, fn: Value -> Outcome<Value>): (r: Outcome<Frame>)
    requires WellFormed(f)
    ensures !Unique(f.columns, input) ==> r == Failure(Resolve(f.columns, input).error)
    ensures r.Success? <==>
      Unique(f.columns, input) && forall i :: 0 <= i < |f.rows| ==> fn(ValueOf(f.columns, f.rows[i], input)).Success?
    ensures r.Success? ==>
      r.value.columns == PutColumn(f.columns, name) && WellFormed(r.value) && |r.value.rows| == |f.rows|
    ensures r.Success? ==> forall i :: 0 <= i < |f.rows| ==>
      r.value.rows[i] == Put(f.columns, f.rows[i], name, fn(ValueOf(f.columns, f.rows[i], input)).value)
  {
    var j :- Resolve(f.columns, input);
    UniqueIndex(f.columns, input, j);
    var vals :- DerivedValues(f.rows, j, fn);
    var rows := seq(|f.rows|, i requires 0 <= i < |f.rows| => Put(f.columns, f.rows[i], name, vals[i]));
    Success(Frame(PutColumn(f.columns, name), rows))
  }

  /** A fresh column computed by a Python function from the column at
      position `k` is appended to every row; the step fails with the error of
      a row on which the function fails, and only then. */
  lemma WithDerivedAppends(f: Frame, name: string, input: string, fn: Value -> Outcome<Value>, k: nat)
    requires WellFormed(f) && Unique(f.columns, input) && k < |f.columns| && f.columns[k] == input
    requires name !in f.columns
    ensures WithDerived(f, name, input, fn).Success? <==> forall i :: 0 <= i < |f.rows| ==> fn(f.rows[i][k]).Success?
    ensures WithDerived(f, name, input, fn).Failure? ==>
      exists i :: 0 <= i < |f.rows| && fn(f.rows[i][k]).Failure? && WithDerived(f, name, input, fn).error == fn(f.rows[i][k]).error
    ensures WithDerived(f, name, input, fn).Success? ==>
      && WithDerived(f, name, input, fn).value.columns == f.columns + [name]
      && |WithDerived(f, name, input, fn).value.rows| == |f.rows|
      && forall i :: 0 <= i < |f.rows| ==>
           WithDerived(f, name, input, fn).value.rows[i] == f.rows[i] + [fn(f.rows[i][k]).value]
  {
    UniqueIndex(f.columns, input, k);
  }

  /** `withColumn(name, fn(col(input)))` for a built-in column function such
      as `hour`: it never raises, so only the input reference can fail. */
  function WithComputed(f: Frame, name: string, input: string, fn: Value -> Value): (r: Outcome<Frame>)
    requires WellFormed(f)
    ensures r.Success? <==> Unique(f.columns, input)
    ensures r.Failure? ==> r.error == Resolve(f.columns, input).error
    ensures r.Success? ==>
      r.value.columns == PutColumn(f.columns, name) && WellFormed(r.value) && |r.value.rows| == |f.rows|
    ensures r.Success? ==> forall i :: 0 <= i < |f.rows| ==>
      r.value.rows[i] == Put(f.columns, f.rows[i], name, fn(ValueOf(f.columns, f.rows[i], input)))
  {
    var j :- Resolve(f.columns, input);
    UniqueIndex(f.columns, input, j);
    var rows := seq(|f.rows|, i requires 0 <= i < |f.rows| => Put(f.columns, f.rows[i], name, fn(f.rows[i][j])));
    Success(Frame(PutColumn(f.columns, name), rows))
  }

  /** A fresh column computed from `input` is appended to every row, and
      `input` keeps its position. */
  lemma WithComputedAppends(f: Frame, name: string, input: string, fn: Value -> Value)
    requires WellFormed(f) && Unique(f.columns, input) && name !in f.columns
    ensures WithComputed(f, name, input, fn).Success?
    ensures WithComputed(f, name, input, fn).value.columns == f.columns + [name]
    ensures Unique(f.columns + [name], input)
    ensures IndexOf(f.columns + [name], input) == IndexOf(f.columns, input)
    ensures forall i :: 0 <= i < |f.rows| ==>
      WithComputed(f, name, input, fn).value.rows[i] == f.rows[i] + [fn(f.rows[i][IndexOf(f.columns, input)])]
  {
    assert multiset(f.columns + [name])[input] == multiset(f.columns)[input];
    UniqueIndex(f.columns + [name], input, IndexOf(f.columns, input));
  }

  /** The names of a list of named parts: computed columns, or the column
      pairs of a join condition, whose left-hand names these are. */
  function PartNames<T>(parts: seq<(string, T)>): (names: seq<string>)
    ensures |names| == |parts|
    ensures forall k :: 0 <= k < |parts| ==> names[k] == parts[k].0
  {
    seq(|parts|, k requires 0 <= k < |parts| => parts[k].0)
  }

  /** The values of a list of column functions applied to `v`. */
  function PartValues(parts: seq<(string, Value -> Value)>, v: Value): (vals: Row)
    ensures |vals| == |parts|
    ensures forall k :: 0 <= k < |parts| ==> vals[k] == parts[k].1(v)
  {
    seq(|parts|, k requires 0 <= k < |parts| => parts[k].1(v))
  }

  /** A chain `.withColumn(n1, f1(input)).withColumn(n2, f2(input))...` of
      columns all computed from the same input column. */
  function WithComputedAll(f: Frame, input: string, parts: seq<(string, Value -> Value)>): (r: Outcome<Frame>)
    requires WellFormed(f)
    ensures r.Success? ==> WellFormed(r.value) && |r.value.rows| == |f.rows|
    decreases |parts|
  {
    if |parts| == 0 then Success(f)
    else
      var g :- WithComputed(f, parts[0].0, input, parts[0].1);
      WithComputedAll(g, input, parts[1..])
  }

  /** Fresh, distinct computed columns append their values to every row. */
  lemma {:induction false} WithComputedAllAppends(f: Frame, input: string, parts: seq<(string, Value -> Value)>)
    requires WellFormed(f) && Unique(f.columns, input)
    requires forall k :: 0 <= k < |parts| ==> parts[k].0 !in f.columns
    requires forall i, j :: 0 <= i < j < |parts| ==> parts[i].0 != parts[j].0
    ensures WithComputedAll(f, input, parts).Success?
    ensures WithComputedAll(f, input, parts).value.columns == f.columns + PartNames(parts)
    ensures forall i :: 0 <= i < |f.rows| ==>
      WithComputedAll(f, input, parts).value.rows[i] == f.rows[i] + PartValues(parts, f.rows[i][IndexOf(f.columns, input)])
    decreases |parts|
  {
    var j := IndexOf(f.columns, input);
    if |parts| == 0 {
      assert f.columns + PartNames(parts) == f.columns;
      forall i | 0 <= i < |f.rows|
        ensures f.rows[i] + PartValues(parts, f.rows[i][j]) == f.rows[i]
      {
      }
    } else {
      var name := parts[0].0;
      WithComputedAppends(f, name, input, parts[0].1);
      var g := WithComputed(f, name, input, parts[0].1).value;
      var rest := parts[1..];
      forall k | 0 <= k < |rest|
        ensures rest[k].0 !in g.columns
      {
        assert rest[k] == parts[k + 1];
      }
      WithComputedAllAppends(g, input, rest);
      ChainRows(f, g, j, parts, WithComputedAll(g, input, rest).value);
    }
  }

  /** The first computed column followed by the others is the whole list. */
  lemma PartsStep(a: Row, parts: seq<(string, Value -> Value)>, v: Value)
    requires |parts| > 0
    ensures (a + [parts[0].1(v)]) + PartValues(parts[1..], v) == a + PartValues(parts, v)
  {
    assert PartValues(parts, v) == [parts[0].1(v)] + PartValues(parts[1..], v);
  }

  /** One step of a chain of computed columns followed by the rest of it. */
  lemma ChainRows(f: Frame, g: Frame, j: nat, parts: seq<(string, Value -> Value)>, h: Frame)
    requires |parts| > 0 && WellFormed(f) && j < |f.columns|
    requires g.columns == f.columns + [parts[0].0] && |g.rows| == |f.rows|
    requires forall i :: 0 <= i < |f.rows| ==> g.rows[i] == f.rows[i] + [parts[0].1(f.rows[i][j])]
    requires h.columns == g.columns + PartNames(parts[1..]) && |h.rows| == |g.rows|
    requires forall i :: 0 <= i < |g.rows| ==> j < |g.rows[i]| && h.rows[i] == g.rows[i] + PartValues(parts[1..], g.rows[i][j])
    ensures h.columns == f.columns + PartNames(parts) && |h.rows| == |f.rows|
    ensures forall i :: 0 <= i < |f.rows| ==> h.rows[i] == f.rows[i] + PartValues(parts, f.rows[i][j])
  {
    assert PartNames(parts) == [parts[0].0] + PartNames(parts[1..]);
    forall i | 0 <= i < |f.rows|
      ensures h.rows[i] == f.rows[i] + PartValues(parts, f.rows[i][j])
    {
      assert g.rows[i][j] == f.rows[i][j];
      PartsStep(f.rows[i], parts, f.rows[i][j]);
    }
  }

  /** Appends a column `name` numbering the rows 1, 2, 3, ... in their
      current order, a stand-in for a generated unique, increasing id. */
  function WithRowNumber(f: Frame, name: string): (r: Frame)
    requires WellFormed(f)
    ensures r.columns == f.columns + [name] && WellFormed(r) && |r.rows| == |f.rows|
    ensures forall i :: 0 <= i < |f.rows| ==> r.rows[i][..|f.columns|] == f.rows[i]
    ensures forall i :: 0 <= i < |f.rows| ==> r.rows[i][|f.columns|].Int? && r.rows[i][|f.columns|].i >= 1
    ensures forall i, j :: 0 <= i < j < |f.rows| ==> r.rows[i][|f.columns|].i < r.rows[j][|f.columns|].i
    ensures NoDuplicates(r.rows)
  {
    var rows := seq(|f.rows|, i requires 0 <= i < |f.rows| => f.rows[i] + [Int(i + 1)]);
    forall i, j | 0 <= i < j < |rows|
      ensures rows[i] != rows[j]
    {
      assert rows[i][|f.columns|] != rows[j][|f.columns|];
    }
    Frame(f.columns + [name], rows)
  }

  /** `withColumnRenamed(existing, renamed)`: columns called `existing` are
      called `renamed`; the data does not change, and nothing happens when no
      column is called `existing`. */
  function WithColumnRenamed(f: Frame, existing: string, renamed: string): (r: Frame)
    ensures r.rows == f.rows
    ensures |r.columns| == |f.columns|
    ensures forall j :: 0 <= j < |f.columns| ==>
      r.columns[j] == if f.columns[j] == existing then renamed else f.columns[j]
    ensures existing !in f.columns ==> r == f
  {
    var cols := seq(|f.columns|, j requires 0 <= j < |f.columns| =>
      if f.columns[j] == existing then renamed else f.columns[j]);
    assert existing !in f.columns ==> cols == f.columns;
    Frame(cols, f.rows)
  }

  /** The renaming loop over two parallel name lists: for each pair whose
      names differ, rename the first to the second. */
  function RenamePairs(f: Frame, olds: seq<string>, news: seq<string>): (r: Frame)
    requires |olds| == |news|
    ensures r.rows == f.rows && |r.columns| == |f.columns|
    decreases |olds|
  {
    if |olds| == 0 then f
    else
      var g := if olds[0] != news[0] then WithColumnRenamed(f, olds[0], news[0]) else f;
      RenamePairs(g, olds[1..], news[1..])
  }

  /** Renaming the columns `olds` (after some already renamed columns `done`)
      pairwise to `news` leaves the data alone and yields `done + news`,
      provided the old names are distinct, occur nowhere else, and no new name
      is captured by a later old one. */
  lemma {:induction false} RenamePairsColumns(f: Frame, done: seq<string>, olds: seq<string>, news: seq<string>)
    requires |olds| == |news|
    requires f.columns == done + olds
    requires NoDuplicates(olds)
    requires forall j :: 0 <= j < |olds| ==> olds[j] !in done
    requires forall i, j :: 0 <= i < j < |olds| ==> news[i] != olds[j]
    ensures RenamePairs(f, olds, news) == Frame(done + news, f.rows)
    decreases |olds|
  {
    if |olds| == 0 {
      assert done + olds == done + news;
    } else {
      var g := if olds[0] != news[0] then WithColumnRenamed(f, olds[0], news[0]) else f;
      var done' := done + [news[0]];
      assert g.columns == done' + olds[1..] by {
        if olds[0] != news[0] {
          forall j | 0 <= j < |f.columns|
            ensures g.columns[j] == (done' + olds[1..])[j]
          {
            if j < |done| {
              assert f.columns[j] == done[j];
            } else if j > |done| {
              assert f.columns[j] == olds[j - |done|];
            }
          }
        }
      }
      assert NoDuplicates(olds[1..]);
      RenamePairsColumns(g, done', olds[1..], news[1..]);
      assert done' + news[1..] == done + news;
    }
  }

  /** `dropDuplicates()`: removes rows equal in every column. */
  function DropDuplicates(f: Frame): (r: Frame)
    requires WellFormed(f)
    ensures r.columns == f.columns && WellFormed(r)
    ensures NoDuplicates(r.rows)
    ensures forall row :: row in r.rows <==> row in f.rows
  {
    var rows := Distinct(f.rows);
    forall k | 0 <= k < |rows|
      ensures |rows[k]| == |f.columns|
    {
      assert rows[k] in f.rows;
    }
    Frame(f.columns, rows)
  }

  /** Dropping duplicates a second time changes nothing. */
  lemma DropDuplicatesIdempotent(f: Frame)
    requires WellFormed(f)
    ensures DropDuplicates(DropDuplicates(f)) == DropDuplicates(f)
  {
    DistinctIdempotent(f.rows);
  }
}

=== FILE: jobs.dfy ===
/** The two jobs of the pipeline, `process_song_data` and
    `process_log_data`, as the sequence of tables they write. The tables are
    written one after the other; when a step raises, the job stops there and
    the tables written before it stay written. */
module Jobs {

  import opened Wrappers
  import opened Values
  import opened Collections
  import opened Frames
  import opened LogData
  import opened SongData
  import opened Timestamps
  import opened TimeData
  import opened TimeTable
  import opened Songplays

  /** What a job leaves behind: the tables it wrote, in order, and the error
      it stopped with, if any. */
  datatype Run = Completed(written: seq<Frame>) | Aborted(written: seq<Frame>, error: Error)

  /** `process_song_data`: the `songs` table, then the `artists` table. Both
      are projections with duplicates removed, so the job always completes. */
  function ProcessSongData(songs: seq<SongRecord>): (r: Run)
    ensures r.Completed? && |r.written| == 2
    ensures r.written[0].columns == SongsColumns && NoDuplicates(r.written[0].rows)
    ensures forall row :: row in r.written[0].rows <==> exists s :: s in songs && row == SongsRow(s)
    ensures r.written[1].columns == ArtistsColumns && NoDuplicates(r.written[1].rows)
    ensures forall row :: row in r.written[1].rows <==> exists s :: s in songs && row == ArtistsRow(s)
  {
    Completed([SongsTable(songs), ArtistsTable(songs)])
  }

  /** The users table the log job writes first. */
  ghost predicate UsersWritten(logs: seq<LogRecord>, f: Frame) {
    && f.columns == UsersColumns && NoDuplicates(f.rows)
    && forall row :: row in f.rows <==> exists l :: l in logs && IsPlay(l) && row == UserRow(l)
  }

  /** The time table the log job writes second. */
  ghost predicate TimeWritten(logs: seq<LogRecord>, f: Frame) {
    && f.columns == TimeColumns && NoDuplicates(f.rows)
    && forall row :: row in f.rows <==>
      exists l :: l in logs && IsPlay(l) && Timeable(l) && row == TimeRow(Seconds(l.ts).value)
  }

  /** The log job's three writes in order: `users`, which cannot fail, then
      `time`, then `songplays`; the job stops at the first step that fails. */
  function LogRun(users: Frame, time: Outcome<Frame>, songplays: Outcome<Frame>): (r: Run)
    ensures |r.written| >= 1 && r.written[0] == users
    ensures r.Completed? <==> time.Success? && songplays.Success?
    ensures r.Completed? ==> r.written == [users, time.value, songplays.value]
    ensures time.Failure? ==> r == Aborted([users], time.error)
    ensures time.Success? && songplays.Failure? ==> r == Aborted([users, time.value], songplays.error)
  {
    match time
    case Failure(e) => Aborted([users], e)
    case Success(t) =>
      match songplays
      case Failure(e) => Aborted([users, t], e)
      case Success(p) => Completed([users, t, p])
  }

  /** `process_log_data` as written: `users`, then the time table, whose
      line 100 never resolves, so the job writes `users` and stops there
      whatever values the log's records hold. Its songplays select, which does not resolve
      either, is never reached. */
  function ProcessLogData(logs: seq<LogRecord>, songs: seq<SongRecord>): (r: Run)
    ensures r == Aborted([UsersTable(logs)], MissingColumn("timestamp"))
  {
    LogRun(UsersTable(logs), TableAsWritten(), SongplaysAsWritten(logs, songs))
  }

  /** `process_log_data` with line 100 corrected and the songplays
      statements as written: `users`, then `time`, then the `songplays`
      select, which never resolves. */
  function ProcessLogDataStartFixed(logs: seq<LogRecord>, songs: seq<SongRecord>): (r: Run)
    ensures r.Aborted? && 1 <= |r.written| <= 2
  {
    LogRun(UsersTable(logs), Table(logs), SongplaysAsWritten(logs, songs))
  }

  /** `process_log_data` corrected: `users`, the time table of the
      corrected line 100, then the songplays table of the corrected
      pipeline. It completes exactly when
      every play's `ts` is usable. */
  function ProcessLogDataCorrected(logs: seq<LogRecord>, songs: seq<SongRecord>): (r: Run)
    ensures r.Completed? <==> forall l :: l in logs && IsPlay(l) ==> Timeable(l)
    ensures |r.written| == if r.Completed? then 3 else 1
  {
    LogRun(UsersTable(logs), Table(logs), Songplays.Songplays(logs, songs))
  }

  /** Every version of the log job writes the users table first. */
  lemma UsersWrittenFirst(logs: seq<LogRecord>, songs: seq<SongRecord>)
    ensures UsersWritten(logs, ProcessLogData(logs, songs).written[0])
    ensures UsersWritten(logs, ProcessLogDataStartFixed(logs, songs).written[0])
    ensures UsersWritten(logs, ProcessLogDataCorrected(logs, songs).written[0])
  {
  }

  /** With line 100 corrected and the songplays statements as written, the
      log job writes the time table exactly when every play's `ts` is
      usable, and then stops at the `month` select; otherwise it stops with
      the error of the time columns. */
  lemma StartFixedRun(logs: seq<LogRecord>, songs: seq<SongRecord>)
    ensures var r := ProcessLogDataStartFixed(logs, songs);
      && (|r.written| == 2 <==> forall l :: l in logs && IsPlay(l) ==> Timeable(l))
      && (|r.written| == 2 ==> TimeWritten(logs, r.written[1]) && r.error == MissingColumn("month"))
      && (|r.written| == 1 ==> Timed(logs) == Failure(r.error))
  {
    var users := UsersTable(logs);
    if Table(logs).Success? {
      assert ProcessLogDataStartFixed(logs, songs) == Aborted([users, Table(logs).value], MissingColumn("month"));
    } else {
      assert ProcessLogDataStartFixed(logs, songs) == Aborted([users], Table(logs).error);
    }
  }

  /** Corrected, the log job that completes writes the time table and a
      songplays table with one row for each row of the join. */
  lemma CorrectedRun(logs: seq<LogRecord>, songs: seq<SongRecord>)
    requires ProcessLogDataCorrected(logs, songs).Completed?
    ensures TimeWritten(logs, ProcessLogDataCorrected(logs, songs).written[1])
    ensures IsSongplays(logs, songs, ProcessLogDataCorrected(logs, songs).written[2])
    ensures RowPerJoined(Joined(logs, songs).value, ProcessLogDataCorrected(logs, songs).written[2])
  {
    SongplaysRows(logs, songs);
  }

  /** Corrected, the log job that stops does so with the error of the time
      columns. */
  lemma CorrectedAborts(logs: seq<LogRecord>, songs: seq<SongRecord>)
    requires ProcessLogDataCorrected(logs, songs).Aborted?
    ensures Timed(logs) == Failure(ProcessLogDataCorrected(logs, songs).error)
  {
  }

  /** Replacing a failing last step by one that succeeds whenever the
      second does keeps the tables written before it. */
  lemma LogRunPrefix(users: Frame, time: Outcome<Frame>, failing: Outcome<Frame>, fixed: Outcome<Frame>)
    requires failing.Failure? && (time.Success? ==> fixed.Success?)
    ensures |LogRun(users, time, failing).written| <= |LogRun(users, time, fixed).written|
    ensures LogRun(users, time, fixed).written[..|LogRun(users, time, failing).written|] == LogRun(users, time, failing).written
    ensures LogRun(users, time, fixed).Aborted? <==> time.Failure?
    ensures LogRun(users, time, failing).error == if time.Failure? then time.error else failing.error
  {
    if time.Success? {
      assert LogRun(users, time, fixed).written[..2] == [users, time.value];
    } else {
      assert LogRun(users, time, fixed).written[..1] == [users];
    }
  }

  /** The corrected `songplays` statements succeed whenever the time
      table does, and the time table's error is never the `month` select's. */
  lemma TimeStepFirst(logs: seq<LogRecord>, songs: seq<SongRecord>)
    ensures Table(logs).Success? ==> Songplays.Songplays(logs, songs).Success?
    ensures Table(logs).Failure? ==> Table(logs).error != MissingColumn("month")
  {
  }

  /** Correcting the songplays statements changes only the last step:
      whatever the job with line 100 corrected leaves behind, the corrected
      job writes the same tables first, and it fails only where that job
      fails before the select. */
  lemma CorrectionKeepsPrefix(logs: seq<LogRecord>, songs: seq<SongRecord>)
    ensures |ProcessLogDataStartFixed(logs, songs).written| <= |ProcessLogDataCorrected(logs, songs).written|
    ensures ProcessLogDataCorrected(logs, songs).written[..|ProcessLogDataStartFixed(logs, songs).written|] == ProcessLogDataStartFixed(logs, songs).written
    ensures ProcessLogDataCorrected(logs, songs).Aborted? <==> ProcessLogDataStartFixed(logs, songs).error != MissingColumn("month")
  {
    TimeStepFirst(logs, songs);
    LogRunPrefix(UsersTable(logs), Table(logs), SongplaysAsWritten(logs, songs), Songplays.Songplays(logs, songs));
  }
}

=== FILE: joins.dfy ===
/** `join(other, condition, 'inner')` where the condition is a conjunction
    of column equalities: every pair of a left row and a right row that
    satisfies the condition gives one result row, the left values followed
    by the right values. */
module Joins {

  import opened Wrappers
  import opened Values
  import opened Collections
  import opened Frames

  /** The right-hand column names of a list of equality pairs. */
  function RightNames(on: seq<(string, string)>): (names: seq<string>)
    ensures |names| == |on|
    ensures forall k :: 0 <= k < |on| ==> names[k] == on[k].1
  {
    seq(|on|, k requires 0 <= k < |on| => on[k].1)
  }

  /** Every column of the condition resolves on its own side. */
  predicate Resolvable(lcols: seq<string>, rcols: seq<string>, on: seq<(string, string)>) {
    forall k :: 0 <= k < |on| ==> Unique(lcols, on[k].0) && Unique(rcols, on[k].1)
  }

  /** The condition `left[a1] == right[b1] & left[a2] == right[b2] & ...`,
      with SQL equality: a null on either side never matches. */
  predicate JoinMatch(lcols: seq<string>, rcols: seq<string>, l: Row, r: Row, on: seq<(string, string)>)
    requires |l| == |lcols| && |r| == |rcols|
    requires Resolvable(lcols, rcols, on)
  {
    forall k :: 0 <= k < |on| ==> SqlEquals(ValueOf(lcols, l, on[k].0), ValueOf(rcols, r, on[k].1))
  }

  /** `l` followed by each row of `rights`. */
  function Prefixed(l: Row, rights: seq<Row>): (r: seq<Row>)
    ensures |r| == |rights|
    ensures forall j :: 0 <= j < |rights| ==> r[j] == l + rights[j]
  {
    seq(|rights|, j requires 0 <= j < |rights| => l + rights[j])
  }

  /** Two concatenations with equally long first parts are equal only part by part. */
  lemma ConcatSplit(a: Row, b: Row, c: Row, d: Row)
    requires |a| == |c|
    ensures a + b == c + d <==> a == c && b == d
  {
    if a + b == c + d {
      assert a == (a + b)[..|a|] && c == (c + d)[..|c|];
      assert b == (a + b)[|a|..] && d == (c + d)[|c|..];
    }
  }

  lemma {:induction false} PrefixedCount(l: Row, rights: seq<Row>, a: Row, b: Row)
    requires |a| == |l|
    ensures multiset(Prefixed(l, rights))[a + b] == if a == l then multiset(rights)[b] else 0
  {
    if |rights| > 0 {
      var init := rights[..|rights| - 1];
      var last := rights[|rights| - 1];
      PrefixedCount(l, init, a, b);
      assert rights == init + [last];
      assert Prefixed(l, rights) == Prefixed(l, init) + [l + last];
      ConcatSplit(a, b, l, last);
    }
  }

  /** The right rows that match the left row `l`, each as often as it occurs. */
  function Partners(l: Row, right: seq<Row>, p: (Row, Row) -> bool): (r: seq<Row>)
    ensures forall b :: multiset(r)[b] == if p(l, b) then multiset(right)[b] else 0
  {
    Where(right, (r: Row) => p(l, r))
  }

  /** The rows of the inner join of the row lists under the condition `p`,
      left row by left row. */
  function JoinRows(left: seq<Row>, right: seq<Row>, p: (Row, Row) -> bool): seq<Row>
  {
    if |left| == 0 then []
    else
      var l := left[|left| - 1];
      JoinRows(left[..|left| - 1], right, p) + Prefixed(l, Partners(l, right, p))
  }

  /** The count after one more left row: the new row adds the count of its
      partner when it is the row counted and the pair matches. */
  lemma ProductStep(matches: bool, same: bool, m: nat, n: nat)
    ensures (if matches then m * n else 0) + (if same && matches then n else 0) ==
            if matches then (m + (if same then 1 else 0)) * n else 0
  {
    if matches && same {
      assert (m + 1) * n == m * n + n;
    }
  }

  /** The join is the relational product restricted to the condition: a pair
      of rows that satisfies it occurs as often as the product of the pair's
      counts, any other pair not at all. */
  lemma {:induction false} JoinRowsCount(left: seq<Row>, right: seq<Row>, p: (Row, Row) -> bool, w: nat, a: Row, b: Row)
    requires forall i :: 0 <= i < |left| ==> |left[i]| == w
    requires |a| == w
    ensures multiset(JoinRows(left, right, p))[a + b] ==
            if p(a, b) then multiset(left)[a] * multiset(right)[b] else 0
  {
    if |left| > 0 {
      var init := left[..|left| - 1];
      var l := left[|left| - 1];
      assert left == init + [l];
      var matched := Partners(l, right, p);
      var x := a + b;
      JoinRowsCount(init, right, p, w, a, b);
      PrefixedCount(l, matched, a, b);
      CountConcat(JoinRows(init, right, p), Prefixed(l, matched), x);
      var m := multiset(init)[a];
      var n := multiset(right)[b];
      CountAppend(init, l, a);
      ProductStep(p(a, b), a == l, m, n);
    }
  }

  /** Every joined row is a left row followed by a right row that satisfy the condition. */
  lemma {:induction false} JoinRowsSound(left: seq<Row>, right: seq<Row>, p: (Row, Row) -> bool, w: nat)
    requires forall i :: 0 <= i < |left| ==> |left[i]| == w
    ensures forall x :: x in JoinRows(left, right, p) ==>
      |x| >= w && x[..w] in left && x[w..] in right && p(x[..w], x[w..])
  {
    if |left| > 0 {
      var init := left[..|left| - 1];
      var l := left[|left| - 1];
      JoinRowsSound(init, right, p, w);
      var matched := Partners(l, right, p);
      forall x | x in Prefixed(l, matched)
        ensures |x| >= w && x[..w] in left && x[w..] in right && p(x[..w], x[w..])
      {
        var j :| 0 <= j < |matched| && x == l + matched[j];
        assert x[..w] == l && x[w..] == matched[j];
        assert multiset(matched)[matched[j]] > 0;
      }
    }
  }

  /** The join condition on rows, with the condition's columns already
      resolved to the positions `li` (left) and `ri` (right). */
  predicate MatchAt(a: Row, b: Row, wl: nat, wr: nat, li: seq<nat>, ri: seq<nat>) {
    && |a| == wl && |b| == wr && |li| == |ri|
    && (forall k :: 0 <= k < |li| ==> li[k] < wl && ri[k] < wr)
    && forall k :: 0 <= k < |li| ==> SqlEquals(a[li[k]], b[ri[k]])
  }

  /** The positional condition is the by-name condition. */
  lemma MatchAtAgrees(lcols: seq<string>, rcols: seq<string>, on: seq<(string, string)>,
                      li: seq<nat>, ri: seq<nat>, a: Row, b: Row)
    requires Resolvable(lcols, rcols, on)
    requires |li| == |on| && |ri| == |on|
    requires forall k :: 0 <= k < |on| ==> li[k] == IndexOf(lcols, on[k].0) && ri[k] == IndexOf(rcols, on[k].1)
    requires |a| == |lcols| && |b| == |rcols|
    ensures MatchAt(a, b, |lcols|, |rcols|, li, ri) <==> JoinMatch(lcols, rcols, a, b, on)
  {
  }

  /** The condition resolves exactly when both lists of its names do. */
  lemma ResolvableNames(lcols: seq<string>, rcols: seq<string>, on: seq<(string, string)>)
    ensures Resolvable(lcols, rcols, on) <==>
      ResolveAll(lcols, PartNames(on)).Success? && ResolveAll(rcols, RightNames(on)).Success?
  {
    if !Resolvable(lcols, rcols, on) {
      var k :| 0 <= k < |on| && !(Unique(lcols, on[k].0) && Unique(rcols, on[k].1));
      assert PartNames(on)[k] == on[k].0 && RightNames(on)[k] == on[k].1;
    }
  }

  /** Resolving the condition's columns gives their positions. */
  lemma ResolveOn(lcols: seq<string>, rcols: seq<string>, on: seq<(string, string)>, li: seq<nat>, ri: seq<nat>)
    requires ResolveAll(lcols, PartNames(on)) == Success(li)
    requires ResolveAll(rcols, RightNames(on)) == Success(ri)
    ensures Resolvable(lcols, rcols, on)
    ensures |li| == |on| && |ri| == |on|
    ensures forall k :: 0 <= k < |on| ==> li[k] == IndexOf(lcols, on[k].0) && ri[k] == IndexOf(rcols, on[k].1)
  {
    forall k | 0 <= k < |on|
      ensures Unique(lcols, on[k].0) && Unique(rcols, on[k].1)
      ensures li[k] == IndexOf(lcols, on[k].0) && ri[k] == IndexOf(rcols, on[k].1)
    {
      assert PartNames(on)[k] == on[k].0 && RightNames(on)[k] == on[k].1;
      UniqueIndex(lcols, on[k].0, li[k]);
      UniqueIndex(rcols, on[k].1, ri[k]);
    }
  }

  /** The join condition as a predicate on pairs of rows. */
  function Condition(wl: nat, wr: nat, li: seq<nat>, ri: seq<nat>): (Row, Row) -> bool {
    (a: Row, b: Row) => MatchAt(a, b, wl, wr, li, ri)
  }

  /** The multiplicities of the joined rows, with the condition resolved. */
  lemma JoinCounts(left: Frame, right: Frame, on: seq<(string, string)>, li: seq<nat>, ri: seq<nat>)
    requires WellFormed(left) && WellFormed(right)
    requires Resolvable(left.columns, right.columns, on)
    requires |li| == |on| && |ri| == |on|
    requires forall k :: 0 <= k < |on| ==>
      li[k] == IndexOf(left.columns, on[k].0) && ri[k] == IndexOf(right.columns, on[k].1)
    ensures forall a: Row, b: Row | |a| == |left.columns| && |b| == |right.columns| ::
      multiset(JoinRows(left.rows, right.rows, Condition(|left.columns|, |right.columns|, li, ri)))[a + b] ==
        if JoinMatch(left.columns, right.columns, a, b, on)
        then multiset(left.rows)[a] * multiset(right.rows)[b] else 0
  {
    var p := Condition(|left.columns|, |right.columns|, li, ri);
    forall a: Row, b: Row | |a| == |left.columns| && |b| == |right.columns|
      ensures multiset(JoinRows(left.rows, right.rows, p))[a + b] ==
        if JoinMatch(left.columns, right.columns, a, b, on)
        then multiset(left.rows)[a] * multiset(right.rows)[b] else 0
    {
      JoinRowsCount(left.rows, right.rows, p, |left.columns|, a, b);
      MatchAtAgrees(left.columns, right.columns, on, li, ri, a, b);
    }
  }

  /** Every joined row splits into a left and a right row that satisfy the condition. */
  lemma JoinSound(left: Frame, right: Frame, on: seq<(string, string)>, li: seq<nat>, ri: seq<nat>)
    requires WellFormed(left) && WellFormed(right)
    requires Resolvable(left.columns, right.columns, on)
    requires |li| == |on| && |ri| == |on|
    requires forall k :: 0 <= k < |on| ==>
      li[k] == IndexOf(left.columns, on[k].0) && ri[k] == IndexOf(right.columns, on[k].1)
    ensures forall x :: x in JoinRows(left.rows, right.rows, Condition(|left.columns|, |right.columns|, li, ri)) ==>
      var w := |left.columns|;
      && |x| == w + |right.columns|
      && x[..w] in left.rows && x[w..] in right.rows
      && JoinMatch(left.columns, right.columns, x[..w], x[w..], on)
  {
    var wl, wr := |left.columns|, |right.columns|;
    var p := Condition(wl, wr, li, ri);
    JoinRowsSound(left.rows, right.rows, p, wl);
    forall x | x in JoinRows(left.rows, right.rows, p)
      ensures |x| == wl + wr
      ensures JoinMatch(left.columns, right.columns, x[..wl], x[wl..], on)
    {
      assert x[wl..] in right.rows;
      MatchAtAgrees(left.columns, right.columns, on, li, ri, x[..wl], x[wl..]);
    }
  }

  /** The join with the condition's columns resolved to the positions
      `li` on the left and `ri` on the right. */
  function JoinResolved(left: Frame, right: Frame, on: seq<(string, string)>, li: seq<nat>, ri: seq<nat>): (r: Frame)
    requires WellFormed(left) && WellFormed(right)
    requires Resolvable(left.columns, right.columns, on)
    requires |li| == |on| && |ri| == |on|
    requires forall k :: 0 <= k < |on| ==>
      li[k] == IndexOf(left.columns, on[k].0) && ri[k] == IndexOf(right.columns, on[k].1)
    ensures r.columns == left.columns + right.columns && WellFormed(r)
    ensures forall a: Row, b: Row | |a| == |left.columns| && |b| == |right.columns| ::
      multiset(r.rows)[a + b] ==
        if JoinMatch(left.columns, right.columns, a, b, on)
        then multiset(left.rows)[a] * multiset(right.rows)[b] else 0
    ensures forall x :: x in r.rows ==>
      var w := |left.columns|;
      && |x| == w + |right.columns|
      && x[..w] in left.rows && x[w..] in right.rows
      && JoinMatch(left.columns, right.columns, x[..w], x[w..], on)
  {
    JoinCounts(left, right, on, li, ri);
    JoinSound(left, right, on, li, ri);
    Frame(left.columns + right.columns, JoinRows(left.rows, right.rows, Condition(|left.columns|, |right.columns|, li, ri)))
  }

  /** `left.join(right, (left[a1] == right[b1]) & ..., 'inner')`. The result
      has the left columns followed by the right ones. */
  function InnerJoin(left: Frame, right: Frame, on: seq<(string, string)>): (r: Outcome<Frame>)
    requires WellFormed(left) && WellFormed(right)
    ensures r.Success? <==> Resolvable(left.columns, right.columns, on)
    ensures r.Success? ==> r.value.columns == left.columns + right.columns && WellFormed(r.value)
    ensures r.Success? ==> forall a: Row, b: Row
      | |a| == |left.columns| && |b| == |right.columns| ::
        multiset(r.value.rows)[a + b] ==
        if JoinMatch(left.columns, right.columns, a, b, on)
        then multiset(left.rows)[a] * multiset(right.rows)[b] else 0
    ensures r.Success? ==> forall x :: x in r.value.rows ==>
      var w := |left.columns|;
      && |x| == w + |right.columns|
      && x[..w] in left.rows && x[w..] in right.rows
      && JoinMatch(left.columns, right.columns, x[..w], x[w..], on)
  {
    ResolvableNames(left.columns, right.columns, on);
    var li :- ResolveAll(left.columns, PartNames(on));
    var ri :- ResolveAll(right.columns, RightNames(on));
    ResolveOn(left.columns, right.columns, on, li, ri);
    Success(JoinResolved(left, right, on, li, ri))
  }
}

=== FILE: log_data.dfy ===
/** The event log side: the log records, the song plays among them, and the
    `users` table. */
module LogData {

  import opened Values
  import opened Collections
  import opened Frames

  /** One log event, with the fields the transforms read. A missing field is
      `Null`. */
  datatype LogRecord = LogRecord(
    artist: Value,
    firstName: Value,
    gender: Value,
    lastName: Value,
    level: Value,
    location: Value,
    page: Value,
    sessionId: Value,
    song: Value,
    ts: Value,
    userAgent: Value,
    userId: Value)

  /** The columns of the log frame: the fields the job reads, in the
      alphabetical order the JSON reader gives them. The reader infers the
      columns from the records, and the fields the job does not read are
      left out. */
  const LogColumns: seq<string> := ["artist", "firstName", "gender", "lastName", "level", "location",
                                    "page", "sessionId", "song", "ts", "userAgent", "userId"]

  function LogRow(l: LogRecord): (r: Row)
    ensures |r| == |LogColumns|
  {
    [l.artist, l.firstName, l.gender, l.lastName, l.level, l.location,
     l.page, l.sessionId, l.song, l.ts, l.userAgent, l.userId]
  }

  /** Distinct records give distinct rows. */
  lemma LogRowInjective(a: LogRecord, b: LogRecord)
    requires LogRow(a) == LogRow(b)
    ensures a == b
  {
    var x, y := LogRow(a), LogRow(b);
    assert x[0] == y[0] && x[1] == y[1] && x[2] == y[2] && x[3] == y[3];
    assert x[4] == y[4] && x[5] == y[5] && x[6] == y[6] && x[7] == y[7];
    assert x[8] == y[8] && x[9] == y[9] && x[10] == y[10] && x[11] == y[11];
  }

  /** The frame the JSON reader produces: one row per record. */
  function LogFrame(logs: seq<LogRecord>): (f: Frame)
    ensures f.columns == LogColumns && WellFormed(f) && |f.rows| == |logs|
    ensures forall i :: 0 <= i < |logs| ==> f.rows[i] == LogRow(logs[i])
  {
    Frame(LogColumns, seq(|logs|, i requires 0 <= i < |logs| => LogRow(logs[i])))
  }

  /** A record occurs in the frame as often as in the input. */
  lemma LogFrameCount(logs: seq<LogRecord>, l: LogRecord)
    ensures multiset(LogFrame(logs).rows)[LogRow(l)] == multiset(logs)[l]
  {
    var f := LogFrame(logs);
    forall i | 0 <= i < |logs|
      ensures f.rows[i] == LogRow(l) <==> logs[i] == l
    {
      if f.rows[i] == LogRow(l) {
        LogRowInjective(logs[i], l);
      }
    }
    CountCorrespondence(logs, f.rows, l, LogRow(l));
  }

  lemma LogSchema()
    ensures NoDuplicates(LogColumns)
  {
  }

  /** `page` is column 6 of the log frame. */
  lemma PageField()
    ensures Unique(LogColumns, "page") && LogColumns[6] == "page"
  {
    LogSchema();
    ColumnAt(LogColumns, "page", 6);
  }

  /** The event is a song play. */
  predicate IsPlay(l: LogRecord) {
    l.page == Str("NextSong")
  }

  /** The filter on `page`, with the column resolved to its position. */
  lemma PlaysFilter(logs: seq<LogRecord>)
    ensures FilterEquals(LogFrame(logs), "page", Str("NextSong")).Success?
    ensures FilterEquals(LogFrame(logs), "page", Str("NextSong")).value.columns == LogColumns
    ensures forall row :: multiset(FilterEquals(LogFrame(logs), "page", Str("NextSong")).value.rows)[row] ==
              if |row| == |LogColumns| && SqlEquals(row[6], Str("NextSong")) then multiset(LogFrame(logs).rows)[row] else 0
  {
    PageField();
    FilterAt(LogFrame(logs), "page", Str("NextSong"), 6);
  }

  /** The rows a filter on `page == "NextSong"` keeps from the log frame,
      stated by position. */
  ghost predicate KeepsPlays(logs: seq<LogRecord>, kept: Frame) {
    forall row :: multiset(kept.rows)[row] ==
      if |row| == |LogColumns| && SqlEquals(row[6], Str("NextSong")) then multiset(LogFrame(logs).rows)[row] else 0
  }

  /** The `page` value sits at position 6 of a record's row. */
  lemma PageAt(l: LogRecord)
    ensures LogRow(l)[6] == l.page
  {
  }

  lemma KeptCount(logs: seq<LogRecord>, kept: Frame, row: Row)
    requires KeepsPlays(logs, kept) && |row| == |LogColumns|
    ensures multiset(kept.rows)[row] == if SqlEquals(row[6], Str("NextSong")) then multiset(LogFrame(logs).rows)[row] else 0
  {
  }

  /** A record's row is kept as often as the record occurs, if it is a play. */
  lemma PlaysCount(logs: seq<LogRecord>, kept: Frame, l: LogRecord)
    requires KeepsPlays(logs, kept)
    ensures multiset(kept.rows)[LogRow(l)] == if IsPlay(l) then multiset(logs)[l] else 0
  {
    KeptCount(logs, kept, LogRow(l));
    PageAt(l);
    LogFrameCount(logs, l);
  }

  /** Every kept row is the row of a play of the input. */
  lemma PlaysSound(logs: seq<LogRecord>, kept: Frame, row: Row)
    requires KeepsPlays(logs, kept)
    requires row in kept.rows
    ensures exists l :: l in logs && IsPlay(l) && row == LogRow(l)
  {
    var f := LogFrame(logs);
    assert multiset(kept.rows)[row] > 0;
    assert |row| == |LogColumns| && SqlEquals(row[6], Str("NextSong")) && row in f.rows;
    var i :| 0 <= i < |f.rows| && f.rows[i] == row;
    PageAt(logs[i]);
    assert logs[i] in logs;
  }

  /** `df.filter(df.page == "NextSong")`: every kept row is a song play of the
      input, and every song play is kept as often as it occurs. */
  function Plays(logs: seq<LogRecord>): (r: Frame)
    ensures r.columns == LogColumns && WellFormed(r)
    ensures forall row :: row in r.rows ==> exists l :: l in logs && IsPlay(l) && row == LogRow(l)
    ensures forall l :: multiset(r.rows)[LogRow(l)] == if IsPlay(l) then multiset(logs)[l] else 0
  {
    PlaysFilter(logs);
    var kept := FilterEquals(LogFrame(logs), "page", Str("NextSong")).value;
    assert KeepsPlays(logs, kept);
    forall l
      ensures multiset(kept.rows)[LogRow(l)] == if IsPlay(l) then multiset(logs)[l] else 0
    {
      PlaysCount(logs, kept, l);
    }
    forall row | row in kept.rows
      ensures exists l :: l in logs && IsPlay(l) && row == LogRow(l)
    {
      PlaysSound(logs, kept, row);
    }
    kept
  }

  /** A record's row survives the filter exactly when it is a play of the input. */
  lemma PlayRow(logs: seq<LogRecord>, l: LogRecord)
    ensures LogRow(l) in Plays(logs).rows <==> l in logs && IsPlay(l)
  {
    assert LogRow(l) in Plays(logs).rows <==> multiset(Plays(logs).rows)[LogRow(l)] > 0;
  }

  /** The play whose row the filter kept at position `i`. */
  ghost function PlayAt(logs: seq<LogRecord>, i: int): (l: LogRecord)
    requires 0 <= i < |Plays(logs).rows|
    ensures l in logs && IsPlay(l) && Plays(logs).rows[i] == LogRow(l)
  {
    assert Plays(logs).rows[i] in Plays(logs).rows;
    var l :| l in logs && IsPlay(l) && Plays(logs).rows[i] == LogRow(l); l
  }

  /** Every play of the input is kept somewhere. */
  lemma PlayKept(logs: seq<LogRecord>, l: LogRecord)
    requires l in logs && IsPlay(l)
    ensures exists i :: 0 <= i < |Plays(logs).rows| && PlayAt(logs, i) == l
  {
    PlayRow(logs, l);
    var i :| 0 <= i < |Plays(logs).rows| && Plays(logs).rows[i] == LogRow(l);
    LogRowInjective(PlayAt(logs, i), l);
  }

  /** Rows that extend each kept row with values computed from its play. */
  ghost predicate ExtendsPlays(logs: seq<LogRecord>, rows: seq<Row>, ext: LogRecord -> Row) {
    && |rows| == |Plays(logs).rows|
    && forall i :: 0 <= i < |rows| ==> rows[i] == LogRow(PlayAt(logs, i)) + ext(PlayAt(logs, i))
  }

  /** One extended row is that of `l` exactly when the kept row is. */
  lemma ExtendedAt(logs: seq<LogRecord>, rows: seq<Row>, ext: LogRecord -> Row, l: LogRecord, i: int)
    requires ExtendsPlays(logs, rows, ext) && 0 <= i < |rows|
    ensures rows[i] == LogRow(l) + ext(l) <==> Plays(logs).rows[i] == LogRow(l)
  {
    var k := PlayAt(logs, i);
    if rows[i] == LogRow(l) + ext(l) {
      assert rows[i][..|LogColumns|] == LogRow(k);
      assert rows[i][..|LogColumns|] == LogRow(l);
    }
    if Plays(logs).rows[i] == LogRow(l) {
      LogRowInjective(k, l);
    }
  }

  /** A play's extended row occurs as often as the play. */
  lemma ExtendedCount(logs: seq<LogRecord>, rows: seq<Row>, ext: LogRecord -> Row, l: LogRecord)
    requires ExtendsPlays(logs, rows, ext)
    ensures multiset(rows)[LogRow(l) + ext(l)] == if IsPlay(l) then multiset(logs)[l] else 0
  {
    forall i | 0 <= i < |rows|
      ensures rows[i] == LogRow(l) + ext(l) <==> Plays(logs).rows[i] == LogRow(l)
    {
      ExtendedAt(logs, rows, ext, l, i);
    }
    CountCorrespondence(Plays(logs).rows, rows, LogRow(l), LogRow(l) + ext(l));
  }

  /** Every extended row is that of a play of the input. */
  lemma ExtendedSound(logs: seq<LogRecord>, rows: seq<Row>, ext: LogRecord -> Row, row: Row)
    requires ExtendsPlays(logs, rows, ext) && row in rows
    ensures exists l :: l in logs && IsPlay(l) && row == LogRow(l) + ext(l)
  {
    var i :| 0 <= i < |rows| && rows[i] == row;
    var l := PlayAt(logs, i);
  }

  /** The columns of the `users` table: the source names, not renamed. */
  const UsersColumns: seq<string> := ["userId", "firstName", "lastName", "gender", "level"]
  const UsersAt: seq<nat> := [11, 1, 3, 2, 4]

  /** The `users` row of a record, field by field. */
  function UserRow(l: LogRecord): Row {
    [l.userId, l.firstName, l.lastName, l.gender, l.level]
  }

  lemma UsersPositions()
    ensures |UsersAt| == |UsersColumns|
    ensures forall j :: 0 <= j < |UsersColumns| ==> UsersAt[j] < |LogColumns| && LogColumns[UsersAt[j]] == UsersColumns[j]
  {
  }

  lemma PickUsers(l: LogRecord)
    ensures Pick(LogRow(l), UsersAt) == UserRow(l)
  {
  }

  /** Selecting the `users` columns from a frame with the log columns picks
      their positions. */
  lemma SelectUsers(f: Frame)
    requires f.columns == LogColumns && WellFormed(f)
    ensures Select(f, UsersColumns).Success?
    ensures Select(f, UsersColumns).value.columns == UsersColumns
    ensures |Select(f, UsersColumns).value.rows| == |f.rows|
    ensures forall i :: 0 <= i < |f.rows| ==> Select(f, UsersColumns).value.rows[i] == Pick(f.rows[i], UsersAt)
  {
    LogSchema();
    UsersPositions();
    SelectAt(f, UsersColumns, UsersAt);
  }

  /** The `users` rows picked from the plays are those of the plays. */
  lemma UsersRows(logs: seq<LogRecord>, projected: Frame)
    requires |projected.rows| == |Plays(logs).rows|
    requires forall i :: 0 <= i < |Plays(logs).rows| ==> projected.rows[i] == Pick(Plays(logs).rows[i], UsersAt)
    ensures forall row :: row in projected.rows <==> exists l :: l in logs && IsPlay(l) && row == UserRow(l)
  {
    forall row | row in projected.rows
      ensures exists l :: l in logs && IsPlay(l) && row == UserRow(l)
    {
      var i :| 0 <= i < |projected.rows| && projected.rows[i] == row;
      UserOfPlay(logs, Plays(logs).rows[i]);
    }
    forall l | l in logs && IsPlay(l)
      ensures UserRow(l) in projected.rows
    {
      PlayRow(logs, l);
      var i :| 0 <= i < |Plays(logs).rows| && Plays(logs).rows[i] == LogRow(l);
      PickUsers(l);
    }
  }

  /** The `users` row picked from a kept row is that of a play. */
  lemma UserOfPlay(logs: seq<LogRecord>, row: Row)
    requires row in Plays(logs).rows
    ensures exists l :: l in logs && IsPlay(l) && Pick(row, UsersAt) == UserRow(l)
  {
    var l :| l in logs && IsPlay(l) && row == LogRow(l);
    PickUsers(l);
  }

  /** `df.select(*users_cols).dropDuplicates()` on the plays: exactly the
      distinct `users` rows of the song plays, each once. */
  function UsersTable(logs: seq<LogRecord>): (r: Frame)
    ensures r.columns == UsersColumns && WellFormed(r)
    ensures NoDuplicates(r.rows)
    ensures forall row :: row in r.rows <==> exists l :: l in logs && IsPlay(l) && row == UserRow(l)
  {
    var plays := Plays(logs);
    SelectUsers(plays);
    var projected := Select(plays, UsersColumns).value;
    UsersRows(logs, projected);
    DropDuplicates(projected)
  }

  /** A user's row is in the `users` table when the user has a play. */
  lemma UserRowIn(logs: seq<LogRecord>, l: LogRecord)
    requires l in logs && IsPlay(l)
    ensures UserRow(l) in UsersTable(logs).rows
  {
  }

  /** A user seen on the free and on the paid level has two `users` rows that
      differ only in `level`. */
  lemma UserOnBothLevels(logs: seq<LogRecord>, a: LogRecord, b: LogRecord)
    requires a in logs && b in logs && IsPlay(a) && IsPlay(b)
    requires a.userId == b.userId && a.firstName == b.firstName && a.lastName == b.lastName && a.gender == b.gender
    requires a.level == Str("free") && b.level == Str("paid")
    ensures UserRow(a) in UsersTable(logs).rows && UserRow(b) in UsersTable(logs).rows
    ensures UserRow(a) != UserRow(b) && UserRow(a)[..4] == UserRow(b)[..4]
  {
    UserRowIn(logs, a);
    UserRowIn(logs, b);
    LevelsDiffer(a, b);
  }

  /** Rows of one person on two levels agree up to `level`. */
  lemma LevelsDiffer(a: LogRecord, b: LogRecord)
    requires a.userId == b.userId && a.firstName == b.firstName && a.lastName == b.lastName && a.gender == b.gender
    requires a.level != b.level
    ensures UserRow(a) != UserRow(b) && UserRow(a)[..4] == UserRow(b)[..4]
  {
    assert UserRow(a)[4] != UserRow(b)[4];
    assert UserRow(a)[..4] == [a.userId, a.firstName, a.lastName, a.gender];
  }
}

=== FILE: song_data.dfy ===
/** The song catalogue transform: from the song records, the `songs` table
    and the `artists` table, each a projection with exact duplicates
    removed. */
module SongData {

  import opened Values
  import opened Collections
  import opened Frames

  /** One song record, with the fields the transforms read. A missing field
      is `Null`. */
  datatype SongRecord = SongRecord(
    artistId: Value,
    artistLatitude: Value,
    artistLocation: Value,
    artistLongitude: Value,
    artistName: Value,
    duration: Value,
    songId: Value,
    title: Value,
    year: Value)

  /** The columns of the song frame: the fields the job reads, in the
      alphabetical order the JSON reader gives them. The reader infers the
      columns from the records, and the fields the job does not read are
      left out. */
  const SongColumns: seq<string> := ["artist_id", "artist_latitude", "artist_location", "artist_longitude",
                                     "artist_name", "duration", "song_id", "title", "year"]

  function SongRow(s: SongRecord): (r: Row)
    ensures |r| == |SongColumns|
  {
    [s.artistId, s.artistLatitude, s.artistLocation, s.artistLongitude,
     s.artistName, s.duration, s.songId, s.title, s.year]
  }

  /** Distinct records give distinct rows. */
  lemma SongRowInjective(a: SongRecord, b: SongRecord)
    requires SongRow(a) == SongRow(b)
    ensures a == b
  {
    assert SongRow(a)[0] == SongRow(b)[0] && SongRow(a)[1] == SongRow(b)[1] && SongRow(a)[2] == SongRow(b)[2];
    assert SongRow(a)[3] == SongRow(b)[3] && SongRow(a)[4] == SongRow(b)[4] && SongRow(a)[5] == SongRow(b)[5];
    assert SongRow(a)[6] == SongRow(b)[6] && SongRow(a)[7] == SongRow(b)[7] && SongRow(a)[8] == SongRow(b)[8];
  }

  /** The frame the JSON reader produces: one row per record. */
  function SongFrame(songs: seq<SongRecord>): (f: Frame)
    ensures f.columns == SongColumns && WellFormed(f) && |f.rows| == |songs|
    ensures forall i :: 0 <= i < |songs| ==> f.rows[i] == SongRow(songs[i])
  {
    Frame(SongColumns, seq(|songs|, i requires 0 <= i < |songs| => SongRow(songs[i])))
  }

  /** A record occurs in the frame as often as in the input. */
  lemma SongFrameCount(songs: seq<SongRecord>, s: SongRecord)
    ensures multiset(SongFrame(songs).rows)[SongRow(s)] == multiset(songs)[s]
  {
    var f := SongFrame(songs);
    forall i | 0 <= i < |songs|
      ensures f.rows[i] == SongRow(s) <==> songs[i] == s
    {
      if f.rows[i] == SongRow(s) {
        SongRowInjective(songs[i], s);
      }
    }
    CountCorrespondence(songs, f.rows, s, SongRow(s));
  }

  lemma SongSchema()
    ensures NoDuplicates(SongColumns)
  {
  }

  /** The columns of the `songs` table. */
  const SongsColumns: seq<string> := ["song_id", "title", "artist_id", "year", "duration"]
  const SongsAt: seq<nat> := [6, 7, 0, 8, 5]

  /** The `songs` row of a record, field by field. */
  function SongsRow(s: SongRecord): Row {
    [s.songId, s.title, s.artistId, s.year, s.duration]
  }

  lemma SongsPositions()
    ensures |SongsAt| == |SongsColumns|
    ensures forall j :: 0 <= j < |SongsColumns| ==> SongsAt[j] < |SongColumns| && SongColumns[SongsAt[j]] == SongsColumns[j]
  {
  }

  lemma PickSongs(s: SongRecord)
    ensures Pick(SongRow(s), SongsAt) == SongsRow(s)
  {
  }

  /** Selecting the `songs` columns from a frame with the song columns picks
      their positions. */
  lemma SelectSongs(f: Frame)
    requires f.columns == SongColumns && WellFormed(f)
    ensures Select(f, SongsColumns).Success?
    ensures Select(f, SongsColumns).value.columns == SongsColumns
    ensures |Select(f, SongsColumns).value.rows| == |f.rows|
    ensures forall i :: 0 <= i < |f.rows| ==> Select(f, SongsColumns).value.rows[i] == Pick(f.rows[i], SongsAt)
  {
    SongSchema();
    SongsPositions();
    SelectAt(f, SongsColumns, SongsAt);
  }

  /** Every projected row is the projection of the record at the same place. */
  lemma ProjectedRecords(songs: seq<SongRecord>, rows: seq<Row>, proj: SongRecord -> Row)
    requires |rows| == |songs|
    requires forall i :: 0 <= i < |songs| ==> rows[i] == proj(songs[i])
    ensures forall row :: row in rows <==> exists s :: s in songs && row == proj(s)
  {
    forall row | row in rows
      ensures exists s :: s in songs && row == proj(s)
    {
      var i :| 0 <= i < |rows| && rows[i] == row;
      assert songs[i] in songs;
    }
    forall s | s in songs
      ensures proj(s) in rows
    {
      var i :| 0 <= i < |songs| && songs[i] == s;
      assert rows[i] == proj(s);
    }
  }

  /** `df.select(*songs_cols).dropDuplicates()`: exactly the distinct `songs`
      rows of the records, each once. */
  function SongsTable(songs: seq<SongRecord>): (r: Frame)
    ensures r.columns == SongsColumns && WellFormed(r)
    ensures NoDuplicates(r.rows)
    ensures forall row :: row in r.rows <==> exists s :: s in songs && row == SongsRow(s)
  {
    var f := SongFrame(songs);
    SelectSongs(f);
    var projected := Select(f, SongsColumns).value;
    forall i | 0 <= i < |songs|
      ensures projected.rows[i] == SongsRow(songs[i])
    {
      PickSongs(songs[i]);
    }
    ProjectedRecords(songs, projected.rows, SongsRow);
    DropDuplicates(projected)
  }

  /** Removing duplicates from the `songs` table again changes nothing. */
  lemma SongsTableIdempotent(songs: seq<SongRecord>)
    ensures DropDuplicates(SongsTable(songs)) == SongsTable(songs)
  {
    DistinctOfNoDuplicates(SongsTable(songs).rows);
  }

  /** The columns of the `artists` table: the source names, not renamed. */
  const ArtistsColumns: seq<string> := ["artist_id", "artist_name", "artist_location", "artist_latitude", "artist_longitude"]
  const ArtistsAt: seq<nat> := [0, 4, 2, 1, 3]

  /** The `artists` row of a record, field by field. */
  function ArtistsRow(s: SongRecord): Row {
    [s.artistId, s.artistName, s.artistLocation, s.artistLatitude, s.artistLongitude]
  }

  lemma ArtistsPositions()
    ensures |ArtistsAt| == |ArtistsColumns|
    ensures forall j :: 0 <= j < |ArtistsColumns| ==> ArtistsAt[j] < |SongColumns| && SongColumns[ArtistsAt[j]] == ArtistsColumns[j]
  {
  }

  lemma PickArtists(s: SongRecord)
    ensures Pick(SongRow(s), ArtistsAt) == ArtistsRow(s)
  {
  }

  /** Selecting the `artists` columns from a frame with the song columns
      picks their positions. */
  lemma SelectArtists(f: Frame)
    requires f.columns == SongColumns && WellFormed(f)
    ensures Select(f, ArtistsColumns).Success?
    ensures Select(f, ArtistsColumns).value.columns == ArtistsColumns
    ensures |Select(f, ArtistsColumns).value.rows| == |f.rows|
    ensures forall i :: 0 <= i < |f.rows| ==> Select(f, ArtistsColumns).value.rows[i] == Pick(f.rows[i], ArtistsAt)
  {
    SongSchema();
    ArtistsPositions();
    SelectAt(f, ArtistsColumns, ArtistsAt);
  }

  /** `df.select(*artists_cols).dropDuplicates()`: exactly the distinct
      `artists` rows of the records, each once. */
  function ArtistsTable(songs: seq<SongRecord>): (r: Frame)
    ensures r.columns == ArtistsColumns && WellFormed(r)
    ensures NoDuplicates(r.rows)
    ensures forall row :: row in r.rows <==> exists s :: s in songs && row == ArtistsRow(s)
  {
    var f := SongFrame(songs);
    SelectArtists(f);
    var projected := Select(f, ArtistsColumns).value;
    forall i | 0 <= i < |songs|
      ensures projected.rows[i] == ArtistsRow(songs[i])
    {
      PickArtists(songs[i]);
    }
    ProjectedRecords(songs, projected.rows, ArtistsRow);
    DropDuplicates(projected)
  }

  /** An artist's row is in the `artists` table when one of its songs is in the input. */
  lemma ArtistRowIn(songs: seq<SongRecord>, s: SongRecord)
    requires s in songs
    ensures ArtistsRow(s) in ArtistsTable(songs).rows
  {
  }

  /** Duplicates are removed on the whole row, not on `artist_id`: two records
      of one artist with different locations give two rows with the same key. */
  lemma ArtistsKeepEveryLocation(songs: seq<SongRecord>, a: SongRecord, b: SongRecord)
    requires a in songs && b in songs
    requires a.artistId == b.artistId && a.artistLocation != b.artistLocation
    ensures ArtistsRow(a) in ArtistsTable(songs).rows && ArtistsRow(b) in ArtistsTable(songs).rows
    ensures ArtistsRow(a) != ArtistsRow(b) && ArtistsRow(a)[0] == ArtistsRow(b)[0]
  {
    ArtistRowIn(songs, a);
    ArtistRowIn(songs, b);
    LocationsDiffer(a, b);
  }

  /** Rows of one artist with two locations share the key and differ. */
  lemma LocationsDiffer(a: SongRecord, b: SongRecord)
    requires a.artistId == b.artistId && a.artistLocation != b.artistLocation
    ensures ArtistsRow(a) != ArtistsRow(b) && ArtistsRow(a)[0] == ArtistsRow(b)[0]
  {
    assert ArtistsRow(a)[2] != ArtistsRow(b)[2];
  }
}

=== FILE: songplays.dfy ===
/** The `songplays` table: the timed song plays joined with the song
    records on artist name and song title, projected onto nine columns and
    renamed. The pipeline as written selects a `month` column that no input
    has; the corrected pipeline computes it from the play's `datetime` before
    the join and keeps the generated `songplay` number. */
module Songplays {

  import opened Wrappers
  import opened Values
  import opened Collections
  import opened Calendar
  import opened Frames
  import opened Joins
  import opened Timestamps
  import opened LogData
  import opened SongData
  import opened TimeData

  /** `(df.artist == song_df.artist_name) & (df.song == song_df.title)`. */
  const JoinOn: seq<(string, string)> := [("artist", "artist_name"), ("song", "title")]

  /** `songplays_select_cols` and `songplays_cols`. */
  const SelectColumns: seq<string> :=
    ["timestamp", "userId", "level", "song_id", "sessionId", "location", "userAgent", "year", "month"]
  const SongplaysColumns: seq<string> :=
    ["start_time", "user_id", "level", "song_id", "session_id", "location", "user_agent", "year", "month"]

  /** The timed plays with `month` appended (the corrected pipeline). */
  const MonthedColumns: seq<string> := TimedColumns + ["month"]

  /** Where the selected names sit in the monthed plays joined with the songs. */
  const SongplaysAt: seq<nat> := [12, 11, 4, 21, 7, 5, 10, 23, 14]

  /** A play goes with a song when artist and title are equal and neither is
      null. */
  predicate Matches(l: LogRecord, s: SongRecord) {
    SqlEquals(l.artist, s.artistName) && SqlEquals(l.song, s.title)
  }

  // ---------------------------------------------------------------------
  // Where the names resolve. Each fact about a literal column list has a
  // lemma of its own; the lemmas that combine them are stated over any
  // column list with the facts.

  lemma TimedArtist()
    ensures Unique(TimedColumns, "artist") && IndexOf(TimedColumns, "artist") == 0
  {
    UniqueSplit(TimedColumns, "artist", 0);
  }

  lemma TimedSong()
    ensures Unique(TimedColumns, "song") && IndexOf(TimedColumns, "song") == 8
  {
    UniqueSplit(TimedColumns, "song", 8);
  }

  lemma TimedDatetime()
    ensures Unique(TimedColumns, "datetime") && IndexOf(TimedColumns, "datetime") == 13
  {
    UniqueSplit(TimedColumns, "datetime", 13);
  }

  lemma MonthFresh()
    ensures "month" !in TimedColumns
  {
  }

  lemma MonthedArtist()
    ensures Unique(MonthedColumns, "artist") && IndexOf(MonthedColumns, "artist") == 0
  {
    UniqueSplit(MonthedColumns, "artist", 0);
  }

  lemma MonthedSong()
    ensures Unique(MonthedColumns, "song") && IndexOf(MonthedColumns, "song") == 8
  {
    UniqueSplit(MonthedColumns, "song", 8);
  }

  lemma SongArtistName()
    ensures Unique(SongColumns, "artist_name") && IndexOf(SongColumns, "artist_name") == 4
  {
    UniqueSplit(SongColumns, "artist_name", 4);
  }

  lemma SongTitle()
    ensures Unique(SongColumns, "title") && IndexOf(SongColumns, "title") == 7
  {
    UniqueSplit(SongColumns, "title", 7);
  }

  /** The join keys resolve: `artist` at 0 and `song` at 8 on the left,
      `artist_name` at 4 and `title` at 7 on the right. */
  predicate JoinKeys(lcols: seq<string>, rcols: seq<string>) {
    && Unique(lcols, "artist") && IndexOf(lcols, "artist") == 0
    && Unique(lcols, "song") && IndexOf(lcols, "song") == 8
    && Unique(rcols, "artist_name") && IndexOf(rcols, "artist_name") == 4
    && Unique(rcols, "title") && IndexOf(rcols, "title") == 7
  }

  lemma TimedJoinKeys()
    ensures JoinKeys(TimedColumns, SongColumns)
  {
    TimedArtist();
    TimedSong();
    SongArtistName();
    SongTitle();
  }

  lemma MonthedJoinKeys()
    ensures JoinKeys(MonthedColumns, SongColumns)
  {
    MonthedArtist();
    MonthedSong();
    SongArtistName();
    SongTitle();
  }

  /** With the keys in place the join condition resolves. */
  lemma JoinOnResolvable(lcols: seq<string>, rcols: seq<string>)
    requires JoinKeys(lcols, rcols)
    ensures Resolvable(lcols, rcols, JoinOn)
  {
    assert JoinOn[0] == ("artist", "artist_name") && JoinOn[1] == ("song", "title");
  }

  /** With the keys in place the join condition compares artist with artist
      name and song with title. */
  lemma JoinOnKeys(lcols: seq<string>, rcols: seq<string>, a: Row, b: Row)
    requires JoinKeys(lcols, rcols) && |a| == |lcols| && |b| == |rcols|
    ensures Resolvable(lcols, rcols, JoinOn)
    ensures JoinMatch(lcols, rcols, a, b, JoinOn) <==> SqlEquals(a[0], b[4]) && SqlEquals(a[8], b[7])
  {
    JoinOnResolvable(lcols, rcols);
    assert JoinOn[0] == ("artist", "artist_name") && JoinOn[1] == ("song", "title");
  }

  // The selected names in the timed plays joined with the songs.

  lemma TimedSongTimestamp()
    ensures Unique(TimedColumns + SongColumns, "timestamp")
  {
    ResolvesLeft(TimedColumns, SongColumns, "timestamp", 12);
  }

  lemma TimedSongUserId()
    ensures Unique(TimedColumns + SongColumns, "userId")
  {
    ResolvesLeft(TimedColumns, SongColumns, "userId", 11);
  }

  lemma TimedSongLevel()
    ensures Unique(TimedColumns + SongColumns, "level")
  {
    ResolvesLeft(TimedColumns, SongColumns, "level", 4);
  }

  lemma TimedSongSongId()
    ensures Unique(TimedColumns + SongColumns, "song_id")
  {
    ResolvesRight(TimedColumns, SongColumns, "song_id", 6);
  }

  lemma TimedSongSessionId()
    ensures Unique(TimedColumns + SongColumns, "sessionId")
  {
    ResolvesLeft(TimedColumns, SongColumns, "sessionId", 7);
  }

  lemma TimedSongLocation()
    ensures Unique(TimedColumns + SongColumns, "location")
  {
    ResolvesLeft(TimedColumns, SongColumns, "location", 5);
  }

  lemma TimedSongUserAgent()
    ensures Unique(TimedColumns + SongColumns, "userAgent")
  {
    ResolvesLeft(TimedColumns, SongColumns, "userAgent", 10);
  }

  lemma TimedSongYear()
    ensures Unique(TimedColumns + SongColumns, "year")
  {
    ResolvesRight(TimedColumns, SongColumns, "year", 8);
  }

  lemma TimedSongNoMonth()
    ensures "month" !in TimedColumns + SongColumns
  {
  }

  /** The first eight selected names resolve. */
  predicate BeforeMonth(cols: seq<string>) {
    && Unique(cols, "timestamp") && Unique(cols, "userId") && Unique(cols, "level") && Unique(cols, "song_id")
    && Unique(cols, "sessionId") && Unique(cols, "location") && Unique(cols, "userAgent") && Unique(cols, "year")
  }

  lemma TimedSongBeforeMonth()
    ensures BeforeMonth(TimedColumns + SongColumns)
  {
    TimedSongTimestamp();
    TimedSongUserId();
    TimedSongLevel();
    TimedSongSongId();
    TimedSongSessionId();
    TimedSongLocation();
    TimedSongUserAgent();
    TimedSongYear();
  }

  /** With the first eight names resolving and no `month` column, the
      select fails on `month`. */
  lemma SelectWithoutMonth(f: Frame)
    requires WellFormed(f) && BeforeMonth(f.columns) && "month" !in f.columns
    ensures Select(f, SelectColumns) == Failure(MissingColumn("month"))
  {
    SelectMissing(f, SelectColumns, 8);
  }

  // The selected names in the monthed plays joined with the songs.

  lemma MonthedSongTimestamp()
    ensures Unique(MonthedColumns + SongColumns, "timestamp") && IndexOf(MonthedColumns + SongColumns, "timestamp") == 12
  {
    ResolvesLeft(MonthedColumns, SongColumns, "timestamp", 12);
  }

  lemma MonthedSongUserId()
    ensures Unique(MonthedColumns + SongColumns, "userId") && IndexOf(MonthedColumns + SongColumns, "userId") == 11
  {
    ResolvesLeft(MonthedColumns, SongColumns, "userId", 11);
  }

  lemma MonthedSongLevel()
    ensures Unique(MonthedColumns + SongColumns, "level") && IndexOf(MonthedColumns + SongColumns, "level") == 4
  {
    ResolvesLeft(MonthedColumns, SongColumns, "level", 4);
  }

  lemma MonthedSongSongId()
    ensures Unique(MonthedColumns + SongColumns, "song_id") && IndexOf(MonthedColumns + SongColumns, "song_id") == 21
  {
    ResolvesRight(MonthedColumns, SongColumns, "song_id", 6);
  }

  lemma MonthedSongSessionId()
    ensures Unique(MonthedColumns + SongColumns, "sessionId") && IndexOf(MonthedColumns + SongColumns, "sessionId") == 7
  {
    ResolvesLeft(MonthedColumns, SongColumns, "sessionId", 7);
  }

  lemma MonthedSongLocation()
    ensures Unique(MonthedColumns + SongColumns, "location") && IndexOf(MonthedColumns + SongColumns, "location") == 5
  {
    ResolvesLeft(MonthedColumns, SongColumns, "location", 5);
  }

  lemma MonthedSongUserAgent()
    ensures Unique(MonthedColumns + SongColumns, "userAgent") && IndexOf(MonthedColumns + SongColumns, "userAgent") == 10
  {
    ResolvesLeft(MonthedColumns, SongColumns, "userAgent", 10);
  }

  lemma MonthedSongYear()
    ensures Unique(MonthedColumns + SongColumns, "year") && IndexOf(MonthedColumns + SongColumns, "year") == 23
  {
    ResolvesRight(MonthedColumns, SongColumns, "year", 8);
  }

  lemma MonthedSongMonth()
    ensures Unique(MonthedColumns + SongColumns, "month") && IndexOf(MonthedColumns + SongColumns, "month") == 14
  {
    ResolvesLeft(MonthedColumns, SongColumns, "month", 14);
  }

  /** All nine selected names resolve, at the positions `SongplaysAt`. */
  predicate SelectedAt(cols: seq<string>) {
    && Unique(cols, "timestamp") && IndexOf(cols, "timestamp") == 12
    && Unique(cols, "userId") && IndexOf(cols, "userId") == 11
    && Unique(cols, "level") && IndexOf(cols, "level") == 4
    && Unique(cols, "song_id") && IndexOf(cols, "song_id") == 21
    && Unique(cols, "sessionId") && IndexOf(cols, "sessionId") == 7
    && Unique(cols, "location") && IndexOf(cols, "location") == 5
    && Unique(cols, "userAgent") && IndexOf(cols, "userAgent") == 10
    && Unique(cols, "year") && IndexOf(cols, "year") == 23
    && Unique(cols, "month") && IndexOf(cols, "month") == 14
  }

  lemma MonthedSongSelected()
    ensures SelectedAt(MonthedColumns + SongColumns)
  {
    MonthedSongTimestamp();
    MonthedSongUserId();
    MonthedSongLevel();
    MonthedSongSongId();
    MonthedSongSessionId();
    MonthedSongLocation();
    MonthedSongUserAgent();
    MonthedSongYear();
    MonthedSongMonth();
  }

  /** The columns of the join of the monthed plays with the songs. */
  lemma JoinedSelectedAt(cols: seq<string>)
    requires cols == MonthedColumns + SongColumns
    ensures SelectedAt(cols)
  {
    MonthedSongSelected();
  }

  /** With every selected name at its position the select picks those
      positions. */
  lemma SelectPicks(f: Frame)
    requires WellFormed(f) && SelectedAt(f.columns)
    ensures Select(f, SelectColumns).Success?
    ensures Select(f, SelectColumns).value.columns == SelectColumns
    ensures |Select(f, SelectColumns).value.rows| == |f.rows|
    ensures forall i :: 0 <= i < |f.rows| ==> Select(f, SelectColumns).value.rows[i] == Pick(f.rows[i], SongplaysAt)
  {
    SelectResolved(f, SelectColumns, SongplaysAt);
  }

  /** The selected names are distinct. */
  lemma SelectDistinct()
    ensures NoDuplicates(SelectColumns)
  {
  }

  /** No new name is the old name of a later column. */
  lemma NoCapture()
    ensures forall i, j :: 0 <= i < j < |SelectColumns| ==> SongplaysColumns[i] != SelectColumns[j]
  {
  }

  /** Renaming distinct columns pairwise, with no new name captured by a
      later old one. */
  lemma RenameAll(f: Frame, olds: seq<string>, news: seq<string>)
    requires f.columns == olds && |olds| == |news| && NoDuplicates(olds)
    requires forall i, j :: 0 <= i < j < |olds| ==> news[i] != olds[j]
    ensures RenamePairs(f, olds, news) == Frame(news, f.rows)
  {
    assert f.columns == [] + olds;
    RenamePairsColumns(f, [], olds, news);
    assert [] + news == news;
  }

  /** The loop over `zip(songplays_select_cols, songplays_cols)` renames the
      selected columns to the table's columns and leaves the rows alone. */
  lemma RenameStep(rows: seq<Row>)
    ensures RenamePairs(Frame(SelectColumns, rows), SelectColumns, SongplaysColumns) == Frame(SongplaysColumns, rows)
  {
    SelectDistinct();
    NoCapture();
    RenameAll(Frame(SelectColumns, rows), SelectColumns, SongplaysColumns);
  }

  /** A song row is the row of one of the song records. */
  lemma SongRowOf(songs: seq<SongRecord>, row: Row)
    requires row in SongFrame(songs).rows
    ensures exists s :: s in songs && row == SongRow(s)
  {
    var i :| 0 <= i < |songs| && SongFrame(songs).rows[i] == row;
    assert songs[i] in songs;
  }

  // ---------------------------------------------------------------------
  // The pipeline as written

  /** The timed plays joined with the songs have the timed columns followed
      by the song columns. */
  lemma AsWrittenJoin(timed: Frame, songs: seq<SongRecord>)
    requires timed.columns == TimedColumns && WellFormed(timed)
    ensures InnerJoin(timed, SongFrame(songs), JoinOn).Success?
    ensures InnerJoin(timed, SongFrame(songs), JoinOn).value.columns == TimedColumns + SongColumns
  {
    TimedJoinKeys();
    JoinOnResolvable(TimedColumns, SongColumns);
  }

  /** `df_join.select(songplays_select_cols)` on the joined frame as written
      fails: no column is called `month`. */
  lemma AsWrittenSelect(joined: Frame)
    requires joined.columns == TimedColumns + SongColumns && WellFormed(joined)
    ensures Select(joined, SelectColumns) == Failure(MissingColumn("month"))
  {
    TimedSongBeforeMonth();
    TimedSongNoMonth();
    SelectWithoutMonth(joined);
  }

  /** `songplays_table.withColumn('songplay', ...)` as written: the new frame
      is computed and dropped, and the table stays as it was. */
  function IdAsWritten(table: Frame): (r: Frame)
    requires WellFormed(table)
  {
    var numbered := WithRowNumber(table, "songplay");
    table
  }

  /** The statement leaves no `songplay` column, although the frame it
      computes has one. */
  lemma IdAsWrittenDropped(table: Frame)
    requires WellFormed(table) && table.columns == SongplaysColumns
    ensures "songplay" !in IdAsWritten(table).columns
    ensures "songplay" in WithRowNumber(table, "songplay").columns
  {
  }

  /** The `songplays` statements as written on a frame of timed plays:
      join, select, rename, number. */
  function SongplaysStatements(timed: Frame, songs: seq<SongRecord>): Outcome<Frame>
    requires WellFormed(timed)
  {
    var joined :- InnerJoin(timed, SongFrame(songs), JoinOn);
    var picked :- Select(joined, SelectColumns);
    var renamed := RenamePairs(picked, SelectColumns, SongplaysColumns);
    Success(IdAsWritten(renamed))
  }

  /** On every frame with the timed columns, rows or none, the statements
      as written stop at the select, which finds no `month`. */
  lemma AsWrittenFails(timed: Frame, songs: seq<SongRecord>)
    requires timed.columns == TimedColumns && WellFormed(timed)
    ensures SongplaysStatements(timed, songs) == Failure(MissingColumn("month"))
  {
    AsWrittenJoin(timed, songs);
    AsWrittenSelect(InnerJoin(timed, SongFrame(songs), JoinOn).value);
  }

  /** The `songplays` statements as written. Spark resolves the join and the
      select when it builds them, from the columns alone and before the
      functions of lines 94-98 run on any row; the timed frame always has the
      timed columns (a frame with those columns and no rows stands for it),
      so the select stops the statements whatever values the records hold. */
  function SongplaysAsWritten(logs: seq<LogRecord>, songs: seq<SongRecord>): (r: Outcome<Frame>)
    ensures r == Failure(MissingColumn("month"))
  {
    AsWrittenFails(Frame(TimedColumns, []), songs);
    SongplaysStatements(Frame(TimedColumns, []), songs)
  }

  // ---------------------------------------------------------------------
  // The corrected pipeline

  /** The month of a play's moment. */
  function PlayMonth(l: LogRecord): Value
    requires Timeable(l)
  {
    Int(UtcDateTime(Seconds(l.ts).value).date.month)
  }

  /** A play's timed row with its month. */
  function MonthedRow(l: LogRecord): (r: Row)
    requires Timeable(l)
    ensures |r| == |MonthedColumns|
  {
    TimedRow(l) + [PlayMonth(l)]
  }

  /** `withColumn('month', month('datetime'))` on the timed plays. */
  lemma MonthStep(timed: Frame)
    requires timed.columns == TimedColumns && WellFormed(timed)
    ensures WithComputed(timed, "month", "datetime", Timestamps.MonthOf).Success?
    ensures WithComputed(timed, "month", "datetime", Timestamps.MonthOf).value.columns == MonthedColumns
    ensures |WithComputed(timed, "month", "datetime", Timestamps.MonthOf).value.rows| == |timed.rows|
    ensures forall i :: 0 <= i < |timed.rows| ==>
      WithComputed(timed, "month", "datetime", Timestamps.MonthOf).value.rows[i] == timed.rows[i] + [Timestamps.MonthOf(timed.rows[i][13])]
  {
    TimedDatetime();
    MonthFresh();
    WithComputedAppends(timed, "month", "datetime", Timestamps.MonthOf);
  }

  /** On a play's timed row the month function gives the play's month. */
  lemma MonthOfPlay(l: LogRecord)
    requires Timeable(l)
    ensures TimedRow(l) + [Timestamps.MonthOf(TimedRow(l)[13])] == MonthedRow(l)
  {
    var secs := Seconds(l.ts).value;
    assert TimedRow(l)[13] == DateText(secs);
    DateTimeOfFormatted(UtcDateTime(secs));
  }

  /** Row `i` after the month step is the monthed row of row `i`'s play. */
  lemma MonthedAt(timed: Frame, rows: seq<Row>, l: LogRecord, i: int)
    requires WellFormed(timed) && |timed.columns| == 14 && |rows| == |timed.rows| && 0 <= i < |rows|
    requires rows[i] == timed.rows[i] + [Timestamps.MonthOf(timed.rows[i][13])]
    requires Timeable(l)
    ensures rows[i] == MonthedRow(l) <==> timed.rows[i] == TimedRow(l)
  {
    MonthOfPlay(l);
    ConcatSplit(timed.rows[i], [Timestamps.MonthOf(timed.rows[i][13])], TimedRow(l), [Timestamps.MonthOf(TimedRow(l)[13])]);
  }

  /** The month step keeps the plays and their counts. */
  lemma MonthedContents(logs: seq<LogRecord>, timed: Frame, rows: seq<Row>)
    requires WellFormed(timed) && |timed.columns| == 14 && |rows| == |timed.rows|
    requires forall i :: 0 <= i < |timed.rows| ==> rows[i] == timed.rows[i] + [Timestamps.MonthOf(timed.rows[i][13])]
    requires forall row :: row in timed.rows ==> exists l :: l in logs && IsPlay(l) && Timeable(l) && row == TimedRow(l)
    requires forall l :: Timeable(l) ==> multiset(timed.rows)[TimedRow(l)] == if IsPlay(l) then multiset(logs)[l] else 0
    ensures forall row :: row in rows ==> exists l :: l in logs && IsPlay(l) && Timeable(l) && row == MonthedRow(l)
    ensures forall l :: Timeable(l) ==> multiset(rows)[MonthedRow(l)] == if IsPlay(l) then multiset(logs)[l] else 0
  {
    forall row | row in rows
      ensures exists l :: l in logs && IsPlay(l) && Timeable(l) && row == MonthedRow(l)
    {
      var i :| 0 <= i < |rows| && rows[i] == row;
      assert timed.rows[i] in timed.rows;
      var l :| l in logs && IsPlay(l) && Timeable(l) && timed.rows[i] == TimedRow(l);
      MonthedAt(timed, rows, l, i);
    }
    forall l | Timeable(l)
      ensures multiset(rows)[MonthedRow(l)] == if IsPlay(l) then multiset(logs)[l] else 0
    {
      forall i | 0 <= i < |rows|
        ensures rows[i] == MonthedRow(l) <==> timed.rows[i] == TimedRow(l)
      {
        MonthedAt(timed, rows, l, i);
      }
      CountCorrespondence(timed.rows, rows, TimedRow(l), MonthedRow(l));
    }
  }

  /** The timed plays with the month of each play appended. */
  function Monthed(logs: seq<LogRecord>): (r: Outcome<Frame>)
    ensures r.Success? <==> forall l :: l in logs && IsPlay(l) ==> Timeable(l)
    ensures r.Failure? ==> Timed(logs).Failure? && r.error == Timed(logs).error
    ensures r.Success? ==> r.value.columns == MonthedColumns && WellFormed(r.value)
    ensures r.Success? ==> forall row :: row in r.value.rows ==>
      exists l :: l in logs && IsPlay(l) && Timeable(l) && row == MonthedRow(l)
    ensures r.Success? ==> forall l :: Timeable(l) ==>
      multiset(r.value.rows)[MonthedRow(l)] == if IsPlay(l) then multiset(logs)[l] else 0
  {
    var timed :- Timed(logs);
    MonthStep(timed);
    var monthed := WithComputed(timed, "month", "datetime", Timestamps.MonthOf).value;
    MonthedContents(logs, timed, monthed.rows);
    Success(monthed)
  }

  /** `withColumn` has joined the monthed plays with the songs: the join
      condition resolves and the columns are the monthed columns followed by
      the song columns. */
  lemma CorrectedJoin(monthed: Frame, songs: seq<SongRecord>)
    requires monthed.columns == MonthedColumns && WellFormed(monthed)
    ensures InnerJoin(monthed, SongFrame(songs), JoinOn).Success?
    ensures InnerJoin(monthed, SongFrame(songs), JoinOn).value.columns == MonthedColumns + SongColumns
  {
    MonthedJoinKeys();
    JoinOnResolvable(MonthedColumns, SongColumns);
  }

  /** On a play's row and a song's row the join condition is `Matches`. */
  lemma MatchesAt(lcols: seq<string>, rcols: seq<string>, l: LogRecord, s: SongRecord)
    requires JoinKeys(lcols, rcols) && |lcols| == |MonthedColumns| && |rcols| == |SongColumns|
    requires Timeable(l)
    ensures Resolvable(lcols, rcols, JoinOn)
    ensures JoinMatch(lcols, rcols, MonthedRow(l), SongRow(s), JoinOn) <==> Matches(l, s)
  {
    JoinOnKeys(lcols, rcols, MonthedRow(l), SongRow(s));
    assert MonthedRow(l)[0] == l.artist && MonthedRow(l)[8] == l.song;
  }

  /** `x` is a play's row followed by a song's row, for a play of the log
      and a song of the input that match. */
  ghost predicate FromMatch(logs: seq<LogRecord>, songs: seq<SongRecord>, x: Row) {
    exists l, s :: MatchingPair(logs, songs, l, s) && x == MonthedRow(l) + SongRow(s)
  }

  /** `l` is a play of the log with a usable `ts` and `s` a song of the input
      that it matches. */
  ghost predicate MatchingPair(logs: seq<LogRecord>, songs: seq<SongRecord>, l: LogRecord, s: SongRecord) {
    l in logs && IsPlay(l) && Timeable(l) && s in songs && Matches(l, s)
  }

  /** The join keys on the columns of the monthed plays and the songs. */
  lemma MonthedSongKeys(lcols: seq<string>, rcols: seq<string>)
    requires lcols == MonthedColumns && rcols == SongColumns
    ensures JoinKeys(lcols, rcols) && Resolvable(lcols, rcols, JoinOn)
  {
    MonthedJoinKeys();
    JoinOnResolvable(lcols, rcols);
  }

  /** A row of the join is a matching play's row followed by its song's row. */
  lemma JoinedSound(logs: seq<LogRecord>, songs: seq<SongRecord>, monthed: Frame, lcols: seq<string>, rcols: seq<string>, x: Row)
    requires JoinKeys(lcols, rcols) && Resolvable(lcols, rcols, JoinOn)
    requires |lcols| == |MonthedColumns| && |rcols| == |SongColumns|
    requires forall row :: row in monthed.rows ==> exists l :: l in logs && IsPlay(l) && Timeable(l) && row == MonthedRow(l)
    requires |x| == |lcols| + |rcols|
    requires x[..|lcols|] in monthed.rows && x[|lcols|..] in SongFrame(songs).rows
    requires JoinMatch(lcols, rcols, x[..|lcols|], x[|lcols|..], JoinOn)
    ensures FromMatch(logs, songs, x)
  {
    var w := |lcols|;
    var l :| l in logs && IsPlay(l) && Timeable(l) && x[..w] == MonthedRow(l);
    SongRowOf(songs, x[w..]);
    var s :| s in songs && x[w..] == SongRow(s);
    MatchesAt(lcols, rcols, l, s);
    SplitAt(x, w);
    assert MatchingPair(logs, songs, l, s) && x == MonthedRow(l) + SongRow(s);
  }

  /** A play and a song occur together in the join once for each copy of the
      play and each copy of the song, provided they match. */
  lemma JoinedCount(logs: seq<LogRecord>, songs: seq<SongRecord>, monthed: Frame, lcols: seq<string>, rcols: seq<string>,
                    joined: Frame, l: LogRecord, s: SongRecord)
    requires JoinKeys(lcols, rcols) && Resolvable(lcols, rcols, JoinOn)
    requires |lcols| == |MonthedColumns| && |rcols| == |SongColumns|
    requires forall l :: Timeable(l) ==> multiset(monthed.rows)[MonthedRow(l)] == if IsPlay(l) then multiset(logs)[l] else 0
    requires forall a: Row, b: Row | |a| == |lcols| && |b| == |rcols| ::
      multiset(joined.rows)[a + b] ==
      if JoinMatch(lcols, rcols, a, b, JoinOn)
      then multiset(monthed.rows)[a] * multiset(SongFrame(songs).rows)[b] else 0
    requires Timeable(l)
    ensures PairCount(logs, songs, joined.rows, l, s)
  {
    MatchesAt(lcols, rcols, l, s);
    SongFrameCount(songs, s);
    assert |MonthedRow(l)| == |lcols| && |SongRow(s)| == |rcols|;
  }

  /** Every row of the join is a matching play followed by its song. */
  lemma JoinedRows(logs: seq<LogRecord>, songs: seq<SongRecord>, monthed: Frame, lcols: seq<string>, rcols: seq<string>, joined: Frame)
    requires JoinKeys(lcols, rcols) && Resolvable(lcols, rcols, JoinOn)
    requires |lcols| == |MonthedColumns| && |rcols| == |SongColumns|
    requires forall row :: row in monthed.rows ==> exists l :: l in logs && IsPlay(l) && Timeable(l) && row == MonthedRow(l)
    requires forall x :: x in joined.rows ==>
      && |x| == |lcols| + |rcols|
      && x[..|lcols|] in monthed.rows && x[|lcols|..] in SongFrame(songs).rows
      && JoinMatch(lcols, rcols, x[..|lcols|], x[|lcols|..], JoinOn)
    ensures forall x :: x in joined.rows ==> FromMatch(logs, songs, x)
  {
    forall x | x in joined.rows
      ensures FromMatch(logs, songs, x)
    {
      JoinedSound(logs, songs, monthed, lcols, rcols, x);
    }
  }

  /** A play and a song occur together in `rows` once for each copy of the
      play and each copy of the song when they match, and never otherwise. */
  ghost predicate PairCount(logs: seq<LogRecord>, songs: seq<SongRecord>, rows: seq<Row>, l: LogRecord, s: SongRecord)
    requires Timeable(l)
  {
    multiset(rows)[MonthedRow(l) + SongRow(s)] ==
    if IsPlay(l) && Matches(l, s) then multiset(logs)[l] as int * multiset(songs)[s] else 0
  }

  /** `PairCount` for every play and song. */
  ghost predicate PairCounts(logs: seq<LogRecord>, songs: seq<SongRecord>, rows: seq<Row>) {
    forall l, s :: Timeable(l) ==> PairCount(logs, songs, rows, l, s)
  }

  /** The join's count of every play and song. */
  lemma JoinedCounts(logs: seq<LogRecord>, songs: seq<SongRecord>, monthed: Frame, lcols: seq<string>, rcols: seq<string>, joined: Frame)
    requires JoinKeys(lcols, rcols) && Resolvable(lcols, rcols, JoinOn)
    requires |lcols| == |MonthedColumns| && |rcols| == |SongColumns|
    requires forall l :: Timeable(l) ==> multiset(monthed.rows)[MonthedRow(l)] == if IsPlay(l) then multiset(logs)[l] else 0
    requires forall a: Row, b: Row | |a| == |lcols| && |b| == |rcols| ::
      multiset(joined.rows)[a + b] ==
      if JoinMatch(lcols, rcols, a, b, JoinOn)
      then multiset(monthed.rows)[a] * multiset(SongFrame(songs).rows)[b] else 0
    ensures PairCounts(logs, songs, joined.rows)
  {
    forall l, s | Timeable(l) {
      JoinedCount(logs, songs, monthed, lcols, rcols, joined, l, s);
    }
  }

  /** `df.join(song_df, ...)` on the monthed plays: every row is a matching
      play followed by its song, and each matching pair occurs as often as
      the play times the song. */
  function Joined(logs: seq<LogRecord>, songs: seq<SongRecord>): (r: Outcome<Frame>)
    ensures r.Success? <==> forall l :: l in logs && IsPlay(l) ==> Timeable(l)
    ensures r.Failure? ==> Timed(logs) == Failure(r.error)
    ensures r.Success? ==> r.value.columns == MonthedColumns + SongColumns && WellFormed(r.value)
    ensures r.Success? ==> forall x :: x in r.value.rows ==> FromMatch(logs, songs, x)
    ensures r.Success? ==> PairCounts(logs, songs, r.value.rows)
  {
    var monthed :- Monthed(logs);
    JoinMonthed(logs, songs, monthed);
    Success(InnerJoin(monthed, SongFrame(songs), JoinOn).value)
  }

  /** The join of monthed plays with the songs. */
  lemma JoinMonthed(logs: seq<LogRecord>, songs: seq<SongRecord>, monthed: Frame)
    requires monthed.columns == MonthedColumns && WellFormed(monthed)
    requires forall row :: row in monthed.rows ==> exists l :: l in logs && IsPlay(l) && Timeable(l) && row == MonthedRow(l)
    requires forall l :: Timeable(l) ==> multiset(monthed.rows)[MonthedRow(l)] == if IsPlay(l) then multiset(logs)[l] else 0
    ensures InnerJoin(monthed, SongFrame(songs), JoinOn).Success?
    ensures InnerJoin(monthed, SongFrame(songs), JoinOn).value.columns == MonthedColumns + SongColumns
    ensures WellFormed(InnerJoin(monthed, SongFrame(songs), JoinOn).value)
    ensures forall x :: x in InnerJoin(monthed, SongFrame(songs), JoinOn).value.rows ==> FromMatch(logs, songs, x)
    ensures PairCounts(logs, songs, InnerJoin(monthed, SongFrame(songs), JoinOn).value.rows)
  {
    CorrectedJoin(monthed, songs);
    var joined := InnerJoin(monthed, SongFrame(songs), JoinOn).value;
    MonthedSongKeys(monthed.columns, SongFrame(songs).columns);
    JoinedRows(logs, songs, monthed, monthed.columns, SongFrame(songs).columns, joined);
    JoinedCounts(logs, songs, monthed, monthed.columns, SongFrame(songs).columns, joined);
  }

  /** The `songplays` row of a play and its song, before numbering:
      `start_time`, `user_id`, `level`, `song_id`, `session_id`, `location`,
      `user_agent`, `year`, `month`. */
  function SongplayRow(l: LogRecord, s: SongRecord): (r: Row)
    requires Timeable(l)
    ensures |r| == |SongplaysColumns|
  {
    [StampText(Seconds(l.ts).value), l.userId, l.level, s.songId, l.sessionId,
     l.location, l.userAgent, s.year, PlayMonth(l)]
  }

  /** Picking the selected positions from a joined row gives the songplay row. */
  lemma PickSongplay(l: LogRecord, s: SongRecord)
    requires Timeable(l)
    ensures Pick(MonthedRow(l) + SongRow(s), SongplaysAt) == SongplayRow(l, s)
  {
    var x := MonthedRow(l) + SongRow(s);
    var p := Pick(x, SongplaysAt);
    var secs := Seconds(l.ts).value;
    assert x[12] == StampText(secs) && x[14] == PlayMonth(l);
    assert x[21] == s.songId && x[23] == s.year;
    assert p[0] == x[12] && p[1] == x[11] && p[2] == x[4] && p[3] == x[21] && p[4] == x[7];
    assert p[5] == x[5] && p[6] == x[10] && p[7] == x[23] && p[8] == x[14];
  }

  /** `row` starts with the songplay row of a matching pair. */
  ghost predicate SongplayOf(logs: seq<LogRecord>, songs: seq<SongRecord>, row: Row) {
    |row| >= 9 && exists l, s :: MatchingPair(logs, songs, l, s) && row[..9] == SongplayRow(l, s)
  }

  /** Some row of `rows` starts with the songplay row of `l` and `s`. */
  ghost predicate Covered(rows: seq<Row>, l: LogRecord, s: SongRecord)
    requires Timeable(l)
  {
    exists i :: 0 <= i < |rows| && |rows[i]| >= 9 && rows[i][..9] == SongplayRow(l, s)
  }

  /** The rows carry pairwise different values in their tenth column. */
  ghost predicate DistinctIds(rows: seq<Row>) {
    forall i, k :: 0 <= i < k < |rows| ==> |rows[i]| > 9 && |rows[k]| > 9 && rows[i][9] != rows[k][9]
  }

  /** The picked rows are the songplay rows of the matching pairs, and every
      matching pair has one. */
  lemma PickedRows(logs: seq<LogRecord>, songs: seq<SongRecord>, joined: Frame, rows: seq<Row>)
    requires forall x :: x in joined.rows ==> FromMatch(logs, songs, x)
    requires PairCounts(logs, songs, joined.rows)
    requires |rows| == |joined.rows|
    requires forall i :: 0 <= i < |joined.rows| ==> rows[i] == Pick(joined.rows[i], SongplaysAt)
    ensures forall row :: row in rows ==> exists l, s :: MatchingPair(logs, songs, l, s) && row == SongplayRow(l, s)
    ensures forall l, s :: MatchingPair(logs, songs, l, s) ==> SongplayRow(l, s) in rows
  {
    forall row | row in rows
      ensures exists l, s :: MatchingPair(logs, songs, l, s) && row == SongplayRow(l, s)
    {
      var i :| 0 <= i < |rows| && rows[i] == row;
      assert FromMatch(logs, songs, joined.rows[i]);
      var l, s :| MatchingPair(logs, songs, l, s) && joined.rows[i] == MonthedRow(l) + SongRow(s);
      PickSongplay(l, s);
    }
    forall l, s | MatchingPair(logs, songs, l, s)
      ensures SongplayRow(l, s) in rows
    {
      var x := MonthedRow(l) + SongRow(s);
      assert PairCount(logs, songs, joined.rows, l, s);
      ProductPositive(multiset(logs)[l], multiset(songs)[s]);
      assert x in joined.rows;
      var i :| 0 <= i < |joined.rows| && joined.rows[i] == x;
      PickSongplay(l, s);
      assert rows[i] == SongplayRow(l, s);
    }
  }

  /** Numbering keeps each row's first nine values. */
  lemma NumberedRows(logs: seq<LogRecord>, songs: seq<SongRecord>, rows: seq<Row>, numbered: seq<Row>)
    requires |numbered| == |rows|
    requires forall i :: 0 <= i < |rows| ==> |numbered[i]| >= 9 && numbered[i][..9] == rows[i]
    requires forall row :: row in rows ==> exists l, s :: MatchingPair(logs, songs, l, s) && row == SongplayRow(l, s)
    requires forall l, s :: MatchingPair(logs, songs, l, s) ==> SongplayRow(l, s) in rows
    ensures forall row :: row in numbered ==> SongplayOf(logs, songs, row)
    ensures forall l, s :: MatchingPair(logs, songs, l, s) ==> Covered(numbered, l, s)
  {
    forall row | row in numbered
      ensures SongplayOf(logs, songs, row)
    {
      var i :| 0 <= i < |numbered| && numbered[i] == row;
      assert rows[i] in rows;
    }
    forall l, s | MatchingPair(logs, songs, l, s)
      ensures Covered(numbered, l, s)
    {
      var i :| 0 <= i < |rows| && rows[i] == SongplayRow(l, s);
      assert |numbered[i]| >= 9 && numbered[i][..9] == SongplayRow(l, s);
    }
  }

  /** Numbered rows of ten values have distinct tenth values. */
  lemma NumberedIds(f: Frame, numbered: Frame)
    requires WellFormed(f) && |f.columns| == 9
    requires numbered.columns == f.columns + ["songplay"] && WellFormed(numbered) && |numbered.rows| == |f.rows|
    requires forall i :: 0 <= i < |f.rows| ==> numbered.rows[i][|f.columns|].Int?
    requires forall i, j :: 0 <= i < j < |f.rows| ==> numbered.rows[i][|f.columns|].i < numbered.rows[j][|f.columns|].i
    ensures DistinctIds(numbered.rows)
  {
  }

  /** Numbering the renamed rows keeps the songplay rows and gives distinct
      numbers. */
  lemma NumberStep(logs: seq<LogRecord>, songs: seq<SongRecord>, rows: seq<Row>)
    requires WellFormed(Frame(SongplaysColumns, rows))
    requires forall row :: row in rows ==> exists l, s :: MatchingPair(logs, songs, l, s) && row == SongplayRow(l, s)
    requires forall l, s :: MatchingPair(logs, songs, l, s) ==> SongplayRow(l, s) in rows
    ensures IsSongplays(logs, songs, WithRowNumber(Frame(SongplaysColumns, rows), "songplay"))
  {
    var f := Frame(SongplaysColumns, rows);
    var numbered := WithRowNumber(f, "songplay");
    NumberedRows(logs, songs, rows, numbered.rows);
    NumberedIds(f, numbered);
  }

  /** The picked rows, renamed and numbered, form a songplays table. */
  lemma PickedSongplays(logs: seq<LogRecord>, songs: seq<SongRecord>, joined: Frame, rows: seq<Row>)
    requires forall x :: x in joined.rows ==> FromMatch(logs, songs, x)
    requires PairCounts(logs, songs, joined.rows)
    requires |rows| == |joined.rows| && WellFormed(Frame(SelectColumns, rows))
    requires forall i :: 0 <= i < |joined.rows| ==> rows[i] == Pick(joined.rows[i], SongplaysAt)
    ensures RenamePairs(Frame(SelectColumns, rows), SelectColumns, SongplaysColumns) == Frame(SongplaysColumns, rows)
    ensures WellFormed(Frame(SongplaysColumns, rows))
    ensures IsSongplays(logs, songs, WithRowNumber(RenamePairs(Frame(SelectColumns, rows), SelectColumns, SongplaysColumns), "songplay"))
  {
    RenameStep(rows);
    PickedRows(logs, songs, joined, rows);
    NumberStep(logs, songs, rows);
  }

  /** Numbering nine-column rows picked from a join keeps one row per
      joined row. */
  lemma NumberedPerJoined(joined: Frame, f: Frame)
    requires WellFormed(f) && |f.columns| == 9 && |f.rows| == |joined.rows|
    requires forall i :: 0 <= i < |joined.rows| ==> f.rows[i] == Pick(joined.rows[i], SongplaysAt)
    ensures RowPerJoined(joined, WithRowNumber(f, "songplay"))
  {
  }

  /** Selecting, renaming and numbering the joined frame. */
  function SongplaysOf(logs: seq<LogRecord>, songs: seq<SongRecord>, joined: Frame): (r: Frame)
    requires joined.columns == MonthedColumns + SongColumns && WellFormed(joined)
    requires forall x :: x in joined.rows ==> FromMatch(logs, songs, x)
    requires PairCounts(logs, songs, joined.rows)
    ensures IsSongplays(logs, songs, r)
  {
    JoinedSelectedAt(joined.columns);
    SelectPicks(joined);
    var picked := Select(joined, SelectColumns).value;
    PickedSongplays(logs, songs, joined, picked.rows);
    WithRowNumber(RenamePairs(picked, SelectColumns, SongplaysColumns), "songplay")
  }

  /** The table selected, renamed and numbered from a join has one row for
      each joined row, in the join's order, starting with that row's nine
      selected values. */
  lemma SongplaysOfRows(logs: seq<LogRecord>, songs: seq<SongRecord>, joined: Frame)
    requires joined.columns == MonthedColumns + SongColumns && WellFormed(joined)
    requires forall x :: x in joined.rows ==> FromMatch(logs, songs, x)
    requires PairCounts(logs, songs, joined.rows)
    ensures RowPerJoined(joined, SongplaysOf(logs, songs, joined))
  {
    JoinedSelectedAt(joined.columns);
    SelectPicks(joined);
    var picked := Select(joined, SelectColumns).value;
    NumberedPerJoined(joined, RenamePairs(picked, SelectColumns, SongplaysColumns));
  }

  /** `f` is a songplays table of the log and the songs: the nine songplay
      columns and `songplay`, every row starting with the songplay row of a
      matching pair, every matching pair with a row, and distinct numbers. */
  ghost predicate IsSongplays(logs: seq<LogRecord>, songs: seq<SongRecord>, f: Frame) {
    && f.columns == SongplaysColumns + ["songplay"] && WellFormed(f)
    && (forall row :: row in f.rows ==> SongplayOf(logs, songs, row))
    && (forall l, s :: MatchingPair(logs, songs, l, s) ==> Covered(f.rows, l, s))
    && DistinctIds(f.rows)
  }

  /** `f` has one row for each row of `joined`, in the same order, and each
      starts with the nine selected values of its joined row. */
  ghost predicate RowPerJoined(joined: Frame, f: Frame) {
    && |f.rows| == |joined.rows|
    && forall i :: 0 <= i < |joined.rows| ==>
         |f.rows[i]| >= 9 && f.rows[i][..9] == Pick(joined.rows[i], SongplaysAt)
  }

  /** The `songplays` table, corrected: the monthed plays joined with the
      songs, the nine columns selected and renamed, and a `songplay` number
      appended. It fails exactly when the time table fails, and then with
      the same error. */
  function Songplays(logs: seq<LogRecord>, songs: seq<SongRecord>): (r: Outcome<Frame>)
    ensures r.Success? <==> forall l :: l in logs && IsPlay(l) ==> Timeable(l)
    ensures r.Failure? ==> Timed(logs) == Failure(r.error)
    ensures r.Success? ==> IsSongplays(logs, songs, r.value)
  {
    var joined :- Joined(logs, songs);
    Success(SongplaysOf(logs, songs, joined))
  }

  /** The `songplays` table has one row for each row of the join, in the
      join's order, starting with that row's nine selected values. */
  lemma SongplaysRows(logs: seq<LogRecord>, songs: seq<SongRecord>)
    requires Songplays(logs, songs).Success?
    ensures Joined(logs, songs).Success?
    ensures RowPerJoined(Joined(logs, songs).value, Songplays(logs, songs).value)
  {
    SongplaysOfRows(logs, songs, Joined(logs, songs).value);
  }

  // ---------------------------------------------------------------------
  // Consequences

  /** A play and a song that do not match give no row of the join. */
  lemma UnmatchedNoRow(logs: seq<LogRecord>, songs: seq<SongRecord>, l: LogRecord, s: SongRecord)
    requires Joined(logs, songs).Success? && Timeable(l) && !Matches(l, s)
    ensures MonthedRow(l) + SongRow(s) !in Joined(logs, songs).value.rows
  {
    assert PairCount(logs, songs, Joined(logs, songs).value.rows, l, s);
  }

  /** A record whose page is not `NextSong` gives no row of the join. */
  lemma NonPlayNoRow(logs: seq<LogRecord>, songs: seq<SongRecord>, l: LogRecord, s: SongRecord)
    requires Joined(logs, songs).Success? && Timeable(l) && !IsPlay(l)
    ensures MonthedRow(l) + SongRow(s) !in Joined(logs, songs).value.rows
  {
    assert PairCount(logs, songs, Joined(logs, songs).value.rows, l, s);
  }

  /** A play matching a song occurs with it in the join once for each copy
      of the play and each copy of the song: a play that occurs once and
      matches k songs gives k rows. */
  lemma MatchedRows(logs: seq<LogRecord>, songs: seq<SongRecord>, l: LogRecord, s: SongRecord)
    requires Joined(logs, songs).Success? && Timeable(l) && IsPlay(l) && Matches(l, s)
    ensures multiset(Joined(logs, songs).value.rows)[MonthedRow(l) + SongRow(s)] ==
            multiset(logs)[l] as int * multiset(songs)[s]
  {
    assert PairCount(logs, songs, Joined(logs, songs).value.rows, l, s);
  }

  /** The first nine values of each row. */
  function Heads(rows: seq<Row>): (r: seq<Row>)
    ensures |r| == |rows|
    ensures forall i :: 0 <= i < |rows| && |rows[i]| >= 9 ==> r[i] == rows[i][..9]
  {
    seq(|rows|, i requires 0 <= i < |rows| => if |rows[i]| >= 9 then rows[i][..9] else rows[i])
  }

  /** The `songplays` table holds a row for each copy of a play and each copy
      of a song it matches: a play that occurs once and matches k songs
      gives k rows. The count is a lower bound because two pairs can share a
      songplay row (the nine columns leave out the song's title and artist). */
  lemma SongplaysPerPair(logs: seq<LogRecord>, songs: seq<SongRecord>, l: LogRecord, s: SongRecord)
    requires Songplays(logs, songs).Success? && MatchingPair(logs, songs, l, s)
    ensures multiset(Heads(Songplays(logs, songs).value.rows))[SongplayRow(l, s)] >=
            multiset(logs)[l] as int * multiset(songs)[s]
  {
    SongplaysRows(logs, songs);
    var joined := Joined(logs, songs).value;
    var table := Songplays(logs, songs).value;
    assert PairCount(logs, songs, joined.rows, l, s);
    PickSongplay(l, s);
    CountImage(joined.rows, Heads(table.rows), MonthedRow(l) + SongRow(s), SongplayRow(l, s));
  }

  /** Rows that are all songplay rows are none unless some pair matches. */
  lemma SomeMatch(logs: seq<LogRecord>, songs: seq<SongRecord>, rows: seq<Row>)
    requires forall row :: row in rows ==> SongplayOf(logs, songs, row)
    ensures rows != [] ==> exists l, s :: MatchingPair(logs, songs, l, s)
  {
    if rows != [] {
      assert SongplayOf(logs, songs, rows[0]);
    }
  }

  /** When no play matches any song the table has no rows. */
  lemma NoMatchNoRows(logs: seq<LogRecord>, songs: seq<SongRecord>)
    requires Songplays(logs, songs).Success?
    requires forall l, s :: l in logs && IsPlay(l) && s in songs ==> !Matches(l, s)
    ensures Songplays(logs, songs).value.rows == []
  {
    SomeMatch(logs, songs, Songplays(logs, songs).value.rows);
  }
}

=== FILE: time_data.dfy ===
/** The time columns of the song plays: `timestamp` and `datetime`, computed
    by the two Python functions from `ts`, and the `time` table built from
    them. */
module TimeData {

  import opened Wrappers
  import opened Values
  import opened Collections
  import opened Decimal
  import opened Calendar
  import opened DateTimeText
  import opened Frames
  import opened Timestamps
  import opened LogData

  /** Both Python functions succeed on the play's `ts`: it is a number whose
      whole seconds lie in the years 1 to 9999. */
  predicate Timeable(l: LogRecord) {
    Seconds(l.ts).Some? && InDatetimeRange(Seconds(l.ts).value)
  }

  /** The `timestamp` text of an epoch second. */
  function StampText(secs: int): Value {
    Str(ShowInt(secs))
  }

  /** The `datetime` text of an epoch second. */
  function DateText(secs: int): Value
    requires InDatetimeRange(secs)
  {
    Str(FormatDateTime(UtcDateTime(secs)))
  }

  /** The log columns followed by the two time columns. */
  const StampedColumns: seq<string> := LogColumns + ["timestamp"]
  const TimedColumns: seq<string> := StampedColumns + ["datetime"]

  /** The `timestamp` and `datetime` values of a play (none when a
      function would raise). */
  function TimeTexts(l: LogRecord): Row {
    if Timeable(l) then [StampText(Seconds(l.ts).value), DateText(Seconds(l.ts).value)] else []
  }

  /** A play's row with its `timestamp` and `datetime` values. */
  function TimedRow(l: LogRecord): (r: Row)
    requires Timeable(l)
    ensures |r| == |TimedColumns|
  {
    LogRow(l) + TimeTexts(l)
  }

  /** `ts` sits at position 9 of a record's row. */
  lemma TsAt(l: LogRecord)
    ensures LogRow(l)[9] == l.ts
  {
  }

  /** The first function accepts every row. */
  ghost predicate EveryStamps(rows: seq<Row>) {
    forall i :: 0 <= i < |rows| ==> |rows[i]| > 9 && TimestampUdf(rows[i][9]).Success?
  }

  /** `withColumn('timestamp', get_timestamp(df.ts))` on a frame with the
      log columns succeeds exactly when the function accepts every row. */
  lemma StampAccepts(f: Frame)
    requires f.columns == LogColumns && WellFormed(f)
    ensures WithDerived(f, "timestamp", "ts", TimestampUdf).Success? <==> EveryStamps(f.rows)
  {
    StampStep(f);
    TsColumn();
    EveryStampsWide(f.rows, |f.columns|);
  }

  /** On rows wider than ten values, accepting every row is accepting the
      tenth value of each. */
  lemma EveryStampsWide(rows: seq<Row>, n: nat)
    requires n > 9 && forall i :: 0 <= i < |rows| ==> |rows[i]| == n
    ensures EveryStamps(rows) <==> forall i :: 0 <= i < |rows| ==> TimestampUdf(rows[i][9]).Success?
  {
  }

  /** `withColumn('timestamp', get_timestamp(df.ts))` on a frame with the
      log columns, stated by position. */
  lemma StampStep(f: Frame)
    requires f.columns == LogColumns && WellFormed(f)
    ensures WithDerived(f, "timestamp", "ts", TimestampUdf).Success? <==>
      forall i :: 0 <= i < |f.rows| ==> TimestampUdf(f.rows[i][9]).Success?
    ensures WithDerived(f, "timestamp", "ts", TimestampUdf).Failure? ==>
      WithDerived(f, "timestamp", "ts", TimestampUdf).error == UdfFailed("timestamp")
    ensures WithDerived(f, "timestamp", "ts", TimestampUdf).Success? ==>
      && WithDerived(f, "timestamp", "ts", TimestampUdf).value.columns == StampedColumns
      && |WithDerived(f, "timestamp", "ts", TimestampUdf).value.rows| == |f.rows|
      && forall i :: 0 <= i < |f.rows| ==>
           WithDerived(f, "timestamp", "ts", TimestampUdf).value.rows[i] == f.rows[i] + [TimestampUdf(f.rows[i][9]).value]
  {
    TsColumn();
    FreshTimeColumns();
    WithDerivedAppends(f, "timestamp", "ts", TimestampUdf, 9);
  }

  /** `ts` resolves to position 9. */
  lemma TsColumn()
    ensures Unique(LogColumns, "ts") && LogColumns[9] == "ts"
  {
    LogSchema();
    ColumnAt(LogColumns, "ts", 9);
  }

  /** The two time columns are fresh names. */
  lemma FreshTimeColumns()
    ensures "timestamp" !in LogColumns && "datetime" !in StampedColumns
  {
  }

  /** `timestamp` resolves to position 12. */
  lemma TimestampColumn()
    ensures Unique(StampedColumns, "timestamp") && StampedColumns[12] == "timestamp"
  {
    LogSchema();
    FreshTimeColumns();
    NoDuplicatesConcat(LogColumns, ["timestamp"]);
    ColumnAt(StampedColumns, "timestamp", 12);
  }

  /** `withColumn('datetime', get_datetime(df.timestamp))` on a frame with
      the log columns and `timestamp`, stated by position. */
  lemma DatetimeStep(f: Frame)
    requires f.columns == StampedColumns && WellFormed(f)
    ensures WithDerived(f, "datetime", "timestamp", DatetimeUdf).Success? <==>
      forall i :: 0 <= i < |f.rows| ==> DatetimeUdf(f.rows[i][12]).Success?
    ensures WithDerived(f, "datetime", "timestamp", DatetimeUdf).Failure? ==>
      WithDerived(f, "datetime", "timestamp", DatetimeUdf).error == UdfFailed("datetime")
    ensures WithDerived(f, "datetime", "timestamp", DatetimeUdf).Success? ==>
      && WithDerived(f, "datetime", "timestamp", DatetimeUdf).value.columns == TimedColumns
      && |WithDerived(f, "datetime", "timestamp", DatetimeUdf).value.rows| == |f.rows|
      && forall i :: 0 <= i < |f.rows| ==>
           WithDerived(f, "datetime", "timestamp", DatetimeUdf).value.rows[i] == f.rows[i] + [DatetimeUdf(f.rows[i][12]).value]
  {
    TimestampColumn();
    FreshTimeColumns();
    WithDerivedAppends(f, "datetime", "timestamp", DatetimeUdf, 12);
  }

  /** `get_datetime` on a `timestamp` text succeeds exactly for seconds in
      range, giving the `datetime` text. */
  lemma DatetimeOfStamp(secs: int)
    ensures DatetimeUdf(StampText(secs)).Success? <==> InDatetimeRange(secs)
    ensures InDatetimeRange(secs) ==> DatetimeUdf(StampText(secs)).value == DateText(secs)
  {
    IntOfShowInt(secs);
  }

  /** The `ts` seconds of a play, as the first function sees them. */
  predicate HasSeconds(l: LogRecord) {
    Seconds(l.ts).Some?
  }

  /** The first function on a play's row. */
  lemma StampOfRow(l: LogRecord, row: Row)
    requires row == LogRow(l)
    ensures TimestampUdf(row[9]).Success? <==> HasSeconds(l)
    ensures HasSeconds(l) ==> TimestampUdf(row[9]).value == StampText(Seconds(l.ts).value)
  {
    TsAt(l);
  }

  /** The first function accepts a kept row exactly when its play has seconds. */
  lemma StampAt(logs: seq<LogRecord>, i: int)
    requires 0 <= i < |Plays(logs).rows|
    ensures TimestampUdf(Plays(logs).rows[i][9]).Success? <==> HasSeconds(PlayAt(logs, i))
    ensures HasSeconds(PlayAt(logs, i)) ==>
      TimestampUdf(Plays(logs).rows[i][9]).value == StampText(Seconds(PlayAt(logs, i).ts).value)
  {
    StampOfRow(PlayAt(logs, i), Plays(logs).rows[i]);
  }

  /** When every play has seconds, the first function accepts every kept row. */
  lemma StampsWhenAllSeconds(logs: seq<LogRecord>)
    requires forall l :: l in logs && IsPlay(l) ==> HasSeconds(l)
    ensures EveryStamps(Plays(logs).rows)
  {
    var rows := Plays(logs).rows;
    forall i | 0 <= i < |rows|
      ensures |rows[i]| > 9 && TimestampUdf(rows[i][9]).Success?
    {
      var l := PlayAt(logs, i);
      assert HasSeconds(l);
      StampOfRow(l, rows[i]);
    }
  }

  /** A play without seconds makes the first function fail on its row. */
  lemma StampFailsAt(logs: seq<LogRecord>, l: LogRecord)
    requires l in logs && IsPlay(l) && !HasSeconds(l)
    ensures !EveryStamps(Plays(logs).rows)
  {
    PlayKept(logs, l);
    var i :| 0 <= i < |Plays(logs).rows| && PlayAt(logs, i) == l;
    StampAt(logs, i);
  }

  /** The first function accepts every kept row exactly when every play has
      seconds. */
  lemma StampsAll(logs: seq<LogRecord>)
    ensures EveryStamps(Plays(logs).rows) <==> (forall l :: l in logs && IsPlay(l) ==> HasSeconds(l))
  {
    if forall l :: l in logs && IsPlay(l) ==> HasSeconds(l) {
      StampsWhenAllSeconds(logs);
    } else {
      var l :| l in logs && IsPlay(l) && !HasSeconds(l);
      StampFailsAt(logs, l);
    }
  }

  /** The frame after the first step, row by row. */
  ghost predicate StampsPlays(logs: seq<LogRecord>, stamped: Frame) {
    && |stamped.rows| == |Plays(logs).rows|
    && forall i :: 0 <= i < |Plays(logs).rows| ==>
         TimestampUdf(Plays(logs).rows[i][9]).Success? &&
         stamped.rows[i] == Plays(logs).rows[i] + [TimestampUdf(Plays(logs).rows[i][9]).value]
  }

  /** After the first step, row `i` holds the seconds text of its play. */
  lemma StampedAt(logs: seq<LogRecord>, stamped: Frame, i: int)
    requires StampsPlays(logs, stamped) && 0 <= i < |stamped.rows|
    ensures HasSeconds(PlayAt(logs, i))
    ensures stamped.rows[i] == LogRow(PlayAt(logs, i)) + [StampText(Seconds(PlayAt(logs, i).ts).value)]
  {
    StampAt(logs, i);
  }

  /** The second function on a play's row after the first step. */
  lemma DateOfRow(l: LogRecord, row: Row)
    requires HasSeconds(l) && row == LogRow(l) + [StampText(Seconds(l.ts).value)]
    ensures |row| == |StampedColumns|
    ensures DatetimeUdf(row[12]).Success? <==> Timeable(l)
    ensures Timeable(l) ==> row + [DatetimeUdf(row[12]).value] == TimedRow(l)
  {
    var secs := Seconds(l.ts).value;
    assert row[12] == StampText(secs);
    DatetimeOfStamp(secs);
  }

  /** The second function accepts row `i` exactly when its play is timeable,
      and then completes the play's timed row. */
  lemma DateAt(logs: seq<LogRecord>, stamped: Frame, i: int)
    requires StampsPlays(logs, stamped) && 0 <= i < |stamped.rows|
    ensures |stamped.rows[i]| == |StampedColumns|
    ensures DatetimeUdf(stamped.rows[i][12]).Success? <==> Timeable(PlayAt(logs, i))
    ensures Timeable(PlayAt(logs, i)) ==>
      stamped.rows[i] + [DatetimeUdf(stamped.rows[i][12]).value] == TimedRow(PlayAt(logs, i))
  {
    StampedAt(logs, stamped, i);
    DateOfRow(PlayAt(logs, i), stamped.rows[i]);
  }

  /** The second function accepts every row exactly when every play is
      timeable. */
  lemma DatesAll(logs: seq<LogRecord>, stamped: Frame)
    requires StampsPlays(logs, stamped)
    ensures forall i :: 0 <= i < |stamped.rows| ==> |stamped.rows[i]| == |StampedColumns|
    ensures (forall i :: 0 <= i < |stamped.rows| ==> DatetimeUdf(stamped.rows[i][12]).Success?) <==>
            (forall l :: l in logs && IsPlay(l) ==> Timeable(l))
  {
    forall i | 0 <= i < |stamped.rows|
      ensures |stamped.rows[i]| == |StampedColumns|
    {
      DateAt(logs, stamped, i);
    }
    if forall l :: l in logs && IsPlay(l) ==> Timeable(l) {
      forall i | 0 <= i < |stamped.rows|
        ensures DatetimeUdf(stamped.rows[i][12]).Success?
      {
        DateAt(logs, stamped, i);
      }
    } else {
      var l :| l in logs && IsPlay(l) && !Timeable(l);
      PlayKept(logs, l);
      var i :| 0 <= i < |Plays(logs).rows| && PlayAt(logs, i) == l;
      DateAt(logs, stamped, i);
    }
  }

  /** After the second step, every row is the timed row of its play. */
  lemma TimedFrame(logs: seq<LogRecord>, stamped: Frame, timed: Frame)
    requires StampsPlays(logs, stamped)
    requires |timed.rows| == |stamped.rows|
    requires forall i :: 0 <= i < |stamped.rows| ==>
      DatetimeUdf(stamped.rows[i][12]).Success? &&
      timed.rows[i] == stamped.rows[i] + [DatetimeUdf(stamped.rows[i][12]).value]
    ensures ExtendsPlays(logs, timed.rows, TimeTexts)
  {
    forall i | 0 <= i < |timed.rows|
      ensures timed.rows[i] == LogRow(PlayAt(logs, i)) + TimeTexts(PlayAt(logs, i))
    {
      DateAt(logs, stamped, i);
    }
  }

  /** Every timed row is that of a timeable play of the input. */
  lemma TimedSound(logs: seq<LogRecord>, rows: seq<Row>, row: Row)
    requires ExtendsPlays(logs, rows, TimeTexts) && row in rows
    requires forall l :: l in logs && IsPlay(l) ==> Timeable(l)
    ensures exists l :: l in logs && IsPlay(l) && Timeable(l) && row == TimedRow(l)
  {
    ExtendedSound(logs, rows, TimeTexts, row);
    var l :| l in logs && IsPlay(l) && row == LogRow(l) + TimeTexts(l);
  }

  /** Rows that extend the plays with their time texts hold exactly the
      timed rows of the plays, each as often as the play. */
  lemma TimedContents(logs: seq<LogRecord>, rows: seq<Row>)
    requires ExtendsPlays(logs, rows, TimeTexts)
    requires forall l :: l in logs && IsPlay(l) ==> Timeable(l)
    ensures forall row :: row in rows ==> exists l :: l in logs && IsPlay(l) && Timeable(l) && row == TimedRow(l)
    ensures forall l :: Timeable(l) ==> multiset(rows)[TimedRow(l)] == if IsPlay(l) then multiset(logs)[l] else 0
  {
    forall l | Timeable(l)
      ensures multiset(rows)[TimedRow(l)] == if IsPlay(l) then multiset(logs)[l] else 0
    {
      ExtendedCount(logs, rows, TimeTexts, l);
    }
    forall row | row in rows
      ensures exists l :: l in logs && IsPlay(l) && Timeable(l) && row == TimedRow(l)
    {
      TimedSound(logs, rows, row);
    }
  }

  /** `df.withColumn('timestamp', get_timestamp(df.ts))` on the plays: fails
      when a play has no seconds, otherwise appends each play's seconds text. */
  function Stamped(logs: seq<LogRecord>): (r: Outcome<Frame>)
    ensures r.Success? <==> forall l :: l in logs && IsPlay(l) ==> HasSeconds(l)
    ensures r.Failure? ==> r.error == UdfFailed("timestamp")
    ensures r.Success? ==> r.value.columns == StampedColumns && WellFormed(r.value) && StampsPlays(logs, r.value)
  {
    var plays := Plays(logs);
    StampAccepts(plays);
    StampStep(plays);
    StampsAll(logs);
    WithDerived(plays, "timestamp", "ts", TimestampUdf)
  }

  /** `df.withColumn('timestamp', get_timestamp(df.ts))` and then
      `.withColumn('datetime', get_datetime(df.timestamp))` on the plays. It
      fails when one of the functions raises on a play, with the first
      function's error if any play has no seconds; otherwise every play gets
      its two time texts, each play as often as it occurs. */
  function Timed(logs: seq<LogRecord>): (r: Outcome<Frame>)
    ensures r.Success? <==> forall l :: l in logs && IsPlay(l) ==> Timeable(l)
    ensures r.Failure? ==>
      r.error == if forall l :: l in logs && IsPlay(l) ==> HasSeconds(l) then UdfFailed("datetime") else UdfFailed("timestamp")
    ensures r.Success? ==> r.value.columns == TimedColumns && WellFormed(r.value)
    ensures r.Success? ==> forall row :: row in r.value.rows ==>
      exists l :: l in logs && IsPlay(l) && Timeable(l) && row == TimedRow(l)
    ensures r.Success? ==> forall l :: Timeable(l) ==>
      multiset(r.value.rows)[TimedRow(l)] == if IsPlay(l) then multiset(logs)[l] else 0
  {
    var stamped :- Stamped(logs);
    DatetimeStep(stamped);
    DatesAll(logs, stamped);
    var timed :- WithDerived(stamped, "datetime", "timestamp", DatetimeUdf);
    TimedFrame(logs, stamped, timed);
    TimedContents(logs, timed.rows);
    Success(timed)
  }

  /** The shape of the timed plays that later steps rely on: distinct column
      names, `datetime` at position 13 and `timestamp` at 12. */
  predicate TimedShape(cols: seq<string>) {
    NoDuplicates(cols) && |cols| == 14 && cols[13] == "datetime" && cols[12] == "timestamp"
  }

  /** `datetime` is column 13 and `timestamp` column 12 of the timed plays,
      and no column name repeats. */
  lemma TimedSchema()
    ensures TimedShape(TimedColumns)
  {
    LogSchema();
    FreshTimeColumns();
    NoDuplicatesConcat(LogColumns, ["timestamp"]);
    NoDuplicatesConcat(StampedColumns, ["datetime"]);
  }
}

=== FILE: time_table.dfy ===
/** The `time` table: one row per distinct moment at which a song was played,
    with the moment's text, its seconds, and its calendar parts. */
module TimeTable {

  import opened Wrappers
  import opened Values
  import opened Collections
  import opened Decimal
  import opened Calendar
  import opened DateTimeText
  import opened Frames
  import opened Timestamps
  import opened LogData
  import opened TimeData

  /** The calendar columns computed from `datetime`, in the order of the
      `withColumn` chain: `hour`, `dayofmonth`, `weekofyear`, `month`,
      `year`, `dayofweek`. */
  const TimeParts: seq<(string, Value -> Value)> :=
    [("hour", HourOf), ("day", DayOf), ("week", WeekOf), ("month", Timestamps.MonthOf),
     ("year", YearOf), ("weekday", WeekdayOf)]

  const TimeColumns: seq<string> := ["datetime", "start_time", "hour", "day", "week", "month", "year", "weekday"]

  /** The `time` row the chain builds from a `datetime` and a `timestamp` value. */
  function TimeOf(date: Value, stamp: Value): (r: Row)
    ensures |r| == |TimeColumns|
  {
    [date, stamp] + PartValues(TimeParts, date)
  }

  /** The calendar parts of a date-time: hour, day of the month, ISO week,
      month, year and Spark weekday. */
  function CalendarParts(dt: DateTime): Row
    requires ValidDateTime(dt)
  {
    var z := DaysFromCivil(dt.date);
    [Int(dt.hour), Int(dt.date.day), Int(IsoWeek(z)), Int(dt.date.month), Int(dt.date.year), Int(DayOfWeek(z))]
  }

  /** The `time` row of an epoch second, read straight off the calendar:
      the reference the table is checked against. */
  function TimeRow(secs: int): (r: Row)
    requires InDatetimeRange(secs)
    ensures |r| == |TimeColumns|
  {
    [DateText(secs), StampText(secs)] + CalendarParts(UtcDateTime(secs))
  }

  /** Renaming `timestamp` in the two selected columns. */
  lemma StartSchema(rows: seq<Row>)
    ensures WithColumnRenamed(Frame(["datetime", "timestamp"], rows), "timestamp", "start_time")
      == Frame(["datetime", "start_time"], rows)
  {
  }

  /** The calendar columns are fresh and distinct, and `datetime` is the
      first of the two columns they are computed beside. */
  lemma PartsSchema()
    ensures Unique(["datetime", "start_time"], "datetime") && IndexOf(["datetime", "start_time"], "datetime") == 0
    ensures forall k :: 0 <= k < |TimeParts| ==> TimeParts[k].0 !in ["datetime", "start_time"]
    ensures forall i, j :: 0 <= i < j < |TimeParts| ==> TimeParts[i].0 != TimeParts[j].0
    ensures ["datetime", "start_time"] + PartNames(TimeParts) == TimeColumns
  {
    assert PartNames(TimeParts) == ["hour", "day", "week", "month", "year", "weekday"];
  }

  /** Line 100 as written: `df.select('datetime')` keeps the `datetime`
      column alone, and `.withColumn('start_time', df.timestamp)` then refers
      to a `timestamp` column that the selected frame no longer has. */
  function StartedAsWritten(timed: Frame): Outcome<Frame>
    requires WellFormed(timed)
  {
    var dated :- Select(timed, ["datetime"]);
    WithComputed(dated, "start_time", "timestamp", v => v)
  }

  /** Line 100 as written fails on every frame of the timed columns, rows
      or none, because `timestamp` is not among the selected columns. */
  lemma StartedAsWrittenFails(timed: Frame)
    requires TimedShape(timed.columns) && WellFormed(timed)
    ensures StartedAsWritten(timed) == Failure(MissingColumn("timestamp"))
  {
    SelectAt(timed, ["datetime"], [13]);
    var dated := Select(timed, ["datetime"]).value;
    assert "timestamp" !in dated.columns;
  }

  /** The `time` table as written. Spark resolves the column references of
      a statement when it builds the statement, from the columns alone and
      before the functions of lines 94-98 run on any row; the timed frame
      always has the timed columns (a frame with those columns and no rows
      stands for it), so line 100 stops the table whatever values the
      log's records hold. */
  function TableAsWritten(): (r: Outcome<Frame>)
    ensures r == Failure(MissingColumn("timestamp"))
  {
    TimedSchema();
    StartedAsWrittenFails(Frame(TimedColumns, []));
    StartedAsWritten(Frame(TimedColumns, []))
  }

  /** Line 100 corrected: `datetime` and `timestamp` selected together and
      `timestamp` renamed to `start_time`, so each row's `datetime` stands
      beside that row's `timestamp`. */
  function Started(timed: Frame): (r: Frame)
    requires TimedShape(timed.columns) && WellFormed(timed)
    ensures r.columns == ["datetime", "start_time"] && |r.rows| == |timed.rows|
    ensures forall i :: 0 <= i < |timed.rows| ==> r.rows[i] == [timed.rows[i][13], timed.rows[i][12]]
  {
    SelectAt(timed, ["datetime", "timestamp"], [13, 12]);
    var picked := Select(timed, ["datetime", "timestamp"]).value;
    StartSchema(picked.rows);
    WithColumnRenamed(picked, "timestamp", "start_time")
  }

  /** The `withColumn` chain on the two started columns: six calendar
      columns computed from `datetime`. */
  function Chain(started: Frame): (r: Frame)
    requires started.columns == ["datetime", "start_time"] && WellFormed(started)
    ensures r.columns == TimeColumns && |r.rows| == |started.rows|
    ensures forall i :: 0 <= i < |started.rows| ==> r.rows[i] == started.rows[i] + PartValues(TimeParts, started.rows[i][0])
  {
    PartsSchema();
    WithComputedAllAppends(started, "datetime", TimeParts);
    WithComputedAll(started, "datetime", TimeParts).value
  }

  /** The chain's rows, position by position, from the timed rows. */
  lemma PartedRows(timed: Frame, started: Frame, parted: Frame)
    requires WellFormed(timed) && |timed.columns| == 14
    requires |started.rows| == |timed.rows|
    requires forall i :: 0 <= i < |timed.rows| ==> started.rows[i] == [timed.rows[i][13], timed.rows[i][12]]
    requires parted.columns == TimeColumns && |parted.rows| == |started.rows|
    requires forall i :: 0 <= i < |started.rows| ==>
      parted.rows[i] == started.rows[i] + PartValues(TimeParts, started.rows[i][0])
    ensures WellFormed(parted)
    ensures forall i :: 0 <= i < |timed.rows| ==> parted.rows[i] == TimeOf(timed.rows[i][13], timed.rows[i][12])
  {
  }

  /** The whole `withColumn` chain, before duplicates are dropped: row `i`
      is the `time` row of the `i`-th play. */
  function Parted(timed: Frame): (r: Frame)
    requires TimedShape(timed.columns) && WellFormed(timed)
    ensures r.columns == TimeColumns && WellFormed(r) && |r.rows| == |timed.rows|
    ensures forall i :: 0 <= i < |timed.rows| ==> r.rows[i] == TimeOf(timed.rows[i][13], timed.rows[i][12])
  {
    var started := Started(timed);
    var parted := Chain(started);
    PartedRows(timed, started, parted);
    parted
  }

  /** The calendar columns of a value that reads as the date-time `dt`. */
  lemma PartsOf(v: Value, dt: DateTime)
    requires DateTimeOf(v) == Some(dt)
    ensures PartValues(TimeParts, v) == CalendarParts(dt)
  {
  }

  /** On the two time texts of a second, the chain gives its reference row. */
  lemma TimeOfTexts(secs: int)
    requires InDatetimeRange(secs)
    ensures TimeOf(DateText(secs), StampText(secs)) == TimeRow(secs)
  {
    DateTimeOfFormatted(UtcDateTime(secs));
    PartsOf(DateText(secs), UtcDateTime(secs));
  }

  /** On a play's timed row, the chain gives the reference row of its seconds. */
  lemma TimeOfPlay(l: LogRecord)
    requires Timeable(l)
    ensures TimeOf(TimedRow(l)[13], TimedRow(l)[12]) == TimeRow(Seconds(l.ts).value)
  {
    var secs := Seconds(l.ts).value;
    assert TimedRow(l)[12] == StampText(secs) && TimedRow(l)[13] == DateText(secs);
    TimeOfTexts(secs);
  }

  /** Row `i` of the chain is the reference row of some play. */
  lemma TimeRowSound(logs: seq<LogRecord>, timed: Frame, i: int)
    requires timed.columns == TimedColumns && WellFormed(timed) && 0 <= i < |timed.rows|
    requires forall row :: row in timed.rows ==> exists l :: l in logs && IsPlay(l) && Timeable(l) && row == TimedRow(l)
    ensures exists l :: l in logs && IsPlay(l) && Timeable(l) && TimeOf(timed.rows[i][13], timed.rows[i][12]) == TimeRow(Seconds(l.ts).value)
  {
    assert timed.rows[i] in timed.rows;
    var l :| l in logs && IsPlay(l) && Timeable(l) && timed.rows[i] == TimedRow(l);
    TimeOfPlay(l);
  }

  /** The reference row of every play is a row of the chain. */
  lemma TimeRowComplete(logs: seq<LogRecord>, timed: Frame, l: LogRecord)
    requires timed.columns == TimedColumns && WellFormed(timed)
    requires forall l :: Timeable(l) ==> multiset(timed.rows)[TimedRow(l)] == if IsPlay(l) then multiset(logs)[l] else 0
    requires l in logs && IsPlay(l) && Timeable(l)
    ensures exists i :: 0 <= i < |timed.rows| && TimeOf(timed.rows[i][13], timed.rows[i][12]) == TimeRow(Seconds(l.ts).value)
  {
    assert multiset(timed.rows)[TimedRow(l)] > 0;
    var i :| 0 <= i < |timed.rows| && timed.rows[i] == TimedRow(l);
    TimeOfPlay(l);
  }

  /** The rows the chain derives from the timed plays are exactly the
      reference rows of the plays. */
  lemma TimeRowsOfPlays(logs: seq<LogRecord>, timed: Frame, rows: seq<Row>)
    requires timed.columns == TimedColumns && WellFormed(timed)
    requires forall row :: row in timed.rows ==> exists l :: l in logs && IsPlay(l) && Timeable(l) && row == TimedRow(l)
    requires forall l :: Timeable(l) ==> multiset(timed.rows)[TimedRow(l)] == if IsPlay(l) then multiset(logs)[l] else 0
    requires |rows| == |timed.rows|
    requires forall i :: 0 <= i < |timed.rows| ==> rows[i] == TimeOf(timed.rows[i][13], timed.rows[i][12])
    ensures forall row :: row in rows <==>
      exists l :: l in logs && IsPlay(l) && Timeable(l) && row == TimeRow(Seconds(l.ts).value)
  {
    forall row | row in rows
      ensures exists l :: l in logs && IsPlay(l) && Timeable(l) && row == TimeRow(Seconds(l.ts).value)
    {
      var i :| 0 <= i < |rows| && rows[i] == row;
      TimeRowSound(logs, timed, i);
    }
    forall l | l in logs && IsPlay(l) && Timeable(l)
      ensures TimeRow(Seconds(l.ts).value) in rows
    {
      TimeRowComplete(logs, timed, l);
    }
  }

  /** The `time` table of the log records: it fails exactly when building
      the two time columns fails, with the same error; otherwise it holds,
      once each, the reference rows of the seconds at which songs were
      played. */
  function Table(logs: seq<LogRecord>): (r: Outcome<Frame>)
    ensures r.Success? <==> forall l :: l in logs && IsPlay(l) ==> Timeable(l)
    ensures r.Failure? ==> Timed(logs).Failure? && r.error == Timed(logs).error
    ensures r.Success? ==> r.value.columns == TimeColumns && WellFormed(r.value) && NoDuplicates(r.value.rows)
    ensures r.Success? ==> forall row :: row in r.value.rows <==>
      exists l :: l in logs && IsPlay(l) && Timeable(l) && row == TimeRow(Seconds(l.ts).value)
  {
    var timed :- Timed(logs);
    TimedSchema();
    var parted := Parted(timed);
    TimeRowsOfPlays(logs, timed, parted.rows);
    Success(DropDuplicates(parted))
  }

  /** Every `time` row holds a real calendar moment: an hour of the day, a
      day that exists in its month, an ISO week, a month, a year Python can
      represent and a Spark weekday one ahead of the ISO weekday. */
  lemma TimeRowBounds(secs: int)
    requires InDatetimeRange(secs)
    ensures var r := TimeRow(secs);
      && r[2].Int? && 0 <= r[2].i <= 23
      && r[5].Int? && 1 <= r[5].i <= 12
      && r[6].Int? && FirstYear <= r[6].i <= LastYear
      && r[3].Int? && 1 <= r[3].i <= DaysInMonth(r[6].i, r[5].i)
      && r[4].Int? && 1 <= r[4].i <= 53
      && r[7].Int? && 1 <= r[7].i <= 7
      && r[7].i == IsoWeekday(DaysFromCivil(Date(r[6].i, r[5].i, r[3].i))) % 7 + 1
  {
    WeekdayFacts(DaysFromCivil(UtcDateTime(secs).date));
  }

  /** The `datetime` and `start_time` of a row name the same second: the
      first reads back as the date-time of that second, the second as the
      second itself. */
  lemma TimeRowReadsBack(secs: int)
    requires InDatetimeRange(secs)
    ensures DateTimeOf(TimeRow(secs)[0]) == Some(UtcDateTime(secs))
    ensures EpochSeconds(DateTimeOf(TimeRow(secs)[0]).value) == secs
    ensures IntOf(TimeRow(secs)[1]) == Some(secs)
  {
    DateTimeOfFormatted(UtcDateTime(secs));
    IntOfShowInt(secs);
  }

  /** `start_time` determines the whole row. */
  lemma TimeRowKeyed(a: int, b: int)
    requires InDatetimeRange(a) && InDatetimeRange(b)
    requires TimeRow(a)[1] == TimeRow(b)[1]
    ensures a == b && TimeRow(a) == TimeRow(b)
  {
    ShowIntInjective(a, b);
  }

  /** Distinct rows of reference rows differ in `start_time`. */
  lemma KeyedRows(logs: seq<LogRecord>, rows: seq<Row>)
    requires NoDuplicates(rows)
    requires forall row :: row in rows <==>
      exists l :: l in logs && IsPlay(l) && Timeable(l) && row == TimeRow(Seconds(l.ts).value)
    ensures forall i :: 0 <= i < |rows| ==> |rows[i]| == |TimeColumns|
    ensures forall i, j :: 0 <= i < |rows| && 0 <= j < |rows| && rows[i][1] == rows[j][1] ==> i == j
  {
    forall i | 0 <= i < |rows|
      ensures |rows[i]| == |TimeColumns|
    {
      assert rows[i] in rows;
    }
    forall i, j | 0 <= i < |rows| && 0 <= j < |rows| && rows[i][1] == rows[j][1]
      ensures i == j
    {
      assert rows[i] in rows && rows[j] in rows;
      var a :| a in logs && IsPlay(a) && Timeable(a) && rows[i] == TimeRow(Seconds(a.ts).value);
      var b :| b in logs && IsPlay(b) && Timeable(b) && rows[j] == TimeRow(Seconds(b.ts).value);
      TimeRowKeyed(Seconds(a.ts).value, Seconds(b.ts).value);
    }
  }

  /** In the table, no two rows share a `start_time`. */
  lemma TableKeyed(logs: seq<LogRecord>, t: Frame)
    requires Table(logs) == Success(t)
    ensures forall i :: 0 <= i < |t.rows| ==> |t.rows[i]| == |TimeColumns|
    ensures forall i, j :: 0 <= i < |t.rows| && 0 <= j < |t.rows| && t.rows[i][1] == t.rows[j][1] ==> i == j
  {
    KeyedRows(logs, t.rows);
  }

  /** 2018-11-21 is day 17856 after 1970-01-01. */
  lemma ExampleDay()
    ensures ValidDate(Date(2018, 11, 21)) && DaysFromCivil(Date(2018, 11, 21)) == 17856
  {
    assert YearStart(2018) == 17532;
    assert DaysBeforeMonth(2018, 11) == 304;
  }

  /** Second 1542837407 is 2018-11-21 21:56:47 UTC. */
  lemma ExampleMoment()
    ensures UtcDateTime(1542837407) == DateTime(Date(2018, 11, 21), 21, 56, 47)
  {
    var dt := DateTime(Date(2018, 11, 21), 21, 56, 47);
    ExampleDay();
    assert EpochSeconds(dt) == 1542837407;
    UtcDateTimeOfEpochSeconds(dt);
  }

  /** Day 17856, a Wednesday, lies in ISO week 47 of 2018; Spark numbers
      Wednesday 4. */
  lemma ExampleWeek()
    ensures IsoWeek(17856) == 47 && DayOfWeek(17856) == 4
  {
    assert IsoWeekday(17856) == 3;
    assert WeekThursday(17856) == 17857;
    var yd := YearAndDay(17857);
    assert YearStart(2018) == 17532 && YearStart(2019) == 17897;
    YearStartStep(yd.0);
    YearOfDayUnique(17857, yd.0, 2018);
  }

  /** The date half of the example text. */
  lemma ExampleDateText()
    ensures PadDigits(2018, 4) + "-" + PadDigits(11, 2) + "-" + PadDigits(21, 2) == "2018-11-21"
  {
    assert PadDigits(2018, 4) == "2018";
    assert PadDigits(11, 2) == "11";
    assert PadDigits(21, 2) == "21";
    assert "2018" + "-" == "2018-";
    assert "2018-" + "11" == "2018-11";
    assert "2018-11" + "-" == "2018-11-";
    assert "2018-11-" + "21" == "2018-11-21";
  }

  /** The time half of the example text, after the date. */
  lemma ExampleTimeText(date: string)
    requires date == "2018-11-21"
    ensures date + " " + PadDigits(21, 2) + ":" + PadDigits(56, 2) + ":" + PadDigits(47, 2) == "2018-11-21 21:56:47"
  {
    assert PadDigits(21, 2) == "21";
    assert PadDigits(56, 2) == "56";
    assert PadDigits(47, 2) == "47";
    assert date + " " == "2018-11-21 ";
    assert "2018-11-21 " + "21" == "2018-11-21 21";
    assert "2018-11-21 21" + ":" == "2018-11-21 21:";
    assert "2018-11-21 21:" + "56" == "2018-11-21 21:56";
    assert "2018-11-21 21:56" + ":" == "2018-11-21 21:56:";
    assert "2018-11-21 21:56:" + "47" == "2018-11-21 21:56:47";
  }

  /** The text Python writes for 2018-11-21 21:56:47. */
  lemma ExampleText()
    ensures FormatDateTime(DateTime(Date(2018, 11, 21), 21, 56, 47)) == "2018-11-21 21:56:47"
  {
    ExampleDay();
    ExampleDateText();
    ExampleTimeText(PadDigits(2018, 4) + "-" + PadDigits(11, 2) + "-" + PadDigits(21, 2));
  }

  /** The `time` row of the play at `ts = 1542837407796`: Wednesday
      2018-11-21, 21:56:47 UTC, in week 47. */
  lemma TimeRowExample()
    ensures Seconds(Int(1542837407796)) == Some(1542837407)
    ensures InDatetimeRange(1542837407)
    ensures TimeRow(1542837407) == [Str("2018-11-21 21:56:47"), Str("1542837407"), Int(21), Int(21), Int(47),
                                    Int(11), Int(2018), Int(4)]
  {
    ExampleMoment();
    ExampleDay();
    ExampleWeek();
    ExampleText();
    ShowExample();
  }
}

=== FILE: timestamps.dfy ===
/** The two Python functions that turn the millisecond `ts` field into a
    seconds string and a date-time string, and the built-in column functions
    that read the calendar fields back out of the date-time string. Times are
    read in UTC. */
module Timestamps {

  import opened Wrappers
  import opened Values
  import opened Decimal
  import opened Calendar
  import opened DateTimeText
  import opened Frames

  /** Integer division rounded toward zero, as `int(a / b)` rounds. */
  function TruncDiv(n: int, d: int): (q: int)
    requires d > 0
    ensures n >= 0 ==> q >= 0 && q * d <= n < q * d + d
    ensures n < 0 ==> q <= 0 && q * d - d < n <= q * d
  {
    if n >= 0 then n / d else -((-n) / d)
  }

  /** `int(x)` of a float: the integer part, rounded toward zero. */
  function Trunc(x: real): (n: int)
    ensures x >= 0.0 ==> n as real <= x < n as real + 1.0
    ensures x < 0.0 ==> n as real - 1.0 < x <= n as real
  {
    if x >= 0.0 then x.Floor else -((-x).Floor)
  }

  /** `int(v)` in Python for the values a column can hold: a number, or the
      decimal text of one. `None` and other text raise, here `None`. */
  function IntOf(v: Value): (r: Option<int>)
    ensures v.Int? ==> r == Some(v.i)
    ensures v.Null? ==> r.None?
  {
    match v
    case Int(n) => Some(n)
    case Str(s) => ParseInt(s)
    case Dbl(x) => Some(Trunc(x))
    case Null => None
  }

  /** The decimal text of a number reads back as that number. */
  lemma IntOfShowInt(n: int)
    ensures IntOf(Str(ShowInt(n))) == Some(n)
  {
    ParseShowInt(n);
  }

  /** The whole seconds of a millisecond time stamp, as `int(int(ts) / 1000)`
      computes them. */
  function Seconds(ts: Value): (r: Option<int>)
    ensures r.Some? <==> IntOf(ts).Some?
    ensures r.Some? ==> var ms := IntOf(ts).value;
      (ms >= 0 ==> 1000 * r.value <= ms < 1000 * r.value + 1000) &&
      (ms < 0 ==> 1000 * r.value - 1000 < ms <= 1000 * r.value)
  {
    match IntOf(ts)
    case Some(ms) => Some(TruncDiv(ms, 1000))
    case None => None
  }

  /** `get_timestamp`: `str(int(int(ts) / 1000))`; raising when `ts` is not a
      number. */
  function TimestampUdf(ts: Value): (r: Outcome<Value>)
    ensures r.Success? <==> Seconds(ts).Some?
    ensures r.Failure? ==> r.error == UdfFailed("timestamp")
    ensures r.Success? ==> r.value.Str?
  {
    match Seconds(ts)
    case Some(secs) => Success(Str(ShowInt(secs)))
    case None => Failure(UdfFailed("timestamp"))
  }

  /** The text `get_timestamp` writes reads back as the whole seconds. */
  lemma TimestampReadsBack(ts: Value)
    requires TimestampUdf(ts).Success?
    ensures IntOf(TimestampUdf(ts).value) == Seconds(ts)
  {
    IntOfShowInt(Seconds(ts).value);
  }

  /** The seconds Python's `datetime` can represent (years 1 to 9999). */
  predicate InDatetimeRange(secs: int) {
    MinSecond <= secs <= MaxSecond
  }

  /** `get_datetime`: `str(datetime.fromtimestamp(int(ts)))`, read in UTC:
      `YYYY-MM-DD HH:MM:SS`. Raises when the text is not a number or the
      moment lies outside the years 1 to 9999. */
  function DatetimeUdf(ts: Value): (r: Outcome<Value>)
    ensures r.Success? <==> IntOf(ts).Some? && InDatetimeRange(IntOf(ts).value)
    ensures r.Failure? ==> r.error == UdfFailed("datetime")
    ensures r.Success? ==> r.value.Str?
  {
    match IntOf(ts)
    case Some(secs) =>
      if InDatetimeRange(secs) then Success(Str(FormatDateTime(UtcDateTime(secs))))
      else Failure(UdfFailed("datetime"))
    case None => Failure(UdfFailed("datetime"))
  }

  /** The text `get_datetime` writes reads back as a date-time that denotes
      the same epoch second. */
  lemma DatetimeReadsBack(ts: Value)
    requires DatetimeUdf(ts).Success?
    ensures DateTimeOf(DatetimeUdf(ts).value).Some?
    ensures EpochSeconds(DateTimeOf(DatetimeUdf(ts).value).value) == IntOf(ts).value
  {
    ParseFormatDateTime(UtcDateTime(IntOf(ts).value));
  }

  /** The date-time a string column value of the form `YYYY-MM-DD HH:MM:SS`
      denotes; texts of any other form give none. Spark's cast also reads
      other forms, but the only texts this job passes are the ones
      `get_datetime` writes, which have this form. */
  function DateTimeOf(v: Value): (r: Option<DateTime>)
    ensures r.Some? ==> ValidDateTime(r.value)
  {
    if v.Str? then ParseDateTime(v.s) else None
  }

  /** A formatted date-time is read back as itself. */
  lemma DateTimeOfFormatted(dt: DateTime)
    requires ValidDateTime(dt)
    ensures DateTimeOf(Str(FormatDateTime(dt))) == Some(dt)
  {
    ParseFormatDateTime(dt);
  }

  /** `hour(col)`: the hour, or null for text that is not a date-time. */
  function HourOf(v: Value): (r: Value)
    ensures r == Null || (r.Int? && 0 <= r.i <= 23)
    ensures r.Int? <==> DateTimeOf(v).Some?
  {
    match DateTimeOf(v)
    case Some(dt) => Int(dt.hour)
    case None => Null
  }

  /** `dayofmonth(col)`. */
  function DayOf(v: Value): (r: Value)
    ensures r == Null || (r.Int? && 1 <= r.i <= 31)
    ensures r.Int? <==> DateTimeOf(v).Some?
  {
    match DateTimeOf(v)
    case Some(dt) => Int(dt.date.day)
    case None => Null
  }

  /** `weekofyear(col)`: the ISO 8601 week number. */
  function WeekOf(v: Value): (r: Value)
    ensures r == Null || (r.Int? && 1 <= r.i <= 53)
    ensures r.Int? <==> DateTimeOf(v).Some?
  {
    match DateTimeOf(v)
    case Some(dt) => Int(IsoWeek(DaysFromCivil(dt.date)))
    case None => Null
  }

  /** `month(col)`. */
  function MonthOf(v: Value): (r: Value)
    ensures r == Null || (r.Int? && 1 <= r.i <= 12)
    ensures r.Int? <==> DateTimeOf(v).Some?
  {
    match DateTimeOf(v)
    case Some(dt) => Int(dt.date.month)
    case None => Null
  }

  /** `year(col)`. */
  function YearOf(v: Value): (r: Value)
    ensures r == Null || (r.Int? && FirstYear <= r.i <= LastYear)
    ensures r.Int? <==> DateTimeOf(v).Some?
  {
    match DateTimeOf(v)
    case Some(dt) => Int(dt.date.year)
    case None => Null
  }

  /** `dayofweek(col)`: 1 for Sunday up to 7 for Saturday. */
  function WeekdayOf(v: Value): (r: Value)
    ensures r == Null || (r.Int? && 1 <= r.i <= 7)
    ensures r.Int? <==> DateTimeOf(v).Some?
  {
    match DateTimeOf(v)
    case Some(dt) => Int(DayOfWeek(DaysFromCivil(dt.date)))
    case None => Null
  }

  /** The leading digits of the example time stamp. */
  lemma ShowExamplePrefix()
    ensures ShowNat(15428) == "15428"
  {
    assert ShowNat(1) == "1";
    assert ShowNat(15) == "15";
    assert ShowNat(154) == "154";
    assert ShowNat(1542) == "1542";
  }

  /** The decimal text of the example time stamp's seconds. */
  lemma ShowExample()
    ensures ShowInt(1542837407) == "1542837407"
  {
    ShowExamplePrefix();
    assert ShowNat(154283) == "154283";
    assert ShowNat(1542837) == "1542837";
    assert ShowNat(15428374) == "15428374";
    assert ShowNat(154283740) == "154283740";
  }

  /** The time stamp of `ts = 1542837407796` is the text `1542837407`. */
  lemma TimestampExample()
    ensures TimestampUdf(Int(1542837407796)) == Success(Str("1542837407"))
  {
    assert Seconds(Int(1542837407796)) == Some(1542837407);
    ShowExample();
  }
}

=== FILE: values.dfy ===
/** Cell values of the data frames the transforms work on. */
module Values {

  /** A cell as the JSON reader and the column functions produce it. A field
      missing from a JSON record reads as `Null`; `Int` covers the integer
      column types and `Dbl` the floating-point ones (compared only for
      equality, so a real number stands in for a double). */
  datatype Value = Null | Str(s: string) | Int(i: int) | Dbl(d: real)

  /** SQL `=`: a comparison with null never holds. */
  predicate SqlEquals(a: Value, b: Value) {
    a != Null && b != Null && a == b
  }
}

=== FILE: wrappers.dfy ===
/** Optional values and failure-compatible results. */
module Wrappers {

  datatype Option<+T> = None | Some(value: T)

  /** The outcome of an operation that can fail with an error of type `E`. */
  datatype Result<+T, +E> = Success(value: T) | Failure(error: E) {

    predicate IsFailure() {
      Failure?
    }

    function PropagateFailure<U>(): Result<U, E>
      requires Failure?
    {
      Failure(error)
    }

    function Extract(): T
      requires Success?
    {
      value
    }
  }
}
